=== FILE: README.md ===
# AggApp swap-quote aggregator — a Dafny model

AggApp answers one question: for a swap of an amount of one token into another on Arbitrum,
which DEX pool gives the best deal? This project models that answer in Dafny and proves
properties of the model. Two generations of the backend are covered.

The second generation is `aggregator-backend/`:
- the DEX services quote each pool of the requested pair (Uniswap V3, SushiSwap V3, Camelot V3/Algebra);
- they price gas in USD (the base DEX service and its gas-price cache);
- token USD prices come from DefiLlama or CoinGecko, cached in Redis;
- the pipeline in `exchange_utils.py` turns each pool into a route;
- `decision_engine.py` ranks the routes with TOPSIS;
- the `/exchange` and `/config` endpoints merge, rank and answer.

The first generation is the repository root:
- `routes.py` quotes every pool of the pair through a price cache and sorts by amount received;
- around it sit `exchange_utils.py`, `decision_engine.py`, `utils.py` and the services.

The frontend part is `historyStorage.js`: the swap history kept in the browser's local storage.

Modules:
- `Wrappers`: Option and Result;
- `Text`: ASCII case folding, splitting, joining and decimal digits;
- `Units`: fee tiers, decimals, base units and `int()` truncation;
- `PriceMath`: the mid price from `sqrtPriceX96` and the slippage formula;
- `Quoting`: the shared quote arithmetic;
- `Uniswap`, `SushiSwap`, `Camelot`: the three DEX services;
- `CostModel`: the base DEX service with its gas table and its gas-price cache class;
- `Tokens`: the token registry;
- `PriceCache`: the Redis cache as a class over a map;
- `PriceFeeds`: DefiLlama and CoinGecko;
- `ExchangeUtils`: the route pipeline and the price fetch;
- `Sorting`: Python's stable descending sort, as an insertion sort over positions;
- `DecisionEngine`: TOPSIS;
- `Routes`: the second-generation endpoints;
- `LegacyPrice`, `LegacyServices`, `LegacyRanking`, `LegacyExchange`: the first generation;
- `HistoryStorage`: the frontend history, as a class whose field is the storage slot.

Conventions:
- Python `Decimal` and numpy floats are exact `real`s.
- `sqrt` and `log1p` are a `Numerics` parameter, of which only what TOPSIS needs is required.
- Everything read from outside is a parameter: a read that raised is `None`. This covers the chain, the oracles, the clock and local storage.
- A score of 0/0 in TOPSIS is an explicit NaN.

## Model

| member | source | states |
|---|---|---|
| Units.FeeFraction | aggregator-backend/services/uniswap_service.py:37 | the decoded fee times 1,000,000 is the on-chain tier, and it is non-negative |
| Units.FeeFractionExamples | aggregator-backend/services/base_dex_service.py:55-61 | the 500 and 3000 tiers decode to the 0.0005 and 0.003 fees the gas table compares against |
| Units.FeeFractionInjective | aggregator-backend/services/sushiswap_service.py:53 | two tiers that decode to the same fee are the same tier |
| Units.TruncToZero | aggregator-backend/services/uniswap_service.py:94 | Python `int()` truncates toward zero: the result is within one unit of x, on x's side of zero |
| Units.ToBaseUnits | aggregator-backend/services/sushiswap_service.py:99 | a non-negative amount converts to a non-negative integer count of base units |
| Units.FromBaseUnits | aggregator-backend/services/sushiswap_service.py:115 | base units convert to a non-negative amount that is exactly the units over 10^decimals, zero exactly when there are none |
| Units.BaseUnitsRoundTrip | aggregator-backend/services/uniswap_service.py:94-98 | converting base units to tokens and back gives the same units |
| Units.ToBaseUnitsLosesLessThanOneUnit | aggregator-backend/services/uniswap_service.py:94 | truncation loses less than one base unit and never rounds up |
| Units.DecIn | aggregator-backend/services/uniswap_service.py:91 | the input decimals are one of the pool's two decimals |
| Units.DecOut | aggregator-backend/services/uniswap_service.py:92 | the output decimals are one of the pool's two decimals |
| Units.DecInOutPartition | aggregator-backend/services/uniswap_service.py:90-92 | input and output decimals are the pool's two decimals, one each, and swap when the direction flips |
| PriceMath.ChainPrice | aggregator-backend/services/calculation_service.py:24-25 | the squared Q64.96 ratio is non-negative, and zero exactly when sqrtPriceX96 is zero |
| PriceMath.MidPriceFromSqrt | aggregator-backend/services/calculation_service.py:6-28 | the mid-price is non-negative, and positive when the square-root price is |
| PriceMath.MidPriceToken0Meaning | aggregator-backend/services/calculation_service.py:24-27 | the token0-input price is the raw chain price times 10^dec0 over 10^dec1 |
| PriceMath.MidPriceReciprocal | aggregator-backend/services/calculation_service.py:28 | the token1-input price times the token0-input price is 1 |
| PriceMath.SlippageFromMidAndActual | aggregator-backend/services/calculation_service.py:30-50 | slippage lies in [0, 1] for a non-negative fill; it is 0 for a non-positive input or mid-price, 0 iff the fill meets the ideal, and otherwise the shortfall over the ideal output |
| PriceMath.SlippageExample | aggregator-backend/services/calculation_service.py:46-50 | 100 in at mid-price 2 filled with 180 is 10% slippage |
| Quoting.Token0Of | aggregator-backend/services/sushiswap_service.py:89-92 | with two supplied addresses token0 is the first, lower-cased; otherwise it is the chain read lower-cased, or None when the read fails |
| Quoting.Token0OfIgnoresChainWhenSupplied | aggregator-backend/services/sushiswap_service.py:62-65 | with two supplied addresses the chain read does not matter |
| Quoting.QuoteInputUnits | aggregator-backend/services/uniswap_service.py:91-94 | the input is converted with dec0 when token0 is the input and dec1 otherwise |
| Quoting.QuoteOutput | aggregator-backend/services/uniswap_service.py:98 | the output is exactly amount_out_wei / 10^dec_out: non-negative, zero iff the quoter said zero, and converting back to exactly the quoter's units |
| Uniswap.GetDexFeePercent | aggregator-backend/services/uniswap_service.py:32-40 | a fee exactly when the read succeeds, equal to the tier over 1,000,000 |
| Uniswap.GetMidPrice | aggregator-backend/services/uniswap_service.py:42-64 | a price exactly when the symbol resolves, both reads succeed and the division is defined; it is the sqrt-price formula with the case-insensitive direction |
| Uniswap.MidPriceDirectionsReciprocal | aggregator-backend/services/uniswap_service.py:59-61 | the two directions of one pool give reciprocal mid-prices |
| Uniswap.QuoteRequestFor | aggregator-backend/services/uniswap_service.py:80-97 | a request exactly when the fee and token0 reads and both symbol lookups succeed; it carries the two addresses, the pool's fee, the truncated input units and a zero price limit |
| Uniswap.QuoteExactIn | aggregator-backend/services/uniswap_service.py:66-101 | a quote exactly when the request and the quoter call succeed; it is the quoter's output over 10^dec_out, non-negative and converting back to the quoter's units |
| Uniswap.ZeroQuoteIsZero | aggregator-backend/services/uniswap_service.py:95-98 | a quoter answer of zero gives a quote of 0, not None |
| SushiSwap.GetDexFeePercent | aggregator-backend/services/sushiswap_service.py:49-56 | a fee exactly when the read succeeds, equal to the tier over 1,000,000 |
| SushiSwap.GetMidPrice | aggregator-backend/services/sushiswap_service.py:58-73 | a price exactly when token0, the symbol and the sqrt read are known and the division is defined; it is the sqrt-price formula |
| SushiSwap.MidPriceUsesSuppliedToken0 | aggregator-backend/services/sushiswap_service.py:62-63 | with two supplied addresses the mid-price does not depend on the token0 read |
| SushiSwap.FeeTier | aggregator-backend/services/sushiswap_service.py:81-84 | a truthy pool_fee is used as given; otherwise the pool's fee read, or None when it fails |
| SushiSwap.QuoteRequestFor | aggregator-backend/services/sushiswap_service.py:86-107 | a request exactly when the fee tier, token0 and both symbols are known; it carries them, the truncated input and a zero price limit |
| SushiSwap.QuoteExactIn | aggregator-backend/services/sushiswap_service.py:75-119 | a quote exactly when the request and the quoter call succeed; it is the quoter's output over 10^dec_out, non-negative and converting back to the quoter's units |
| SushiSwap.PoolFeeOverridesRead | aggregator-backend/services/sushiswap_service.py:81-82 | with a truthy pool_fee the quote does not depend on the pool's fee read |
| Camelot.GetDexFeePercent | aggregator-backend/services/camelot_service.py:35-58 | feeZto when the input is token0, feeOtz when it is token1 (compared ignoring case), None when it is neither or a read fails |
| Camelot.FeeDependsOnDirection | aggregator-backend/services/camelot_service.py:47-50 | the two directions of a pool are charged its two directional fees |
| Camelot.GetMidPrice | aggregator-backend/services/camelot_service.py:60-79 | a price exactly when token0, the symbol and globalState are known and the division is defined; it is the sqrt-price formula on globalState[0] |
| Camelot.QuoteExactIn | aggregator-backend/services/camelot_service.py:81-114 | the quoter gets the two addresses, no fee tier, the truncated input and a zero limit; a quote exactly when it answers, equal to its output over 10^dec_out, non-negative and converting back to its units |
| Camelot.QuoteIgnoresPoolFeeAndPair | aggregator-backend/services/camelot_service.py:81 | the quote does not depend on the pool_fee and pair arguments |
| Camelot.SwapTxValue | aggregator-backend/services/camelot_service.py:183-184 | the whole input is sent as value when the input is WETH (ignoring case), otherwise nothing |
| Camelot.SwapTxFor | aggregator-backend/services/camelot_service.py:168-191 | the estimated swap carries the two token addresses, the input units, a zero price limit and that value; the router, recipient and deadline of the swap tuple are not modelled |
| Camelot.EstimateGasForSwap | aggregator-backend/services/camelot_service.py:153-200 | the estimate plus 5%, truncated (never below the estimate), or 155,000 when estimation fails |
| Camelot.GetTransactionCostAsWritten | aggregator-backend/services/camelot_service.py:116-151 | both halves are None for every input, because the gas call passes keywords the base method does not take |
| Camelot.AsWrittenDropsKnownCosts | aggregator-backend/services/camelot_service.py:135-147 | with a known fee and gas cost, the code as written gives (None, None) where the corrected cost gives (fee, gas cost) |
| Camelot.GetTransactionCost | aggregator-backend/services/camelot_service.py:128-147 | (None, None) and an untouched cache without a fee; otherwise (fee, cost of the estimated gas at the cached or fresh gas price), both present exactly when a gas price is known |
| CostModel.GasPriceCache.constructor | aggregator-backend/services/base_dex_service.py:11 | the cache starts with no value and timestamp 0 |
| CostModel.GasPriceCache.Fresh | aggregator-backend/services/base_dex_service.py:17 | a cached gas price is served exactly when one is stored and it is under 60 s old; what that gives a second read is CostModel.SecondReadWithinTtl |
| CostModel.GasPriceCache.GetCachedGasPrice | aggregator-backend/services/base_dex_service.py:13-24 | a value under 60 s old is served without a chain read and the cache is unchanged; otherwise the chain's price is returned and stored with the current time, after which it is fresh for 60 s |
| CostModel.SecondReadWithinTtl | aggregator-backend/services/base_dex_service.py:17-22 | a second read within 60 s of a miss returns the first price without asking the chain |
| CostModel.BaseGasUnits | aggregator-backend/services/base_dex_service.py:53-64 | 110k, 120k, 140k and 160k gas for the 0.01%, 0.05%, 0.3% and 1% fees, 140k for anything else |
| CostModel.GasUnits | aggregator-backend/services/base_dex_service.py:53-67 | the table entry, plus 15,000 exactly when liquidity is below 100,000 |
| CostModel.GasUnitsMonotone | aggregator-backend/services/base_dex_service.py:66-67 | a thinner pool is never charged fewer gas units |
| CostModel.GasCostUsd | aggregator-backend/services/base_dex_service.py:71-74 | the cost is non-negative at a non-negative ether price and zero when the gas price or the ether price is zero |
| CostModel.GasCostLinearInEthPrice | aggregator-backend/services/base_dex_service.py:73-74 | the gas cost scales linearly with the ether price |
| CostModel.GasCostMonotoneInUnits | aggregator-backend/services/base_dex_service.py:73-74 | more gas never costs less |
| CostModel.GasCostExample | aggregator-backend/services/base_dex_service.py:59-74 | 1 gwei for a 0.3% pool with 200k USD liquidity at 2,000 USD per ether is 0.28 USD |
| CostModel.GetGasCostUsd | aggregator-backend/services/base_dex_service.py:50-80 | the cost of the tabled gas at the cached or fresh price, or None when no gas price can be read; the cache update is that of the gas-price read |
| CostModel.CombineCosts | aggregator-backend/services/base_dex_service.py:88-91 | (fee, gas) when both are known, (None, None) as soon as either is missing |
| CostModel.GetTransactionCost | aggregator-backend/services/base_dex_service.py:82-95 | both halves present exactly when the fee and a gas price are known; they are the fee and the tabled gas cost at that price |
| CostModel.GetLiquidity | aggregator-backend/services/base_dex_service.py:29-48 | the two balances in whole tokens, each exactly the raw balance over 10^decimals, present exactly when both reads succeed, non-negative, and converting back to the raw balances |
| Tokens.SymbolTable | aggregator-backend/token_manager.py:13 | the symbol table holds exactly the configured symbols |
| Tokens.AddressIndex | aggregator-backend/token_manager.py:14 | the index holds exactly the lower-cased configured addresses |
| Tokens.NewTokenManager | aggregator-backend/token_manager.py:8-14 | the registry's symbols and lower-cased addresses are exactly those of the configuration |
| Tokens.AddressIndexLastWins | aggregator-backend/token_manager.py:14 | an address maps to the last configured token with that address |
| Tokens.GetAddressBySymbol | aggregator-backend/token_manager.py:16-20 | an address exactly when the upper-cased symbol is configured; it is that token's address, lower-cased |
| Tokens.GetAddressBySymbolCaseInsensitive | aggregator-backend/token_manager.py:17 | the lookup does not depend on the case of the symbol |
| Tokens.GetTokenByAddress | aggregator-backend/token_manager.py:22-24 | a token exactly when the lower-cased address is indexed, and it is the token indexed under that lower-cased address |
| Tokens.GetTokenByAddressCaseInsensitive | aggregator-backend/token_manager.py:24 | addresses equal ignoring case find the same token |
| Tokens.ConfiguredAddressFound | aggregator-backend/token_manager.py:14-24 | every configured address, in any case, is found, and what is found is the last configured token with that address |
| Tokens.GetDecimalsForPool | aggregator-backend/token_manager.py:26-33 | both tokens' decimals in order when both are known, (0, 0) otherwise |
| Tokens.GetPoolAddresses | aggregator-backend/token_manager.py:35-45 | the two lower-cased chain addresses when both are configured tokens, [] otherwise, and nothing when a read fails |
| Tokens.PoolAddressesHaveDecimals | aggregator-backend/token_manager.py:26-45 | the addresses get_pool_addresses returns always resolve to the registry's decimals |
| PriceCache.Cache.constructor | aggregator-backend/services/redis_cache.py:6 | a new cache is empty |
| PriceCache.Cache.GetCachedPrice | aggregator-backend/services/redis_cache.py:9-16 | a price exactly when the key is stored, and it is the stored value |
| PriceCache.Cache.SetCachedPrice | aggregator-backend/services/redis_cache.py:18-20 | the key now maps to the value and every other key is unchanged |
| PriceCache.SetThenGet | aggregator-backend/services/redis_cache.py:9-20 | a price just stored, 0 included, is read back and the other keys keep their values |
| PriceFeeds.FormatKey | aggregator-backend/services/defillama_service.py:15-16 | the key is the chain, a colon, then the lower-cased address |
| PriceFeeds.FormatKeyIdentifiesAddress | aggregator-backend/services/defillama_service.py:15-16 | on one chain two addresses share a key exactly when they are equal ignoring case |
| PriceFeeds.GetPrice | aggregator-backend/services/defillama_service.py:18-35 | one to three attempts, every earlier one failed; the first answer gives the price under the key or None, and three failures give None |
| PriceFeeds.BatchKeys | aggregator-backend/services/defillama_service.py:42 | one key per address, in order |
| PriceFeeds.BatchRequest | aggregator-backend/services/defillama_service.py:42 | the comma-joined keys; with no comma in the chain or an address, splitting at commas gives back exactly one key per address, in order |
| PriceFeeds.BatchRequestRecoversKeys | aggregator-backend/services/defillama_service.py:42-43 | for comma-free addresses the joined request splits back into exactly the keys |
| PriceFeeds.ShapeBatch | aggregator-backend/services/defillama_service.py:50-54 | one entry per address, holding the price the answer has under its key, or None |
| PriceFeeds.GetPricesBatch | aggregator-backend/services/defillama_service.py:37-60 | {} without a request for no addresses; otherwise one entry per address, holding the first answer's price under its key (or None), and all None after three failures |
| PriceFeeds.CoinGeckoAnswer | utils.py:31-40 | the retry loop ends after one to three attempts with the first answer, or with {} once all three failed |
| PriceFeeds.GetPricesFromCoinGecko | utils.py:27-40 | the loop's result is CoinGeckoAnswer of the comma-joined ids: the first successful body, or {} after three failures, with every earlier attempt failed |
| LegacyPrice.AdjustForDecimals | price_calculation/camelot_calculation.py:6-9 | both branches of the adjustment multiply the raw price by 10^(base decimals - token decimals) |
| LegacyPrice.AdjustKeepsSign | aggregator-backend/price_calculation/uniswap_calculation.py:7-12 | the adjustment keeps a price non-negative, positive or zero |
| LegacyPrice.UniswapCalculation | aggregator-backend/price_calculation/uniswap_calculation.py:3-20 | the price is the squared ratio times 10^(db-dt), never negative; the inverse is its reciprocal, or 0 for a zero price, and both are 0 exactly when sqrtPriceX96 is 0 |
| LegacyPrice.CamelotCalculation | price_calculation/camelot_calculation.py:3-12 | the same price; the inverse is its reciprocal when the price is positive, and both are 0 for a zero sqrtPriceX96 |
| LegacyPrice.CamelotMatchesUniswap | price_calculation/camelot_calculation.py:10 | because the price is never negative, the `> 0` and `!= 0` guards agree and the two calculations are equal |
| LegacyPrice.SwappedCalculationIsMidPrice | services/uniswap_service.py:37-38 | with the decimals swapped the legacy price is the second generation's token0-input mid-price and its inverse the token1-input one |
| LegacyPrice.Pow10SymmetricOnlyAtZero | services/camelot_service.py:22-25 | 10^e equals 10^-e only for e = 0 |
| LegacyPrice.GetUniswapPrice | utils.py:43-62 | a pair exactly when slot0 can be read, and it is the calculation in the given decimals order |
| LegacyPrice.GetCamelotPrice | utils.py:64-93 | a pair exactly when globalState can be read, and it is the Camelot calculation on globalState[0] |
| LegacyPrice.PairPriceSwapped | services/sushiswap_service.py:13-25 | a pair exactly when slot0 can be read; the price is the token0-input mid-price and, for a non-zero square root, the inverse the token1-input one |
| LegacyPrice.CamelotPairPrice | services/camelot_service.py:9-34 | a pair exactly when globalState can be read, equal to the utils.py Camelot helper |
| LegacyPrice.OrientationsAgreeIffSameDecimals | services/camelot_service.py:15 | on one pool the Camelot service's price equals the Uniswap service's exactly when both tokens have the same decimals |
| LegacyPrice.CalculateLiquidity | liquidity_calculation/calculate_liquidity.py:4-19 | the value is non-negative at non-negative prices and zero for empty balances |
| LegacyPrice.CalculateLiquidityLinear | liquidity_calculation/calculate_liquidity.py:16-19 | scaling both prices by k scales the value by k |
| LegacyServices.LegacyGasCostUsd | services/uniswap_service.py:88-118 | a cost exactly when the gas price is read; it is the tabled gas at that price, between the 110k and 175k costs |
| LegacyServices.LegacyTransactionCost | services/uniswap_service.py:120-133 | the pair (fee, gas) exactly when both are known, else a bare None |
| LegacyServices.LegacyTransactionCostMatchesCombined | services/uniswap_service.py:126-129 | the bare None and the second generation's (None, None) occur together, and the values agree otherwise |
| LegacyServices.LegacySlippage | services/uniswap_service.py:200-207 | the slippage is never negative, and below the ideal it is the shortfall over the ideal output |
| LegacyServices.LegacySlippageIsMidSlippage | services/uniswap_service.py:203 | at a non-negative price this formula is slippage_from_mid_and_actual |
| LegacyServices.InputIsToken0 | services/uniswap_service.py:161 | the input is token0 exactly when its configured address and the pool's token0 agree lower-cased |
| LegacyServices.SlippageRequest | services/uniswap_service.py:179-185 | the quoter is asked with both configured addresses, the pool's fee tier, the input truncated to base units and a zero limit |
| LegacyServices.GetSlippage | services/uniswap_service.py:135-213 | a report exactly when every read and lookup succeeds, both reserve checks pass and the price can be inverted; it holds the quoter's output over 10^dec_out (FromBaseUnits), the mid-price before the trade and the slippage between them; an input above the input reserve is refused |
| LegacyServices.AfterQuote | services/uniswap_service.py:178-208 | after the quoter call: a report exactly when the quote and the slot0 read succeed, the output fits the output reserve and the price can be inverted; the output is the quoter's units over 10^dec_out |
| LegacyServices.SushiLiquidity | services/sushiswap_service.py:27-55 | a value exactly when two addresses are given, both balances read and both addresses priced; non-negative at non-negative prices |
| LegacyServices.SushiLiquidityIsPricedBalances | services/sushiswap_service.py:41-48 | the value is each normalised balance weighted by its token's price |
| LegacyServices.SushiTransactionCost | services/sushiswap_service.py:57-63 | always the 0.3% fee, whatever the pool |
| ExchangeUtils.CalculateExchangeAmount | aggregator-backend/exchange_utils.py:12-17 | selling the pair's first token pays amount × token price, anything else pays amount × base price |
| ExchangeUtils.KeyOf | aggregator-backend/exchange_utils.py:24 | the key is "coingecko_" followed by the lower-cased address |
| ExchangeUtils.KeyOfIdentifiesAddress | aggregator-backend/exchange_utils.py:24 | two addresses share a price key exactly when they are equal ignoring case |
| ExchangeUtils.Misses | aggregator-backend/exchange_utils.py:23-29 | the misses are exactly the addresses whose key the cache lacks |
| ExchangeUtils.FetchedPrices | aggregator-backend/exchange_utils.py:19-42 | an address has a price exactly when it is cached or the oracle prices it; a hit gives the cached price, a miss the oracle's |
| ExchangeUtils.StoreFetched | aggregator-backend/exchange_utils.py:35-39 | storing the misses' prices keeps every key the cache had; which keys it gains and what they hold is ExchangeUtils.StoreFetchedKeys and ExchangeUtils.StoreFetchedHoldsPrices |
| ExchangeUtils.StoreFetchedKeys | aggregator-backend/exchange_utils.py:35-38 | after storing, a key is present exactly when it was before or belongs to a miss the oracle priced |
| ExchangeUtils.StoreFetchedOnlyPriceKeys | aggregator-backend/exchange_utils.py:37-38 | storing the fetched prices leaves every key outside the "coingecko_" namespace as it was |
| ExchangeUtils.StoreFetchedHoldsPrices | aggregator-backend/exchange_utils.py:35-39 | when no two addresses differ only in case, every priced miss has exactly its price in the cache afterwards |
| ExchangeUtils.RefetchAsksOnlyUnpriced | aggregator-backend/exchange_utils.py:19-39 | a second fetch of the same addresses asks the oracle only for addresses that missed the first time and got no price |
| ExchangeUtils.ReadCachedPrices | aggregator-backend/exchange_utils.py:23-29 | the first loop yields exactly the cached prices and the misses in order |
| ExchangeUtils.StoreOraclePrices | aggregator-backend/exchange_utils.py:31-39 | the second loop stores the misses' prices in order and adds them to the cached ones |
| ExchangeUtils.FetchTokenPrices | aggregator-backend/exchange_utils.py:19-42 | the oracle is asked exactly for the misses; the result is FetchedPrices and the cache holds the stored prices |
| ExchangeUtils.ToFetch | aggregator-backend/exchange_utils.py:46-48 | each pool token, plus ETH when its address is known, exactly once |
| ExchangeUtils.Dedup | aggregator-backend/exchange_utils.py:46 | the same elements as the input, each once |
| ExchangeUtils.PricesFor | aggregator-backend/exchange_utils.py:44-61 | the fetched prices restricted to the pool's tokens; the ETH price when ETH is known and priced, else 0; the cache after the fetch |
| ExchangeUtils.ProcessPrices | aggregator-backend/exchange_utils.py:44-61 | the method's prices, ETH price and cache are those of PricesFor |
| ExchangeUtils.PairMatches | aggregator-backend/exchange_utils.py:79-81 | a pool is walked only when both requested symbols are in its pair and the pair holds no other symbol |
| ExchangeUtils.PoolName | aggregator-backend/exchange_utils.py:97 | the key is the lower-cased DEX name, "_", then the pair, and it ends with the pair |
| ExchangeUtils.MidLookup | aggregator-backend/exchange_utils.py:104-121 | a cached mid-price is used as is; otherwise a positive read is stored and used, and a missing or non-positive one skips the pool without touching the cache |
| ExchangeUtils.CachedMidIgnoresDirection | aggregator-backend/exchange_utils.py:97-121 | once a pool's mid-price is cached, the adapter's reading for either direction is ignored |
| ExchangeUtils.PriceOr | aggregator-backend/exchange_utils.py:175-176 | the address's price when it has one, else the fallback |
| ExchangeUtils.PoolOption | aggregator-backend/exchange_utils.py:127-197 | an option exactly when the quote is non-zero, the balances are read, both token prices are non-zero and both costs are known; it holds the mid-price, the slippage between mid and quote, the USD liquidity, the costs and the USD values with 1 for an unknown price |
| ExchangeUtils.PoolStep | aggregator-backend/exchange_utils.py:78-197 | one iteration of the pool loop: a non-matching pool yields nothing and leaves the cache; an option only from a matching pool with two token addresses; its option's validity is ExchangeUtils.StepOptionValid and its cache rule ExchangeUtils.MidCachedOnlyWhenPositive |
| ExchangeUtils.LiquidityUsd | aggregator-backend/exchange_utils.py:163 | non-negative for non-negative balances at positive prices |
| ExchangeUtils.AsList | aggregator-backend/exchange_utils.py:197 | no option appends nothing, an option appends exactly itself |
| ExchangeUtils.Walk | aggregator-backend/exchange_utils.py:76-199 | a walk yields at most one option per pool |
| ExchangeUtils.WalkSnoc | aggregator-backend/exchange_utils.py:76-197 | walking one more pool appends that pool's step to the walk so far |
| ExchangeUtils.WalkFollowsPoolOrder | aggregator-backend/exchange_utils.py:76-197 | when each step yields only options for its own pool, the options come from strictly increasing pool positions |
| ExchangeUtils.WalkOptionsFromSteps | aggregator-backend/exchange_utils.py:197 | every option of a walk was produced by a step on one of its pools |
| ExchangeUtils.StepOf | aggregator-backend/exchange_utils.py:76-197 | the loop body for one request, as the step the walk applies to each pool; a non-matching pool yields nothing and leaves the cache |
| ExchangeUtils.Run | aggregator-backend/exchange_utils.py:63-199 | process_dex_pools yields at most one option per pool |
| ExchangeUtils.StepOptionValid | aggregator-backend/exchange_utils.py:79-197 | a pool's option has a matching pair, the DEX and amount of the request, a positive price, a non-zero output and the slippage between the two |
| ExchangeUtils.RunFollowsPoolOrder | aggregator-backend/exchange_utils.py:76-197 | the options follow pool-table order, at most one per pool |
| ExchangeUtils.RunOptionsValid | aggregator-backend/exchange_utils.py:63-199 | every returned option has a matching pair, the request's DEX and amount, a positive price, a non-zero output and the slippage between the two |
| ExchangeUtils.MidCachedOnlyWhenPositive | aggregator-backend/exchange_utils.py:106-117 | a pool's mid-price key, absent before, is absent or positive after the pool is processed |
| ExchangeUtils.SkippedPoolLeavesCache | aggregator-backend/exchange_utils.py:78-90 | a pool whose pair does not match, or whose token addresses are unknown, yields nothing and leaves the cache alone |
| ExchangeUtils.ProcessPool | aggregator-backend/exchange_utils.py:76-197 | one iteration's option and new cache are exactly the pool's step |
| ExchangeUtils.ProcessDexPools | aggregator-backend/exchange_utils.py:63-199 | the method's options and final cache are exactly Run over the pool table |
| DecisionEngine.WeightsSumToOne | aggregator-backend/decision_engine.py:18 | the four criteria weights are positive and sum to 1 |
| DecisionEngine.CriteriaRow | aggregator-backend/decision_engine.py:10-13 | a route's row is its amount out, log1p of its liquidity, its fee and its gas cost |
| DecisionEngine.DecisionMatrix | aggregator-backend/decision_engine.py:10-13 | one four-column row per route, in input order |
| DecisionEngine.Column | aggregator-backend/decision_engine.py:22-32 | column j holds entry j of every row |
| DecisionEngine.WeighKeepsOrder | aggregator-backend/decision_engine.py:16-19 | dividing by a positive norm and multiplying by a positive weight keeps the order of two entries |
| DecisionEngine.SumSquares | aggregator-backend/decision_engine.py:16 | the sum of squares is non-negative and zero exactly when every entry is zero |
| DecisionEngine.ColumnNorm | aggregator-backend/decision_engine.py:15-16 | each column divisor is at least epsilon, so the division is always defined |
| DecisionEngine.Norms | aggregator-backend/decision_engine.py:16 | the four divisors are the column norms plus epsilon, all positive |
| DecisionEngine.WeightedRow | aggregator-backend/decision_engine.py:16-19 | each entry is divided by its column's divisor and multiplied by its column's weight |
| DecisionEngine.WeightedMatrix | aggregator-backend/decision_engine.py:16-19 | every row is weighted with the same column divisors |
| DecisionEngine.WeightingKeepsColumnOrder | aggregator-backend/decision_engine.py:16-19 | normalising and weighting keeps the order of entries within each column |
| DecisionEngine.Max | aggregator-backend/decision_engine.py:22-23 | the maximum is an entry and no entry exceeds it |
| DecisionEngine.Min | aggregator-backend/decision_engine.py:24-25 | the minimum is an entry and no entry is below it |
| DecisionEngine.IdealBest | aggregator-backend/decision_engine.py:21-26 | each coordinate is an entry of its column; every route is at most it on the benefits and at least it on the costs |
| DecisionEngine.IdealWorst | aggregator-backend/decision_engine.py:28-33 | each coordinate is an entry of its column; every route is at least it on the benefits and at most it on the costs |
| DecisionEngine.Difference | aggregator-backend/decision_engine.py:35-36 | the entrywise difference of a row and a point |
| DecisionEngine.Distance | aggregator-backend/decision_engine.py:35-36 | the distance is non-negative and zero exactly when the row is the point |
| DecisionEngine.ScoreOf | aggregator-backend/decision_engine.py:38 | NaN exactly when both distances are zero; otherwise a number in [0, 1] with score × (best + worst) = worst |
| DecisionEngine.RowScore | aggregator-backend/decision_engine.py:35-38 | a route's score is NaN exactly when its row is both ideal points |
| DecisionEngine.Scores | aggregator-backend/decision_engine.py:35-38 | one score per route, in input order |
| DecisionEngine.IdealsMeet | aggregator-backend/decision_engine.py:21-33 | the two ideal points coincide exactly when every weighted row is the same |
| DecisionEngine.NaNForAllOrNone | aggregator-backend/decision_engine.py:38 | one route's score is NaN exactly when every route's is |
| DecisionEngine.NaNIffIdealsMeet | aggregator-backend/decision_engine.py:21-38 | a route scores NaN exactly when the ideal best and ideal worst points coincide |
| DecisionEngine.WeightingKeepsRowsEqual | aggregator-backend/decision_engine.py:16-19 | all routes share one criteria row exactly when they share one weighted row |
| DecisionEngine.NaNIffIdenticalRows | aggregator-backend/decision_engine.py:10-38 | the scores are NaN exactly when every route has the same criteria row |
| DecisionEngine.IdealBestScoresOne | aggregator-backend/decision_engine.py:35-38 | a route at the ideal best point scores 1 when the ideals differ |
| DecisionEngine.IdealWorstScoresZero | aggregator-backend/decision_engine.py:35-38 | a route at the ideal worst point scores 0 when the ideals differ |
| DecisionEngine.RankKeys | aggregator-backend/decision_engine.py:40-41 | a numeric score is its own key, and NaN scores share one key |
| DecisionEngine.RankOptions | aggregator-backend/decision_engine.py:5-43 | [] for no routes; otherwise a permutation of the routes, read in a stable order of non-increasing score |
| DecisionEngine.RankedByScore | aggregator-backend/decision_engine.py:40-43 | a route placed earlier never scores less than one placed later |
| DecisionEngine.NaNRankKeepsInputOrder | aggregator-backend/decision_engine.py:40-41 | when every score is NaN the ranking is the input order |
| LegacyRanking.AmountKeys | decision_engine.py:12 | each route's sort key is its amount out |
| LegacyRanking.RankOptions | decision_engine.py:4-18 | [] for no routes; otherwise a permutation in non-increasing amount out, ties kept in input order |
| LegacyRanking.FirstDeliversMost | decision_engine.py:12 | the first ranked route delivers at least as much as any route |
| LegacyRanking.EqualAmountsKeepInputOrder | decision_engine.py:12 | when every route delivers the same amount, the ranking is the input order (the pairwise tie rule is the stability clause of LegacyRanking.RankOptions) |
| Sorting.StableOrder | aggregator-backend/decision_engine.py:41 | a permutation of the positions in non-increasing key order, ties by position |
| Sorting.SortDescending | aggregator-backend/decision_engine.py:41 | the loop computes a permutation in non-increasing key order with ties by position, which is StableOrder |
| Sorting.OrderedUnique | decision_engine.py:12 | two stable descending orders of the same positions are equal |
| Sorting.SameOrderAsStableOrder | decision_engine.py:12 | any stable descending permutation is StableOrder |
| Sorting.Arrange | aggregator-backend/decision_engine.py:43 | the k-th item read is the item at the k-th position of the order |
| Sorting.ArrangePermutes | aggregator-backend/decision_engine.py:40-43 | reading items through a permutation gives the same multiset of items |
| Sorting.TiedKeysKeepInputOrder | decision_engine.py:12 | with all keys equal the stable order is the identity |
| Routes.Results | aggregator-backend/routes.py:24-43 | one outcome per DEX, in the order Uniswap, SushiSwap, Camelot, each run on the upper-cased symbols |
| Routes.Merge | aggregator-backend/routes.py:45-49 | a route is merged exactly when some pipeline that returned produced it |
| Routes.MergeLength | aggregator-backend/routes.py:45-49 | the merged list is as long as the returned lists together |
| Routes.MergeSkipsRaised | aggregator-backend/routes.py:46-47 | a pipeline that raised contributes nothing |
| Routes.MergeResults | aggregator-backend/routes.py:45-49 | the loop computes Merge |
| Routes.ToRaw | aggregator-backend/routes.py:51-58 | the raw route carries the dex, pool, amount out, liquidity, fee and gas cost of the route |
| Routes.RawOptions | aggregator-backend/routes.py:51-58 | one raw route per merged route, in order |
| Routes.FullOptionMap | aggregator-backend/routes.py:60 | its keys are exactly the (dex, pool) pairs of the merged routes, each mapped to a route with that key |
| Routes.FullOptionMapLastWins | aggregator-backend/routes.py:60 | the route a key maps to is the last merged route with that key |
| Routes.PercentageChange | aggregator-backend/routes.py:67-69 | 0 unless both USD values are positive; otherwise positive exactly on a gain, zero exactly when equal, above -100 |
| Routes.PercentageChangeRecoversValue | aggregator-backend/routes.py:69 | applying the percentage to the value paid gives the value received |
| Routes.Entry | aggregator-backend/routes.py:71-82 | the entry copies the route's fields, with the pool as pair, and carries its percentage change |
| Routes.Remap | aggregator-backend/routes.py:63-82 | when every ranked key is in the map, one entry per ranked route, in ranked order |
| Routes.RankedKeysInMap | aggregator-backend/routes.py:60-66 | every ranked raw route finds its full route, so the lookup never misses |
| Routes.RemapRanked | aggregator-backend/routes.py:63-82 | the loop computes Remap |
| Routes.Exchange | aggregator-backend/routes.py:19-89 | 404 exactly when no pipeline produced a route; otherwise the ranked, remapped entries |
| Routes.ExchangeEntries | aggregator-backend/routes.py:60-87 | a non-empty merge gives one entry per merged route, in ranking order, each from the last route with its (dex, pool) |
| Routes.GetConfig | aggregator-backend/routes.py:91-96 | the tokens and decimals maps have exactly the configured symbols and their addresses and decimals |
| Routes.ConfigAgreesWithRegistry | aggregator-backend/routes.py:95 | a configured upper-case symbol's address is, lower-cased, what the token registry returns |
| LegacyExchange.CalculateExchangeAmountAsWritten | exchange_utils.py:5-9 | an empty token list raises IndexError, selling the first token raises NameError, otherwise amount times the base price |
| LegacyExchange.AsWrittenFailsSellingFirstToken | exchange_utils.py:6-7 | selling 100 USDC in "USDC/ETH" raises NameError where the intended rule gives 0.05 |
| LegacyExchange.PoolPrices | routes.py:37-53 | a cached base price is used with its inverse (0 for a non-positive price); otherwise a truthy computed pair is used and its base price cached, and (0, 0) with the cache unchanged if not |
| LegacyExchange.SecondLookupReproducesPrices | routes.py:38-52 | a positive computed price and its inverse, once cached, are what the next lookup of that pool finds, with the cache unchanged |
| LegacyExchange.UniswapPriceSurvivesCache | routes.py:42-52 | a pool priced by get_uniswap_price gets the same prices from the cache as from the chain |
| LegacyExchange.CacheOrCompute | exchange_utils.py:28-40 | the method computes PoolPrices on the cache object and reads the chain only on a miss |
| LegacyExchange.Candidates | routes.py:24-30 | the pools of a DEX, in table order, tagged with the DEX |
| LegacyExchange.QuoteStep | routes.py:32-64 | a quote exactly when the pool's pair is the requested pair of symbols; a non-matching pool leaves the cache as it is |
| LegacyExchange.Scan | routes.py:30-64 | the quotes of the pools in order, at most one per pool, and the cache after the last; one quote per matching pool is LegacyExchange.ScanCountsMatches |
| LegacyExchange.ScanSnoc | routes.py:30-64 | scanning one more pool appends its quote, if any, and applies its cache update |
| LegacyExchange.ScanAppend | routes.py:24-64 | scanning two lists of pools one after the other is scanning them together |
| LegacyExchange.MatchCount | routes.py:33 | zero exactly when no pool has the requested pair |
| LegacyExchange.ScanCountsMatches | routes.py:30-64 | one quote per matching pool |
| LegacyExchange.ScanQuotesFromMatchingPools | routes.py:33-64 | every quote comes from a matching pool and carries its DEX and pair |
| LegacyExchange.QuotePool | routes.py:32-64 | the method computes QuoteStep on the cache object |
| LegacyExchange.ScanPools | routes.py:30-64 | the loop over a DEX's pools computes the scan and the cache after it |
| LegacyExchange.OptionOf | exchange_utils.py:56-67 | the option carries the pool's dex, pair, amounts, the base price when selling the second token and the token price otherwise, and zero slippage, liquidity and cost |
| LegacyExchange.OptionPriceIsQuotedRate | exchange_utils.py:42-64 | for two different tokens the amount received is the amount paid times the option's price |
| LegacyExchange.PriceOrOne | exchange_utils.py:50-51 | the configured price, or 1 for a missing token |
| LegacyExchange.Options | exchange_utils.py:56-69 | one option per quote, in order |
| LegacyExchange.ProcessDexPools | exchange_utils.py:11-71 | an option per pool of the requested pair, in table order, through the cache |
| LegacyExchange.CoinGeckoKey | exchange_utils.py:78 | the key ends with the id |
| LegacyExchange.CoinGeckoKeyInjective | exchange_utils.py:78 | distinct ids have distinct cache keys |
| LegacyExchange.MissingIds | exchange_utils.py:77-82 | exactly the requested ids without a cached price |
| LegacyExchange.CachedById | exchange_utils.py:77-83 | exactly the ids whose key is cached, each with its cached price |
| LegacyExchange.FetchedById | exchange_utils.py:85-91 | exactly the missing ids the oracle prices, each with the oracle's price |
| LegacyExchange.StoreById | exchange_utils.py:88-91 | storing keeps every key the cache had and adds the key of every id the oracle priced; the whole new cache is LegacyExchange.StoreByIdContents |
| LegacyExchange.StoreByIdContents | exchange_utils.py:88-91 | the cache keeps every entry that was not refetched and gains each fetched price under its key, nothing else |
| LegacyExchange.ReadSnoc | exchange_utils.py:77-82 | reading one more id adds its cached price or marks it missing |
| LegacyExchange.FetchSnoc | exchange_utils.py:86-91 | fetching one more missing id stores and adds its price when the oracle has one |
| LegacyExchange.ReadCachedIds | exchange_utils.py:77-82 | the first loop returns the cached prices and the ids without one |
| LegacyExchange.StoreFetchedIds | exchange_utils.py:84-91 | the second loop adds and caches each fetched price |
| LegacyExchange.ProcessPrices | exchange_utils.py:73-94 | the cached prices plus the fetched ones, the cache holding the fetched prices after |
| LegacyExchange.ProcessedPricesMeaning | exchange_utils.py:73-94 | an id is priced exactly when it was cached or the oracle priced it, a cached price taking precedence |
| LegacyExchange.RepeatAsksOnlyUnpriced | exchange_utils.py:77-91 | a second call asks the oracle only for ids it had no price for |
| LegacyExchange.TokenIdsFor | routes.py:17 | at most two ids, exactly the CoinGecko ids of the configured symbols among the two |
| LegacyExchange.UsdPrice | routes.py:58-59 | the fetched USD price of the symbol's id, or 1 when the symbol or its price is unknown |
| LegacyExchange.AmountsOf | routes.py:66 | the sort key of each quote is its amount received |
| LegacyExchange.SortByAmount | routes.py:66 | a permutation of the quotes in non-increasing amount, ties in earlier order |
| LegacyExchange.EqualAmountsKeepPoolOrder | routes.py:66 | when every quote delivers the same amount, the sort is the pool order (the pairwise tie rule is the stability clause of LegacyExchange.SortByAmount) |
| LegacyExchange.EntryOf | routes.py:73-89 | the entry carries the quote's dex, pair, amounts and USD values |
| LegacyExchange.Respond | routes.py:69-94 | 404 exactly for no quotes; otherwise the first quote as best option and the rest in order |
| LegacyExchange.BestOptionDeliversMost | routes.py:66-91 | the best option receives at least as much as every quote, the others follow in non-increasing order, all quotes reported once |
| LegacyExchange.NotFoundIffNoPoolMatches | routes.py:33-94 | 404 exactly when no pool of any DEX has the requested pair |
| LegacyExchange.Exchange | routes.py:9-94 | the upper-cased request priced by CoinGecko, every DEX's pools scanned in turn through the cache, the quotes sorted and answered |
| HistoryStorage.ItemId | aggregator-frontend/src/utils/historyStorage.js:11 | the id starts with the transaction hash followed by "_" |
| HistoryStorage.ItemIdRecoversHashAndTime | aggregator-frontend/src/utils/historyStorage.js:11 | for a hash without "_", splitting the id at "_" gives back the hash and the clock reading |
| HistoryStorage.NewItem | aggregator-frontend/src/utils/historyStorage.js:10-24 | the item copies the swap's fields, takes its id and timestamp from the two clock readings and has status "success" |
| HistoryStorage.Trim | aggregator-frontend/src/utils/historyStorage.js:4-28 | a prefix of at most 100 items, the whole list when it is no longer |
| HistoryStorage.Saved | aggregator-frontend/src/utils/historyStorage.js:26-28 | the new item first, then the newest earlier items, at most 100 in all |
| HistoryStorage.SaveAllNewestFirst | aggregator-frontend/src/utils/historyStorage.js:26-28 | saving items one by one keeps the newest 100, newest first |
| HistoryStorage.Keep | aggregator-frontend/src/utils/historyStorage.js:65 | exactly the items whose field equals the value |
| HistoryStorage.Passes | aggregator-frontend/src/utils/historyStorage.js:64-74 | an item passes exactly when it survives each of the three filter steps; with no set filter every item passes |
| HistoryStorage.Select | aggregator-frontend/src/utils/historyStorage.js:59-77 | exactly the items that pass every set filter |
| HistoryStorage.Stage | aggregator-frontend/src/utils/historyStorage.js:64-74 | an unset or empty filter leaves the list as it is; a set one keeps exactly the items whose field equals it |
| HistoryStorage.ApplyFilters | aggregator-frontend/src/utils/historyStorage.js:59-77 | the three filters applied in turn keep exactly the items that pass every set filter; that they also keep the stored order is HistoryStorage.FiltersAreConjunctive |
| HistoryStorage.ApplyFiltersCons | aggregator-frontend/src/utils/historyStorage.js:62-76 | the three filters in turn keep an item in front exactly when it passes all of them |
| HistoryStorage.FiltersAreConjunctive | aggregator-frontend/src/utils/historyStorage.js:62-76 | the three successive filters are one filter by the conjunction of the set conditions, order kept |
| HistoryStorage.NoFiltersKeepAll | aggregator-frontend/src/utils/historyStorage.js:59-62 | with no filter set the whole history is returned |
| HistoryStorage.SelectAppend | aggregator-frontend/src/utils/historyStorage.js:65 | filtering commutes with concatenation, so the history's order is kept |
| HistoryStorage.HistoryStorage.constructor | aggregator-frontend/src/utils/historyStorage.js:3 | the storage starts with nothing under the history key |
| HistoryStorage.HistoryStorage.GetSwapHistory | aggregator-frontend/src/utils/historyStorage.js:39-47 | the stored list, or [] when nothing is stored |
| HistoryStorage.HistoryStorage.SaveSwapToHistory | aggregator-frontend/src/utils/historyStorage.js:6-37 | true exactly when the write succeeds, the stored list then being Saved of the old one; false leaves storage as it was |
| HistoryStorage.HistoryStorage.ClearSwapHistory | aggregator-frontend/src/utils/historyStorage.js:49-57 | true exactly when the removal succeeds, the key then being absent; false leaves storage as it was |
| HistoryStorage.HistoryStorage.GetFilteredHistory | aggregator-frontend/src/utils/historyStorage.js:59-77 | exactly the stored items that pass every set filter, in stored order |

Lemmas without a row are proof glue for the rows above, such as the one-more-element steps `ExchangeUtils.CachedPricesSnoc`, `ExchangeUtils.OraclePricesSnoc`, `ExchangeUtils.StoreFetchedSnoc`, the map identity `ExchangeUtils.UnionUpdate` and `DecisionEngine.AllScoresNaN`; they state nothing about the source on their own.

## Left out

- Chain transport: web3 contract calls, `estimate_gas`, `eth.gas_price`, ABI loading and the connection at import time. Each read is a parameter, and `None` stands for a read that raised.
- HTTP clients: `requests`, `time.sleep` and the response bodies of DefiLlama and CoinGecko. A response is a parameter per attempt. The CoinGecko body is taken as a map from id to USD price.
- A response body that is not JSON raises a decode error that `requests` (2.27 and later) derives from `RequestException`, so the source retries it like a failed request; the model's per-attempt response folds it into the failed case. Other errors inside the retry loops (a JSON body of an unexpected shape) are not modelled.
- Redis plumbing: the connection, lock and reconnect, the 60-second expiry of entries, and the float round trip of stored values. The cache is a map that never expires; a stored 0 is a hit.
- The clock: `time.time()` in the gas-price cache and `Date.now()` in the history are parameters.
- Local storage: a failing write or removal is a boolean parameter. JSON encoding and decoding are not modelled. Neither is a stored value that is not an array (the model's slot holds a list or nothing).
- Concurrency: `asyncio.gather` runs the three DEX pipelines at once. The model runs them in order and keeps each outcome, a raised exception or a list of routes.
- Floating point: `Decimal` at precision 50, numpy float64 and Python floats are exact reals. `sqrt` and `log1p` in TOPSIS are parameters, of which only that `sqrt` is non-negative and zero exactly at zero is assumed.
- DecisionEngine.CriteriaRow: `log1p` of a liquidity below -1 (NaN in numpy) is not distinguished, because liquidity values come from non-negative balances.
- Camelot.SwapTxFor: the estimated transaction keeps the token addresses, the input, the value and the price limit; the router address, the recipient and the deadline (`time.time() + 1200`) of the swap tuple at aggregator-backend/services/camelot_service.py:165-181 are left out, since the estimate is a parameter and they only address the transaction.
- Camelot.EstimateGasForSwap: the 5% buffer is `floor(estimate * 105 / 100)`, not the float product `int(estimate * 1.05)`.
- Text.Lower, Text.Upper: case folding covers the ASCII letters only. Python's `str.lower`/`str.upper` also fold non-ASCII letters: `"uſdc".upper()` is `"USDC"` and `"ı".upper()` is `"I"`, so the source finds USDC for a request of "uſdc" (aggregator-backend/routes.py:24-25, aggregator-backend/token_manager.py:17) and the model does not. Python can also change the length (`"İ".lower()` has two characters), which the model's length-preserving `Lower` does not capture. Configured symbols and addresses are ASCII, so this only matters for non-ASCII input.
- LegacyServices.GetSlippage: `Decimal(10 ** negative)` goes through a float in the source; the model uses the exact power.
- Routes.Exchange: pydantic validation is not modelled. The source builds `TransactionOptionRaw` without its required `slippage` field (aggregator-backend/routes.py:51-58, aggregator-backend/models.py:16-23), so as written pydantic raises a ValidationError as soon as the merge holds one route, and the endpoint fails instead of answering. The model builds the raw route from the fields the call passes. Its 404 for an empty merge is the behaviour as written; its ranked, remapped entries for a non-empty merge are the evidently intended behaviour, not the behaviour as written.
- Routes.Entry: `FrontendTransactionOption` declares six fields (aggregator-backend/models.py:8-14), and pydantic's default ignores the other keyword arguments, so as written every entry of the response lacks `liquidity`, `dex_fee`, `gas_cost` and `percentage_change` although routes.py:71-82 passes them. The model's entry keeps the four, because the frontend reads them (aggregator-frontend/src/components/ExchangeOption.js:140-141,250, aggregator-frontend/src/hooks/useSwap.js:47-49).
- Routes.GetConfig: the `routers` entry is left out, because `DEX_CONFIGS` is not part of this model (aggregator-backend/pools_config.py does not define it).
- ExchangeUtils.ProcessDexPools: as written, the second-generation pipeline never yields an option. `from pools_config import TOKENS, get_pool_fee` (aggregator-backend/exchange_utils.py:7) fails at import, because aggregator-backend/pools_config.py defines no `get_pool_fee`. And line 86 calls `token_manager.get_pool_addresses(pair)` with one argument, while `get_pool_addresses(self, dex_service, pool_address)` (aggregator-backend/token_manager.py:35) takes two, so every matching pool raises TypeError. The model yields options anyway: the pool tokens come from an adapter call, `get_pool_fee` is a parameter, and the DEX services are an adapter datatype whose calls follow the shapes at exchange_utils.py:109,131,146,169, which do not all match the services' own signatures. The gas-price cache behind an adapter's `get_transaction_cost` is not visible to the pipeline.
- ExchangeUtils.Dedup: the order of `set(token_addresses + [eth_address])` is taken as first-occurrence order. Python gives no order, and only membership matters downstream.
- ExchangeUtils.CalculateExchangeAmount requires a non-empty token list; the source raises IndexError on an empty one, which `pair.split('/')` never produces.
- LegacyExchange.ProcessDexPools: on a matching pool the first-generation `process_dex_pools` always raises, because it calls `get_liquidity` and `get_transaction_cost` with arguments the services do not take (exchange_utils.py:45,48), and because of the NameError listed under Findings. The model keeps the price, cache and option rules of each pool and uses the corrected exchange amount. Liquidity and cost are not read, since their results are discarded (the option fixes them at 0).
- LegacyExchange.OptionOf requires a pair of two symbols around one "/"; on any other pair the source's `tokens[1]` raises IndexError. Every configured pair has two symbols.
- The first-generation `models.py` has no `TransactionOption`; the model gives the option the fields the constructor call passes.
- FastAPI wiring, pydantic models as classes, the interface base classes, the interactive `connect_arbitrum.py`, the performance tests and every frontend component other than `historyStorage.js` are not part of this model.

## Findings

| source | as written | input that shows it | evidently intended | confidence | as-written member | corrected member |
|---|---|---|---|---|---|---|
| exchange_utils.py:5-9 | selling the pair's first token reads the undefined name `price_token` and raises NameError | `calculate_exchange_amount("USDC", ["USDC", "ETH"], 100, 2000, 0.0005)` | amount times the token price, 0.05, as routes.py:56 computes inline | not executed | LegacyExchange.AsWrittenFailsSellingFirstToken | ExchangeUtils.CalculateExchangeAmount |
| aggregator-backend/services/camelot_service.py:135-151 | `get_gas_cost_usd` is called with keyword arguments its signature (aggregator-backend/services/base_dex_service.py:50) lacks; the TypeError is caught, so a known fee gives (None, None) | any pool whose fee read succeeds, e.g. fee 0.0005 with a gas cost of 0.2 USD | (fee, gas cost), as the base service's `get_transaction_cost` combines them | not executed | Camelot.AsWrittenDropsKnownCosts | Camelot.GetTransactionCost |

=== FILE: cache.dfy ===
/**
 * The Redis price cache as the pipeline sees it (`get_cached_price` / `set_cached_price`
 * of utils.py and of the second generation's cache service): a key to price map. A stored
 * value, 0 included, is a hit; expiry after the 60-second TTL is not modelled.
 */
module PriceCache {
  import opened Wrappers

  /** Seconds a cache entry lives (`ttl=60`); recorded, not modelled. */
  const DefaultTtl: nat := 60

  class Cache {
    var entries: map<string, real>

    /** An empty cache. */
    constructor ()
      ensures entries == map[]
    {
      entries := map[];
    }

    /** `get_cached_price`: the stored price, or None when the key is absent. */
    method GetCachedPrice(key: string) returns (r: Option<real>)
      ensures r.Some? <==> key in entries
      ensures r.Some? ==> r.value == entries[key]
    {
      r := Get(entries, key);
    }

    /** `set_cached_price`: stores `value` under `key`, replacing any earlier value. */
    method SetCachedPrice(key: string, value: real)
      modifies this
      ensures entries == old(entries)[key := value]
    {
      entries := entries[key := value];
    }
  }

  /** A price just stored is read back, including a stored 0. */
  method SetThenGet(cache: Cache, key: string, value: real) returns (r: Option<real>)
    modifies cache
    ensures r == Some(value)
    ensures forall k :: k in old(cache.entries) && k != key ==> k in cache.entries && cache.entries[k] == old(cache.entries)[k]
  {
    cache.SetCachedPrice(key, value);
    r := cache.GetCachedPrice(key);
  }
}

=== FILE: camelot.dfy ===
/**
 * The second-generation Camelot (Algebra) adapter
 * (aggregator-backend/services/camelot_service.py): a fee that depends on the trade
 * direction, the mid-price from `globalState()[0]`, a quoter without a fee tier, the
 * transaction cost and the gas estimate of a swap.
 */
module Camelot {
  import opened Wrappers
  import opened Text
  import opened PriceMath
  import opened Units
  import opened Quoting
  import opened CostModel
  import Tokens

  /** The leading fields of Algebra's `globalState()`: price, tick, and the two directional fees. */
  datatype GlobalState = GlobalState(sqrtPriceX96: nat, tick: int, feeZto: nat, feeOtz: nat)

  /** Gas units assumed when the estimate fails. */
  const FallbackGasUnits: nat := 155_000

  /**
   * `get_dex_fee_percent(pool, token_from_address)`: feeZto when the input token is token0,
   * feeOtz when it is token1 (compared ignoring case), as a fraction; None when the input is
   * neither or a read fails.
   */
  function GetDexFeePercent(tokenFromAddress: string, token0Read: Option<string>, token1Read: Option<string>,
                            globalStateRead: Option<GlobalState>): (r: Option<real>)
    ensures r.Some? ==> token0Read.Some? && token1Read.Some? && globalStateRead.Some?
    ensures token0Read.Some? && token1Read.Some? && globalStateRead.Some? ==>
              (SameIgnoringCase(tokenFromAddress, token0Read.value) ==>
                 r == Some(FeeFraction(globalStateRead.value.feeZto))) &&
              ((!SameIgnoringCase(tokenFromAddress, token0Read.value) &&
                SameIgnoringCase(tokenFromAddress, token1Read.value)) ==>
                 r == Some(FeeFraction(globalStateRead.value.feeOtz))) &&
              ((!SameIgnoringCase(tokenFromAddress, token0Read.value) &&
                !SameIgnoringCase(tokenFromAddress, token1Read.value)) ==> r.None?)
  {
    match (token0Read, token1Read, globalStateRead)
    case (Some(token0), Some(token1), Some(state)) =>
      if Lower(tokenFromAddress) == Lower(token0) then Some(FeeFraction(state.feeZto))
      else if Lower(tokenFromAddress) == Lower(token1) then Some(FeeFraction(state.feeOtz))
      else None
    case _ => None
  }

  /** The two directions of one pool are charged the pool's two directional fees. */
  lemma FeeDependsOnDirection(token0: string, token1: string, state: GlobalState)
    requires !SameIgnoringCase(token0, token1)
    ensures GetDexFeePercent(token0, Some(token0), Some(token1), Some(state)) == Some(FeeFraction(state.feeZto))
    ensures GetDexFeePercent(token1, Some(token0), Some(token1), Some(state)) == Some(FeeFraction(state.feeOtz))
  {
  }

  /** `get_mid_price`: `mid_price_from_univ3_sqrt` of globalState[0], token0 as `Token0Of` finds it. */
  function GetMidPrice(tm: Tokens.TokenManager, tokenFrom: string, tokenAddresses: seq<string>,
                       token0Read: Option<string>, globalStateRead: Option<GlobalState>, decimals: (nat, nat))
    : (r: Option<real>)
    ensures r.Some? <==>
              Token0Of(tokenAddresses, token0Read).Some? &&
              Tokens.GetAddressBySymbol(tm, tokenFrom).Some? && globalStateRead.Some? &&
              (Lower(Tokens.GetAddressBySymbol(tm, tokenFrom).value) == Token0Of(tokenAddresses, token0Read).value
               || globalStateRead.value.sqrtPriceX96 != 0)
    ensures r.Some? ==>
              r.value == MidPriceFromSqrt(globalStateRead.value.sqrtPriceX96, decimals.0, decimals.1,
                           Lower(Tokens.GetAddressBySymbol(tm, tokenFrom).value) == Token0Of(tokenAddresses, token0Read).value)
  {
    match (Token0Of(tokenAddresses, token0Read), Tokens.GetAddressBySymbol(tm, tokenFrom), globalStateRead)
    case (Some(token0), Some(fromAddress), Some(state)) =>
      var isToken0In := Lower(fromAddress) == token0;
      if !isToken0In && state.sqrtPriceX96 == 0 then None
      else Some(MidPriceFromSqrt(state.sqrtPriceX96, decimals.0, decimals.1, isToken0In))
    case _ => None
  }

  /**
   * `quote_exact_in`: the Algebra quoter takes no fee tier and a zero price limit; the
   * `pool_fee` and `pair` arguments are accepted and not used.
   */
  function QuoteExactIn(tm: Tokens.TokenManager, tokenFrom: string, tokenTo: string, amountIn: real,
                        decimals: (nat, nat), tokenAddresses: seq<string>, poolFee: Option<int>, pair: string,
                        token0Read: Option<string>, quoter: QuoteRequest -> Option<nat>): (r: Option<real>)
    ensures r.Some? ==> Tokens.GetAddressBySymbol(tm, tokenFrom).Some? && Tokens.GetAddressBySymbol(tm, tokenTo).Some?
                        && Token0Of(tokenAddresses, token0Read).Some?
    ensures Tokens.GetAddressBySymbol(tm, tokenFrom).Some? && Tokens.GetAddressBySymbol(tm, tokenTo).Some? &&
            Token0Of(tokenAddresses, token0Read).Some? ==>
              var isToken0In := Lower(Tokens.GetAddressBySymbol(tm, tokenFrom).value) == Token0Of(tokenAddresses, token0Read).value;
              var request := QuoteRequest(Tokens.GetAddressBySymbol(tm, tokenFrom).value,
                                          Tokens.GetAddressBySymbol(tm, tokenTo).value, None,
                                          QuoteInputUnits(amountIn, isToken0In, decimals), 0);
              (r.Some? <==> quoter(request).Some?) &&
              (r.Some? ==> r.value >= 0.0 &&
                           r.value * Pow10Nat(DecOut(isToken0In, decimals)) == quoter(request).value as real &&
                           ToBaseUnits(r.value, DecOut(isToken0In, decimals)) == quoter(request).value)
  {
    match (Tokens.GetAddressBySymbol(tm, tokenFrom), Tokens.GetAddressBySymbol(tm, tokenTo),
           Token0Of(tokenAddresses, token0Read))
    case (Some(inAddress), Some(outAddress), Some(token0)) =>
      var isToken0In := Lower(inAddress) == token0;
      var request := QuoteRequest(inAddress, outAddress, None, QuoteInputUnits(amountIn, isToken0In, decimals), 0);
      (match quoter(request)
       case None => None
       case Some(amountOutWei) => Some(QuoteOutput(amountOutWei, isToken0In, decimals)))
    case _ => None
  }

  /** The quote is the same whatever `pool_fee` and `pair` the caller passes. */
  lemma QuoteIgnoresPoolFeeAndPair(tm: Tokens.TokenManager, tokenFrom: string, tokenTo: string, amountIn: real,
                                   decimals: (nat, nat), tokenAddresses: seq<string>,
                                   fee1: Option<int>, fee2: Option<int>, pair1: string, pair2: string,
                                   token0Read: Option<string>, quoter: QuoteRequest -> Option<nat>)
    ensures QuoteExactIn(tm, tokenFrom, tokenTo, amountIn, decimals, tokenAddresses, fee1, pair1, token0Read, quoter)
         == QuoteExactIn(tm, tokenFrom, tokenTo, amountIn, decimals, tokenAddresses, fee2, pair2, token0Read, quoter)
  {
  }

  // ---------------------------------------------------------------------
  // estimate_gas_for_swap

  /** The `eth_estimateGas` transaction for a router `exactInputSingle` swap. */
  datatype SwapTx = SwapTx(tokenIn: string, tokenOut: string, amountIn: int, value: int, limitSqrtPrice: nat)

  /** The value sent with the swap: the whole input when the input token is WETH, else nothing. */
  function SwapTxValue(tokenInAddress: string, wethAddress: string, amountInWei: int): (r: int)
    ensures SameIgnoringCase(tokenInAddress, wethAddress) ==> r == amountInWei
    ensures !SameIgnoringCase(tokenInAddress, wethAddress) ==> r == 0
  {
    if Lower(tokenInAddress) == Lower(wethAddress) then amountInWei else 0
  }

  /** The estimated swap transaction. */
  function SwapTxFor(tokenInAddress: string, tokenOutAddress: string, amountInWei: int, wethAddress: string)
    : (tx: SwapTx)
    ensures tx.amountIn == amountInWei && tx.limitSqrtPrice == 0
    ensures tx.value == SwapTxValue(tokenInAddress, wethAddress, amountInWei)
  {
    SwapTx(tokenInAddress, tokenOutAddress, amountInWei, SwapTxValue(tokenInAddress, wethAddress, amountInWei), 0)
  }

  /**
   * `estimate_gas_for_swap`: the node's estimate plus a 5% buffer, truncated to an
   * integer, or 155,000 when the estimate fails (`estimateGas` gives None).
   */
  function EstimateGasForSwap(tokenInAddress: string, tokenOutAddress: string, amountInWei: int,
                              wethAddress: string, estimateGas: SwapTx -> Option<nat>): (r: nat)
    ensures var est := estimateGas(SwapTxFor(tokenInAddress, tokenOutAddress, amountInWei, wethAddress));
            (est.None? ==> r == FallbackGasUnits) &&
            (est.Some? ==> r * 100 <= est.value * 105 < r * 100 + 100 && r >= est.value)
  {
    match estimateGas(SwapTxFor(tokenInAddress, tokenOutAddress, amountInWei, wethAddress))
    case None => FallbackGasUnits
    case Some(est) => est * 105 / 100
  }

  // ---------------------------------------------------------------------
  // get_transaction_cost

  /**
   * `get_transaction_cost` as written: (None, None) when the fee is missing; otherwise the
   * call to the inherited `get_gas_cost_usd` passes keyword arguments that method does not
   * accept, and the TypeError is caught into (None, None) as well.
   */
  function GetTransactionCostAsWritten(dexFee: Option<real>): (r: (Option<real>, Option<real>))
    ensures r.0.None? && r.1.None?
  {
    if dexFee.None? then (None, None)
    else (None, None)
  }

  /**
   * A pool whose fee and gas price are both known, where the corrected cost is the pair
   * (fee, gas cost) and the as-written one is (None, None).
   */
  lemma AsWrittenDropsKnownCosts(dexFee: real, gasPriceWei: nat, units: nat, ethPrice: real)
    ensures GetTransactionCostAsWritten(Some(dexFee)) == (None, None)
    ensures CombineCosts(Some(dexFee), Some(GasCostUsd(gasPriceWei, units, ethPrice)))
         == (Some(dexFee), Some(GasCostUsd(gasPriceWei, units, ethPrice)))
  {
  }

  /**
   * `get_transaction_cost` as it was evidently meant to work: (None, None) when the fee is
   * missing; otherwise the gas estimated for the swap priced at the cached gas price and
   * the ether price, combined with the fee as the base class does.
   */
  method GetTransactionCost(cache: GasPriceCache, dexFee: Option<real>, tokenFromAddress: string,
                            tokenToAddress: string, amountInWei: int, wethAddress: string,
                            estimateGas: SwapTx -> Option<nat>, ethPrice: real, now: real,
                            chainRead: Option<nat>) returns (r: (Option<real>, Option<real>))
    modifies cache
    ensures dexFee.None? ==> r == (None, None) && cache.value == old(cache.value) && cache.timestamp == old(cache.timestamp)
    ensures r.0.Some? <==> dexFee.Some? && (old(cache.Fresh(now)) || chainRead.Some?)
    ensures r.1.Some? <==> r.0.Some?
    ensures r.0.Some? ==> r.0 == dexFee
    ensures r.0.Some? ==>
              var units := EstimateGasForSwap(tokenFromAddress, tokenToAddress, amountInWei, wethAddress, estimateGas);
              var wei := if old(cache.Fresh(now)) then old(cache.value).value else chainRead.value;
              r.1 == Some(GasCostUsd(wei, units, ethPrice))
  {
    if dexFee.None? {
      return (None, None);
    }
    var units := EstimateGasForSwap(tokenFromAddress, tokenToAddress, amountInWei, wethAddress, estimateGas);
    var price, _ := cache.GetCachedGasPrice(now, chainRead);
    match price
    case None => r := (None, None);
    case Some(wei) => r := CombineCosts(dexFee, Some(GasCostUsd(wei, units, ethPrice)));
  }
}

=== FILE: cost_model.dfy ===
/**
 * The cost model shared by the second-generation adapters
 * (aggregator-backend/services/base_dex_service.py): a gas price cached for 60 seconds,
 * gas units looked up by fee tier with an uplift for thin pools, the USD gas cost, the
 * (fee, gas) pair that is missing as a whole when either half is, and the pool balances.
 */
module CostModel {
  import opened Wrappers
  import opened Units
  import opened PriceMath

  /** Seconds a cached gas price stays valid. */
  const GasPriceTtl: real := 60.0

  /** Wei per ether (`Web3.from_wei(x, 'ether')` divides by this). */
  const WeiPerEther: real := 1_000_000_000_000_000_000.0

  /** Pools whose USD liquidity is below this get the gas uplift. */
  const LowLiquidityThreshold: real := 100_000.0
  const LowLiquidityUplift: nat := 15_000

  /**
   * The module-level `_gas_price_cache` dictionary: a value (None until the first read)
   * and the time it was stored.
   */
  class GasPriceCache {
    var value: Option<nat>
    var timestamp: real

    /** The initial state `{'value': None, 'timestamp': 0}`. */
    constructor ()
      ensures value == None && timestamp == 0.0
    {
      value := None;
      timestamp := 0.0;
    }

    /** A cached value is served at time `now` iff one is stored and it is under 60 s old. */
    predicate Fresh(now: real)
      reads this
      ensures Fresh(now) <==> value.Some? && now - timestamp < GasPriceTtl
    {
      value.Some? && timestamp + GasPriceTtl > now
    }

    /**
     * `get_cached_gas_price`: the stored price when it is fresh, otherwise the chain's gas
     * price (`chainRead`), which is stored with the current time before it is returned. A
     * failed chain read (None) raises out of the function and leaves the cache as it was.
     * `readChain` tells whether the chain was asked.
     */
    method GetCachedGasPrice(now: real, chainRead: Option<nat>) returns (price: Option<nat>, readChain: bool)
      modifies this
      ensures readChain <==> !old(Fresh(now))
      ensures !readChain ==> price == old(value) && value == old(value) && timestamp == old(timestamp)
      ensures readChain ==> price == chainRead
      ensures readChain && chainRead.Some? ==> value == chainRead && timestamp == now
      ensures readChain && chainRead.None? ==> value == old(value) && timestamp == old(timestamp)
      // a price just read from the chain is served from the cache for the next 60 seconds
      ensures readChain && chainRead.Some? ==> forall t: real :: now <= t < now + GasPriceTtl ==> Fresh(t)
    {
      if value.Some? && timestamp + GasPriceTtl > now {
        return value, false;
      }
      readChain := true;
      price := chainRead;
      if chainRead.Some? {
        value := chainRead;
        timestamp := now;
      }
    }
  }

  /**
   * A call that misses stores what it read, so a second call within 60 seconds returns the
   * same price without a chain read.
   */
  method SecondReadWithinTtl(cache: GasPriceCache, now: real, later: real, read1: Option<nat>, read2: Option<nat>)
    returns (first: Option<nat>, second: Option<nat>, secondReadChain: bool)
    requires now <= later < now + GasPriceTtl
    requires !cache.Fresh(now) && read1.Some?
    modifies cache
    ensures first == read1 && second == first && !secondReadChain
  {
    var r1;
    first, r1 := cache.GetCachedGasPrice(now, read1);
    assert cache.Fresh(later);
    second, secondReadChain := cache.GetCachedGasPrice(later, read2);
  }

  /** The gas units of the fee-tier table, before the low-liquidity uplift. */
  function BaseGasUnits(dexFee: Option<real>): (r: nat)
    ensures 110_000 <= r <= 160_000
    ensures dexFee == Some(0.0001) ==> r == 110_000
    ensures dexFee == Some(0.0005) ==> r == 120_000
    ensures dexFee == Some(0.003) ==> r == 140_000
    ensures dexFee == Some(0.01) ==> r == 160_000
    ensures dexFee !in {Some(0.0001), Some(0.0005), Some(0.003), Some(0.01)} ==> r == 140_000
  {
    match dexFee
    case None => 140_000
    case Some(fee) =>
      if fee == 0.0001 then 110_000
      else if fee == 0.0005 then 120_000
      else if fee == 0.003 then 140_000
      else if fee == 0.01 then 160_000
      else 140_000
  }

  /** The gas units charged for a swap: the table entry, plus 15,000 below 100,000 USD of liquidity. */
  function GasUnits(dexFee: Option<real>, liquidity: real): (r: nat)
    ensures 110_000 <= r <= 175_000
    ensures liquidity < LowLiquidityThreshold ==> r == BaseGasUnits(dexFee) + LowLiquidityUplift
    ensures liquidity >= LowLiquidityThreshold ==> r == BaseGasUnits(dexFee)
  {
    var base := BaseGasUnits(dexFee);
    if liquidity < LowLiquidityThreshold then base + LowLiquidityUplift else base
  }

  /** A thinner pool is never charged fewer gas units than a deeper one with the same fee. */
  lemma GasUnitsMonotone(dexFee: Option<real>, thin: real, deep: real)
    requires thin <= deep
    ensures GasUnits(dexFee, thin) >= GasUnits(dexFee, deep)
  {
  }

  /** The USD cost of `units` of gas at `gasPriceWei` wei per unit and `ethPrice` USD per ether. */
  function GasCostUsd(gasPriceWei: nat, units: nat, ethPrice: real): (r: real)
    ensures ethPrice >= 0.0 ==> r >= 0.0
    ensures ethPrice == 0.0 || gasPriceWei == 0 ==> r == 0.0
  {
    var gasPriceEth := gasPriceWei as real / WeiPerEther;
    var costEth := gasPriceEth * units as real;
    assert costEth >= 0.0;
    costEth * ethPrice
  }

  /** The gas cost is proportional to the ether price. */
  lemma GasCostLinearInEthPrice(gasPriceWei: nat, units: nat, ethPrice: real, k: real)
    ensures GasCostUsd(gasPriceWei, units, k * ethPrice) == k * GasCostUsd(gasPriceWei, units, ethPrice)
  {
    var c := gasPriceWei as real / WeiPerEther * units as real;
    assert c * (k * ethPrice) == k * (c * ethPrice);
  }

  /** At a non-negative ether price, more gas units never cost less. */
  lemma GasCostMonotoneInUnits(gasPriceWei: nat, fewer: nat, more: nat, ethPrice: real)
    requires fewer <= more
    ensures ethPrice >= 0.0 ==> GasCostUsd(gasPriceWei, fewer, ethPrice) <= GasCostUsd(gasPriceWei, more, ethPrice)
  {
    var g := gasPriceWei as real / WeiPerEther;
    assert g >= 0.0;
    assert g * fewer as real <= g * more as real;
    if ethPrice >= 0.0 {
      assert (g * fewer as real) * ethPrice <= (g * more as real) * ethPrice;
    }
  }

  /** 1 gwei for 140,000 units at 2,000 USD per ether is 0.28 USD. */
  lemma GasCostExample()
    ensures GasCostUsd(1_000_000_000, GasUnits(Some(0.003), 200_000.0), 2000.0) == 0.28
  {
  }

  /**
   * `get_gas_cost_usd`: the units for the fee and liquidity at the cached gas price; None
   * when the gas price cannot be obtained.
   */
  method GetGasCostUsd(cache: GasPriceCache, dexFee: Option<real>, liquidity: real, ethPrice: real,
                       now: real, chainRead: Option<nat>) returns (cost: Option<real>)
    modifies cache
    ensures old(cache.Fresh(now)) ==>
              cost == Some(GasCostUsd(old(cache.value).value, GasUnits(dexFee, liquidity), ethPrice))
    ensures !old(cache.Fresh(now)) ==>
              cost == (if chainRead.Some? then Some(GasCostUsd(chainRead.value, GasUnits(dexFee, liquidity), ethPrice)) else None)
    ensures !old(cache.Fresh(now)) && chainRead.Some? ==> cache.value == chainRead && cache.timestamp == now
    ensures old(cache.Fresh(now)) || chainRead.None? ==>
              cache.value == old(cache.value) && cache.timestamp == old(cache.timestamp)
  {
    var units := GasUnits(dexFee, liquidity);
    var price, _ := cache.GetCachedGasPrice(now, chainRead);
    match price
    case None => cost := None;
    case Some(wei) => cost := Some(GasCostUsd(wei, units, ethPrice));
  }

  /**
   * The combination rule of `get_transaction_cost`: (fee, gas) when both are known, and
   * (None, None) as soon as either is missing.
   */
  function CombineCosts(dexFee: Option<real>, gasCost: Option<real>): (r: (Option<real>, Option<real>))
    ensures r.0.Some? <==> dexFee.Some? && gasCost.Some?
    ensures r.1.Some? <==> r.0.Some?
    ensures r.0.Some? ==> r == (dexFee, gasCost)
  {
    if dexFee.None? || gasCost.None? then (None, None) else (dexFee, gasCost)
  }

  /**
   * `get_transaction_cost`: the adapter's fee (`dexFee`, the result of its
   * `get_dex_fee_percent`) and the gas cost for it. The gas cost, and so the gas-price
   * cache, is worked out even when the fee is missing.
   */
  method GetTransactionCost(cache: GasPriceCache, dexFee: Option<real>, liquidity: real, ethPrice: real,
                            now: real, chainRead: Option<nat>) returns (r: (Option<real>, Option<real>))
    modifies cache
    ensures r.0.Some? <==> dexFee.Some? && (old(cache.Fresh(now)) || chainRead.Some?)
    ensures r.1.Some? <==> r.0.Some?
    ensures r.0.Some? ==> r.0 == dexFee
    ensures r.0.Some? && old(cache.Fresh(now)) ==>
              r.1 == Some(GasCostUsd(old(cache.value).value, GasUnits(dexFee, liquidity), ethPrice))
    ensures r.0.Some? && !old(cache.Fresh(now)) ==>
              r.1 == Some(GasCostUsd(chainRead.value, GasUnits(dexFee, liquidity), ethPrice))
    ensures !old(cache.Fresh(now)) && chainRead.Some? ==> cache.value == chainRead && cache.timestamp == now
    ensures old(cache.Fresh(now)) || chainRead.None? ==>
              cache.value == old(cache.value) && cache.timestamp == old(cache.timestamp)
  {
    var gasCost := GetGasCostUsd(cache, dexFee, liquidity, ethPrice, now, chainRead);
    r := CombineCosts(dexFee, gasCost);
  }

  /**
   * `get_liquidity`: the pool's two token balances in whole tokens, or None when either
   * balance read fails.
   */
  function GetLiquidity(balance0Read: Option<nat>, balance1Read: Option<nat>, decimals: (nat, nat))
    : (r: Option<(real, real)>)
    ensures r.Some? <==> balance0Read.Some? && balance1Read.Some?
    ensures r.Some? ==> r.value.0 >= 0.0 && r.value.1 >= 0.0
    // each balance is the raw balance over 10^decimals, so no base unit is lost
    ensures r.Some? ==>
              r.value.0 * Pow10Nat(decimals.0) == balance0Read.value as real &&
              r.value.1 * Pow10Nat(decimals.1) == balance1Read.value as real
    ensures r.Some? ==>
              ToBaseUnits(r.value.0, decimals.0) == balance0Read.value &&
              ToBaseUnits(r.value.1, decimals.1) == balance1Read.value
  {
    match (balance0Read, balance1Read)
    case (Some(b0), Some(b1)) =>
      BaseUnitsRoundTrip(b0, decimals.0);
      BaseUnitsRoundTrip(b1, decimals.1);
      Some((FromBaseUnits(b0, decimals.0), FromBaseUnits(b1, decimals.1)))
    case _ => None
  }
}

=== FILE: decision_engine.dfy ===
/**
 * The second generation's ranking (aggregator-backend/decision_engine.py): TOPSIS over four
 * criteria per route (amount received, log1p of liquidity, DEX fee, gas cost), with amount
 * and liquidity as benefits and fee and gas as costs, followed by a stable sort by score.
 * numpy's float64 `sqrt` and `log1p` are parameters; of `sqrt` only what the proofs need is
 * assumed of it (`ValidNumerics`). Arithmetic is exact.
 */
module DecisionEngine {
  import opened Sorting

  /**
   * A raw route (`TransactionOptionRaw`) with the fields the exchange endpoint fills in; the
   * declared `slippage` field is never supplied there and the ranking does not read it.
   */
  datatype RawOption = RawOption(
    dex: string,
    pool: string,
    amountTo: real,
    liquidity: real,
    dexFee: real,
    gasCost: real)

  /** numpy's square root and log1p, as the environment supplies them. */
  datatype Numerics = Numerics(sqrt: real -> real, log1p: real -> real)

  /** The square root is never negative, and is 0 exactly at 0. */
  ghost predicate ValidNumerics(num: Numerics)
  {
    forall x: real :: x >= 0.0 ==> num.sqrt(x) >= 0.0 && (num.sqrt(x) == 0.0 <==> x == 0.0)
  }

  /** The constant added to every column norm (`epsilon = 1e-10`). */
  const Epsilon: real := 0.0000000001

  /** The criteria weights: amount, liquidity, fee, gas. */
  const Weights: seq<real> := [0.7, 0.2, 0.08, 0.02]

  /** Number of criteria. */
  const Criteria: nat := 4

  lemma WeightsSumToOne()
    ensures |Weights| == Criteria
    ensures Weights[0] + Weights[1] + Weights[2] + Weights[3] == 1.0
    ensures forall j :: 0 <= j < Criteria ==> Weights[j] > 0.0
  {
  }

  /** A matrix with one row of four criteria per route. */
  predicate IsMatrix(m: seq<seq<real>>)
  {
    forall i :: 0 <= i < |m| ==> |m[i]| == Criteria
  }

  /** One route's criteria row. */
  function CriteriaRow(o: RawOption, num: Numerics): (row: seq<real>)
    ensures |row| == Criteria
    ensures row[0] == o.amountTo && row[2] == o.dexFee && row[3] == o.gasCost
    ensures row[1] == num.log1p(o.liquidity)
  {
    [o.amountTo, num.log1p(o.liquidity), o.dexFee, o.gasCost]
  }

  /** The decision matrix: row i is route i's criteria. */
  function DecisionMatrix(options: seq<RawOption>, num: Numerics): (m: seq<seq<real>>)
    ensures |m| == |options| && IsMatrix(m)
    ensures forall i :: 0 <= i < |options| ==> m[i] == CriteriaRow(options[i], num)
  {
    seq(|options|, i requires 0 <= i < |options| => CriteriaRow(options[i], num))
  }

  /** Column j of the matrix. */
  function Column(m: seq<seq<real>>, j: nat): (c: seq<real>)
    requires IsMatrix(m) && j < Criteria
    ensures |c| == |m|
    ensures forall i :: 0 <= i < |m| ==> c[i] == m[i][j]
  {
    seq(|m|, i requires 0 <= i < |m| => m[i][j])
  }

  /** A product, with the sign rule the proofs use (a square is positive unless its root is 0). */
  function Product(a: real, b: real): (r: real)
    ensures a > 0.0 && b > 0.0 ==> r > 0.0
    ensures a < 0.0 && b < 0.0 ==> r > 0.0
    ensures a == 0.0 || b == 0.0 ==> r == 0.0
  {
    a * b
  }

  /** An entry divided by its column's divisor and multiplied by its column's weight. */
  function Weigh(x: real, norm: real, weight: real): real
    requires norm > 0.0
  {
    x / norm * weight
  }

  /** Weighing by a positive divisor and a positive weight keeps the order of entries. */
  lemma WeighKeepsOrder(x: real, y: real, norm: real, weight: real)
    requires norm > 0.0 && weight > 0.0
    ensures x <= y <==> Weigh(x, norm, weight) <= Weigh(y, norm, weight)
  {
    if x <= y {
      assert x / norm <= y / norm;
      assert (y / norm - x / norm) * weight >= 0.0;
    } else {
      assert x / norm > y / norm;
      assert (x / norm - y / norm) * weight > 0.0;
    }
  }

  /** The sum of the squares of the entries. */
  function SumSquares(s: seq<real>): (r: real)
    ensures r >= 0.0
    ensures r == 0.0 <==> forall i :: 0 <= i < |s| ==> s[i] == 0.0
  {
    if s == [] then 0.0
    else
      assert forall i :: 1 <= i < |s| ==> s[i] == s[1..][i - 1];
      assert forall k :: 0 <= k < |s| - 1 ==> s[1..][k] == s[k + 1];
      Product(s[0], s[0]) + SumSquares(s[1..])
  }

  /** The Euclidean norm of column j plus epsilon: the divisor of that column. */
  function ColumnNorm(m: seq<seq<real>>, j: nat, num: Numerics): (r: real)
    requires IsMatrix(m) && j < Criteria
    requires ValidNumerics(num)
    ensures r >= Epsilon > 0.0
  {
    num.sqrt(SumSquares(Column(m, j))) + Epsilon
  }

  /** The divisor of every column. */
  function Norms(m: seq<seq<real>>, num: Numerics): (norms: seq<real>)
    requires IsMatrix(m)
    requires ValidNumerics(num)
    ensures |norms| == Criteria
    ensures forall j :: 0 <= j < Criteria ==> norms[j] == ColumnNorm(m, j, num) && norms[j] > 0.0
  {
    [ColumnNorm(m, 0, num), ColumnNorm(m, 1, num), ColumnNorm(m, 2, num), ColumnNorm(m, 3, num)]
  }

  /** One row normalised by the column divisors and weighted. */
  function WeightedRow(row: seq<real>, norms: seq<real>): (r: seq<real>)
    requires |row| == Criteria && |norms| == Criteria
    requires forall j :: 0 <= j < Criteria ==> norms[j] > 0.0
    ensures |r| == Criteria
    ensures forall j :: 0 <= j < Criteria ==> r[j] == Weigh(row[j], norms[j], Weights[j])
  {
    seq(Criteria, j requires 0 <= j < Criteria => Weigh(row[j], norms[j], Weights[j]))
  }

  /**
   * The weighted normalised matrix: each entry divided by its column's norm and multiplied
   * by its column's weight, the same for every row.
   */
  function WeightedMatrix(m: seq<seq<real>>, num: Numerics): (w: seq<seq<real>>)
    requires IsMatrix(m)
    requires ValidNumerics(num)
    ensures |w| == |m| && IsMatrix(w)
    ensures forall i :: 0 <= i < |m| ==> w[i] == WeightedRow(m[i], Norms(m, num))
  {
    var norms := Norms(m, num);
    seq(|m|, i requires 0 <= i < |m| => WeightedRow(m[i], norms))
  }

  /** Normalising and weighting keeps the order of a column's entries. */
  lemma WeightingKeepsColumnOrder(m: seq<seq<real>>, num: Numerics, a: nat, b: nat, j: nat)
    requires IsMatrix(m) && ValidNumerics(num)
    requires a < |m| && b < |m| && j < Criteria
    ensures m[a][j] <= m[b][j] <==> WeightedMatrix(m, num)[a][j] <= WeightedMatrix(m, num)[b][j]
  {
    WeightsSumToOne();
    var norms := Norms(m, num);
    var ra, rb := WeightedRow(m[a], norms), WeightedRow(m[b], norms);
    assert WeightedMatrix(m, num)[a] == ra && WeightedMatrix(m, num)[b] == rb;
    WeighKeepsOrder(m[a][j], m[b][j], norms[j], Weights[j]);
  }

  /** The largest entry of a non-empty sequence (`np.max`). */
  function Max(s: seq<real>): (r: real)
    requires |s| >= 1
    ensures r in s
    ensures forall i :: 0 <= i < |s| ==> s[i] <= r
  {
    if |s| == 1 then s[0]
    else
      var rest := Max(s[1..]);
      assert forall i :: 1 <= i < |s| ==> s[i] == s[1..][i - 1];
      if s[0] >= rest then s[0] else rest
  }

  /** The smallest entry of a non-empty sequence (`np.min`). */
  function Min(s: seq<real>): (r: real)
    requires |s| >= 1
    ensures r in s
    ensures forall i :: 0 <= i < |s| ==> r <= s[i]
  {
    if |s| == 1 then s[0]
    else
      var rest := Min(s[1..]);
      assert forall i :: 1 <= i < |s| ==> s[i] == s[1..][i - 1];
      if s[0] <= rest then s[0] else rest
  }

  /** Criterion j is a benefit (larger is better): amount and liquidity. */
  predicate IsBenefit(j: nat)
  {
    j < 2
  }

  /**
   * The ideal best point: the column maximum for the benefits and the column minimum for
   * the costs. Every row is weakly worse than it in every column.
   */
  function IdealBest(w: seq<seq<real>>): (best: seq<real>)
    requires |w| >= 1 && IsMatrix(w)
    ensures |best| == Criteria
    ensures forall j :: 0 <= j < Criteria ==> best[j] in Column(w, j)
    ensures forall i, j :: 0 <= i < |w| && 0 <= j < Criteria && IsBenefit(j) ==> w[i][j] <= best[j]
    ensures forall i, j :: 0 <= i < |w| && 0 <= j < Criteria && !IsBenefit(j) ==> w[i][j] >= best[j]
  {
    seq(Criteria, j requires 0 <= j < Criteria => if IsBenefit(j) then Max(Column(w, j)) else Min(Column(w, j)))
  }

  /**
   * The ideal worst point: the column minimum for the benefits and the column maximum for
   * the costs. Every row weakly dominates it in every column.
   */
  function IdealWorst(w: seq<seq<real>>): (worst: seq<real>)
    requires |w| >= 1 && IsMatrix(w)
    ensures |worst| == Criteria
    ensures forall j :: 0 <= j < Criteria ==> worst[j] in Column(w, j)
    ensures forall i, j :: 0 <= i < |w| && 0 <= j < Criteria && IsBenefit(j) ==> w[i][j] >= worst[j]
    ensures forall i, j :: 0 <= i < |w| && 0 <= j < Criteria && !IsBenefit(j) ==> w[i][j] <= worst[j]
  {
    seq(Criteria, j requires 0 <= j < Criteria => if IsBenefit(j) then Min(Column(w, j)) else Max(Column(w, j)))
  }

  /** The entrywise difference of two rows. */
  function Difference(row: seq<real>, point: seq<real>): (d: seq<real>)
    requires |row| == |point|
    ensures |d| == |row|
    ensures forall j :: 0 <= j < |row| ==> d[j] == row[j] - point[j]
  {
    seq(|row|, j requires 0 <= j < |row| => row[j] - point[j])
  }

  /** The Euclidean distance of a row from a point (`np.linalg.norm(..., axis=1)`). */
  function Distance(row: seq<real>, point: seq<real>, num: Numerics): (r: real)
    requires |row| == |point|
    requires ValidNumerics(num)
    ensures r >= 0.0
    ensures r == 0.0 <==> row == point
  {
    var d := Difference(row, point);
    if row == point then
      assert forall j :: 0 <= j < |d| ==> d[j] == 0.0;
      num.sqrt(SumSquares(d))
    else
      var j :| 0 <= j < |row| && row[j] != point[j];
      assert d[j] != 0.0;
      num.sqrt(SumSquares(d))
  }

  /** A score: a number, or numpy's NaN from 0/0. */
  datatype Score = Num(value: real) | NaN

  /**
   * `dist_worst / (dist_best + dist_worst)`, with no epsilon: NaN exactly when both
   * distances are 0, and otherwise a number in [0, 1].
   */
  function ScoreOf(distBest: real, distWorst: real): (s: Score)
    requires distBest >= 0.0 && distWorst >= 0.0
    ensures s.NaN? <==> distBest == 0.0 && distWorst == 0.0
    ensures s.Num? ==> 0.0 <= s.value <= 1.0
    ensures s.Num? ==> s.value * (distBest + distWorst) == distWorst
  {
    if distBest + distWorst == 0.0 then NaN
    else Num(distWorst / (distBest + distWorst))
  }

  /** A route's score in the weighted matrix `w`. */
  function RowScore(w: seq<seq<real>>, i: nat, num: Numerics): (s: Score)
    requires |w| >= 1 && IsMatrix(w) && i < |w|
    requires ValidNumerics(num)
    ensures s.NaN? <==> w[i] == IdealBest(w) && w[i] == IdealWorst(w)
  {
    ScoreOf(Distance(w[i], IdealBest(w), num), Distance(w[i], IdealWorst(w), num))
  }

  /** The score of every route, in input order. */
  function Scores(options: seq<RawOption>, num: Numerics): (scores: seq<Score>)
    requires |options| >= 1
    requires ValidNumerics(num)
    ensures |scores| == |options|
    ensures forall i :: 0 <= i < |options| ==> scores[i] == RowScore(WeightedMatrix(DecisionMatrix(options, num), num), i, num)
  {
    var w := WeightedMatrix(DecisionMatrix(options, num), num);
    seq(|options|, i requires 0 <= i < |options| => RowScore(w, i, num))
  }

  /** The best point equals the worst point exactly when every row is the same. */
  lemma IdealsMeet(w: seq<seq<real>>)
    requires |w| >= 1 && IsMatrix(w)
    ensures IdealBest(w) == IdealWorst(w) <==> forall i :: 0 <= i < |w| ==> w[i] == w[0]
  {
    var best, worst := IdealBest(w), IdealWorst(w);
    if best == worst {
      forall i | 0 <= i < |w|
        ensures w[i] == w[0]
      {
        forall j | 0 <= j < Criteria
          ensures w[i][j] == w[0][j]
        {
          assert best[j] == worst[j];
        }
      }
    }
  }

  /**
   * A NaN score occurs for every route or for none: a route is NaN only when it is both
   * ideal points, which forces every row to be the same.
   */
  lemma NaNForAllOrNone(options: seq<RawOption>, num: Numerics, a: nat, b: nat)
    requires |options| >= 1 && ValidNumerics(num)
    requires a < |options| && b < |options|
    ensures Scores(options, num)[a].NaN? <==> Scores(options, num)[b].NaN?
  {
    var w := WeightedMatrix(DecisionMatrix(options, num), num);
    IdealsMeet(w);
  }

  /**
   * Scores are NaN exactly when all routes have the same criteria row, and then every
   * route's score is NaN.
   */
  lemma NaNIffIdenticalRows(options: seq<RawOption>, num: Numerics)
    requires |options| >= 1 && ValidNumerics(num)
    ensures Scores(options, num)[0].NaN? <==>
              forall i :: 0 <= i < |options| ==> CriteriaRow(options[i], num) == CriteriaRow(options[0], num)
  {
    var m := DecisionMatrix(options, num);
    var w := WeightedMatrix(m, num);
    assert Scores(options, num)[0] == RowScore(w, 0, num);
    NaNIffIdealsMeet(w, 0, num);
    IdealsMeet(w);
    WeightingKeepsRowsEqual(m, num);
    assert (forall i :: 0 <= i < |m| ==> m[i] == m[0]) <==>
           (forall i :: 0 <= i < |options| ==> CriteriaRow(options[i], num) == CriteriaRow(options[0], num));
  }

  /** A route's score is NaN exactly when the two ideal points coincide. */
  lemma NaNIffIdealsMeet(w: seq<seq<real>>, i: nat, num: Numerics)
    requires |w| >= 1 && IsMatrix(w) && i < |w| && ValidNumerics(num)
    ensures RowScore(w, i, num).NaN? <==> IdealBest(w) == IdealWorst(w)
  {
    var best := IdealBest(w);
    if best == IdealWorst(w) {
      IdealsMeet(w);
      forall j | 0 <= j < Criteria
        ensures w[i][j] == best[j]
      {
        var k :| 0 <= k < |w| && Column(w, j)[k] == best[j];
        assert w[k] == w[0] && w[i] == w[0];
      }
    }
  }

  /** All routes have the same criteria row exactly when all have the same weighted row. */
  lemma WeightingKeepsRowsEqual(m: seq<seq<real>>, num: Numerics)
    requires |m| >= 1 && IsMatrix(m) && ValidNumerics(num)
    ensures (forall i :: 0 <= i < |m| ==> m[i] == m[0]) <==>
            (forall i :: 0 <= i < |m| ==> WeightedMatrix(m, num)[i] == WeightedMatrix(m, num)[0])
  {
    var w := WeightedMatrix(m, num);
    forall i | 0 <= i < |m|
      ensures m[i] == m[0] <==> w[i] == w[0]
    {
      forall j | 0 <= j < Criteria
        ensures m[i][j] == m[0][j] <==> w[i][j] == w[0][j]
      {
        WeightingKeepsColumnOrder(m, num, i, 0, j);
        WeightingKeepsColumnOrder(m, num, 0, i, j);
      }
    }
  }

  /** A route that is the ideal best point, when the ideals differ, scores exactly 1. */
  lemma IdealBestScoresOne(w: seq<seq<real>>, i: nat, num: Numerics)
    requires |w| >= 1 && IsMatrix(w) && i < |w|
    requires ValidNumerics(num)
    requires w[i] == IdealBest(w) && IdealBest(w) != IdealWorst(w)
    ensures RowScore(w, i, num) == Num(1.0)
  {
    var distBest := Distance(w[i], IdealBest(w), num);
    var distWorst := Distance(w[i], IdealWorst(w), num);
    assert distBest == 0.0 && distWorst > 0.0;
    assert ScoreOf(distBest, distWorst) == Num(distWorst / distWorst);
  }

  /** A route that is the ideal worst point, when the ideals differ, scores exactly 0. */
  lemma IdealWorstScoresZero(w: seq<seq<real>>, i: nat, num: Numerics)
    requires |w| >= 1 && IsMatrix(w) && i < |w|
    requires ValidNumerics(num)
    requires w[i] == IdealWorst(w) && IdealBest(w) != IdealWorst(w)
    ensures RowScore(w, i, num) == Num(0.0)
  {
    var distBest := Distance(w[i], IdealBest(w), num);
    var distWorst := Distance(w[i], IdealWorst(w), num);
    assert distBest > 0.0 && distWorst == 0.0;
    assert ScoreOf(distBest, distWorst) == Num(0.0 / distBest);
  }

  /**
   * The sort key of each route. Python compares NaN as neither larger nor smaller, and since
   * NaN occurs for all routes or none, an all-NaN list is sorted as if all keys were equal.
   */
  function RankKeys(scores: seq<Score>): (keys: seq<real>)
    ensures |keys| == |scores|
    ensures forall i :: 0 <= i < |scores| && scores[i].Num? ==> keys[i] == scores[i].value
    ensures forall i, j :: 0 <= i < |scores| && 0 <= j < |scores| && scores[i].NaN? && scores[j].NaN? ==> keys[i] == keys[j]
  {
    seq(|scores|, i requires 0 <= i < |scores| => if scores[i].Num? then scores[i].value else 0.0)
  }

  /**
   * `rank_options`: [] for no routes; otherwise the routes read in the stable order of
   * non-increasing score. The result is a permutation of the input ordered by score.
   */
  function RankOptions(options: seq<RawOption>, num: Numerics): (ranked: seq<RawOption>)
    requires ValidNumerics(num)
    ensures options == [] ==> ranked == []
    ensures multiset(ranked) == multiset(options)
    ensures options != [] ==>
              exists order :: IsPermutation(order, |options|) && Ordered(RankKeys(Scores(options, num)), order)
                           && ranked == Arrange(options, order)
  {
    if options == [] then []
    else
      var order := StableOrder(RankKeys(Scores(options, num)));
      ArrangePermutes(options, order);
      Arrange(options, order)
  }

  /** The ranking is ordered by non-increasing score: a route placed earlier never scores less. */
  lemma RankedByScore(options: seq<RawOption>, num: Numerics, order: seq<nat>, a: nat, b: nat)
    requires ValidNumerics(num) && |options| >= 1
    requires IsPermutation(order, |options|) && Ordered(RankKeys(Scores(options, num)), order)
    requires a < b < |options|
    ensures Scores(options, num)[order[a]].Num? ==>
              Scores(options, num)[order[b]].Num? &&
              Scores(options, num)[order[a]].value >= Scores(options, num)[order[b]].value
  {
    if Scores(options, num)[order[a]].Num? {
      NaNForAllOrNone(options, num, order[a], order[b]);
    }
  }

  /** When one score is NaN, every score is NaN. */
  lemma AllScoresNaN(options: seq<RawOption>, num: Numerics)
    requires ValidNumerics(num) && |options| >= 1
    requires Scores(options, num)[0].NaN?
    ensures forall i :: 0 <= i < |options| ==> Scores(options, num)[i].NaN?
  {
    forall i | 0 <= i < |options|
      ensures Scores(options, num)[i].NaN?
    {
      NaNForAllOrNone(options, num, 0, i);
    }
  }

  /** When every score is NaN (all routes alike), the ranking keeps the input order. */
  lemma NaNRankKeepsInputOrder(options: seq<RawOption>, num: Numerics)
    requires ValidNumerics(num) && |options| >= 1
    requires Scores(options, num)[0].NaN?
    ensures RankOptions(options, num) == options
  {
    AllScoresNaN(options, num);
    var keys := RankKeys(Scores(options, num));
    var order := StableOrder(keys);
    TiedKeysKeepInputOrder(keys, order);
    ArrangeRange(options);
  }
}

=== FILE: exchange_utils.dfy ===
/**
 * The second generation's per-DEX pipeline (aggregator-backend/exchange_utils.py): USD
 * prices read through the Redis cache with the price oracle behind it, and the walk over a
 * DEX's pools that turns each matching pool into at most one transaction option.
 *
 * The cache is the `PriceCache.Cache` object, which the methods update in place. Each
 * method is proved against a specification function of the cache contents before the
 * call, and the promised properties are lemmas about those functions. The price oracle
 * (`get_price` of the CoinGecko service), the pool-address lookup, the fee-tier table and
 * the DEX adapter are parameters.
 */
module ExchangeUtils {
  import opened Wrappers
  import opened Text
  import opened PriceMath
  import opened PriceCache
  import Tokens

  /**
   * `calculate_exchange_amount`: the amount at the tokens price when selling the pair's
   * first token, else at the base price. The two ensures only restate the two branches;
   * nothing in this backend calls the function. What the amount means (the amount paid
   * times the quoted rate) is proved where the first-generation exchange uses it, by
   * `LegacyExchange.OptionPriceIsQuotedRate`.
   */
  function CalculateExchangeAmount(tokenFrom: string, tokens: seq<string>, amount: real,
                                   priceBase: real, priceTokens: real): (r: real)
    requires |tokens| >= 1
    ensures tokenFrom == tokens[0] ==> r == amount * priceTokens
    ensures tokenFrom != tokens[0] ==> r == amount * priceBase
  {
    if tokenFrom == tokens[0] then amount * priceTokens else amount * priceBase
  }

  // ---------------------------------------------------------------------------------
  // USD prices through the cache
  // ---------------------------------------------------------------------------------

  /** The cache key of an address's USD price: "coingecko_" and the lower-cased address. */
  function KeyOf(address: string): (k: string)
    ensures IsPriceKey(k)
    ensures k[|"coingecko_"|..] == Lower(address)
  {
    "coingecko_" + Lower(address)
  }

  /** Keys of the USD-price namespace. */
  predicate IsPriceKey(k: string)
  {
    |k| >= |"coingecko_"| && k[..|"coingecko_"|] == "coingecko_"
  }

  /** Two addresses share a price key exactly when they are equal ignoring case. */
  lemma KeyOfIdentifiesAddress(a: string, b: string)
    ensures KeyOf(a) == KeyOf(b) <==> SameIgnoringCase(a, b)
  {
    if KeyOf(a) == KeyOf(b) {
      assert KeyOf(a)[|"coingecko_"|..] == KeyOf(b)[|"coingecko_"|..];
    }
  }

  /** The addresses, in order, whose key the cache does not hold: the ones the oracle is asked for. */
  function Misses(entries: map<string, real>, addresses: seq<string>): (r: seq<string>)
    ensures forall a :: a in r <==> a in addresses && KeyOf(a) !in entries
    ensures |r| <= |addresses|
    decreases |addresses|
  {
    if addresses == [] then []
    else
      var last := addresses[|addresses| - 1];
      var earlier := Misses(entries, addresses[..|addresses| - 1]);
      assert addresses == addresses[..|addresses| - 1] + [last];
      if KeyOf(last) in entries then earlier else earlier + [last]
  }

  /** The prices served by the cache: every address whose key it holds. */
  function CachedPrices(entries: map<string, real>, addresses: seq<string>): map<string, real>
  {
    map a | a in addresses && KeyOf(a) in entries :: entries[KeyOf(a)]
  }

  /** The prices the oracle gives for the misses; an address it has no price for is left out. */
  function OraclePrices(misses: seq<string>, oracle: string -> Option<real>): map<string, real>
  {
    map a | a in misses && oracle(a).Some? :: oracle(a).value
  }

  /**
   * The result of `fetch_token_prices` for a cache holding `entries`: a cache hit is
   * served from the cache, a miss from the oracle, and an address the oracle has no price
   * for is absent.
   */
  function FetchedPrices(entries: map<string, real>, addresses: seq<string>, oracle: string -> Option<real>)
    : (r: map<string, real>)
    ensures forall a :: a in r <==> a in addresses && (KeyOf(a) in entries || oracle(a).Some?)
    ensures forall a :: a in r && KeyOf(a) in entries ==> r[a] == entries[KeyOf(a)]
    ensures forall a :: a in r && KeyOf(a) !in entries ==> r[a] == oracle(a).value
  {
    CachedPrices(entries, addresses) + OraclePrices(Misses(entries, addresses), oracle)
  }

  /** The cache after the misses' prices are stored in order; a None price is not stored. */
  function StoreFetched(entries: map<string, real>, misses: seq<string>, oracle: string -> Option<real>)
    : (r: map<string, real>)
    ensures entries.Keys <= r.Keys
    decreases |misses|
  {
    if misses == [] then entries
    else
      var earlier := StoreFetched(entries, misses[..|misses| - 1], oracle);
      var last := misses[|misses| - 1];
      match oracle(last)
      case None => earlier
      case Some(price) => earlier[KeyOf(last) := price]
  }

  /** A key is in the cache after storing exactly when it was before or a miss with a price has it. */
  lemma {:induction false} StoreFetchedKeys(entries: map<string, real>, misses: seq<string>,
                                           oracle: string -> Option<real>, k: string)
    ensures k in StoreFetched(entries, misses, oracle) <==>
              k in entries || exists b :: b in misses && oracle(b).Some? && KeyOf(b) == k
    decreases |misses|
  {
    if misses != [] {
      var front := misses[..|misses| - 1];
      var last := misses[|misses| - 1];
      assert misses == front + [last];
      StoreFetchedKeys(entries, front, oracle, k);
    }
  }

  /** Storing the oracle's prices touches only keys of the price namespace. */
  lemma {:induction false} StoreFetchedOnlyPriceKeys(entries: map<string, real>, misses: seq<string>,
                                                    oracle: string -> Option<real>, k: string)
    requires !IsPriceKey(k)
    ensures k in StoreFetched(entries, misses, oracle) <==> k in entries
    ensures k in entries ==> StoreFetched(entries, misses, oracle)[k] == entries[k]
    decreases |misses|
  {
    if misses != [] {
      StoreFetchedOnlyPriceKeys(entries, misses[..|misses| - 1], oracle, k);
    }
  }

  /**
   * When no two of the addresses differ only in case, every address that got a price has
   * exactly that price in the cache afterwards.
   */
  lemma {:induction false} StoreFetchedHoldsPrices(entries: map<string, real>, misses: seq<string>,
                                                  oracle: string -> Option<real>, a: string)
    requires forall b :: b in misses && SameIgnoringCase(a, b) ==> a == b
    requires a in misses && oracle(a).Some?
    ensures KeyOf(a) in StoreFetched(entries, misses, oracle)
    ensures StoreFetched(entries, misses, oracle)[KeyOf(a)] == oracle(a).value
    decreases |misses|
  {
    var front := misses[..|misses| - 1];
    var last := misses[|misses| - 1];
    assert misses == front + [last];
    if last == a {
    } else {
      assert a in front;
      StoreFetchedHoldsPrices(entries, front, oracle, a);
      KeyOfIdentifiesAddress(a, last);
    }
  }

  /**
   * A second fetch of the same addresses asks the oracle only for addresses that missed
   * the first time and had no price then.
   */
  lemma RefetchAsksOnlyUnpriced(entries: map<string, real>, addresses: seq<string>,
                                oracle: string -> Option<real>, a: string)
    requires a in Misses(StoreFetched(entries, Misses(entries, addresses), oracle), addresses)
    ensures KeyOf(a) !in entries && oracle(a).None?
  {
    var misses := Misses(entries, addresses);
    StoreFetchedKeys(entries, misses, oracle, KeyOf(a));
  }

  /** Reading one more address adds its cached price, if any. */
  lemma CachedPricesSnoc(entries: map<string, real>, addresses: seq<string>, a: string)
    ensures KeyOf(a) in entries ==>
              CachedPrices(entries, addresses + [a]) == CachedPrices(entries, addresses)[a := entries[KeyOf(a)]]
    ensures KeyOf(a) !in entries ==> CachedPrices(entries, addresses + [a]) == CachedPrices(entries, addresses)
  {
  }

  /** Asking the oracle for one more miss adds its price, if it has one. */
  lemma OraclePricesSnoc(misses: seq<string>, oracle: string -> Option<real>, a: string)
    ensures oracle(a).Some? ==> OraclePrices(misses + [a], oracle) == OraclePrices(misses, oracle)[a := oracle(a).value]
    ensures oracle(a).None? ==> OraclePrices(misses + [a], oracle) == OraclePrices(misses, oracle)
  {
  }

  /** Storing one more miss stores its price, if it has one. */
  lemma StoreFetchedSnoc(entries: map<string, real>, misses: seq<string>, oracle: string -> Option<real>, a: string)
    ensures oracle(a).Some? ==>
              StoreFetched(entries, misses + [a], oracle) == StoreFetched(entries, misses, oracle)[KeyOf(a) := oracle(a).value]
    ensures oracle(a).None? ==> StoreFetched(entries, misses + [a], oracle) == StoreFetched(entries, misses, oracle)
  {
    assert (misses + [a])[..|misses|] == misses;
  }

  /**
   * The first loop of `fetch_token_prices`: every address's key is read from the cache;
   * a hit's price is kept and a miss is listed, in order.
   */
  method ReadCachedPrices(cache: Cache, addresses: seq<string>) returns (hits: map<string, real>, misses: seq<string>)
    ensures hits == CachedPrices(cache.entries, addresses)
    ensures misses == Misses(cache.entries, addresses)
  {
    hits := map[];
    misses := [];
    for i := 0 to |addresses|
      invariant misses == Misses(cache.entries, addresses[..i])
      invariant hits == CachedPrices(cache.entries, addresses[..i])
    {
      var address := addresses[i];
      assert addresses[..i + 1] == addresses[..i] + [address];
      CachedPricesSnoc(cache.entries, addresses[..i], address);
      var cached := cache.GetCachedPrice(KeyOf(address));
      if cached.Some? {
        hits := hits[address := cached.value];
      } else {
        misses := misses + [address];
      }
    }
    assert addresses[..|addresses|] == addresses;
  }

  /**
   * The second loop of `fetch_token_prices`: the oracle is asked for each miss in order,
   * and a price it gives is stored under the address's key and added to `prices`.
   */
  method StoreOraclePrices(cache: Cache, misses: seq<string>, oracle: string -> Option<real>, hits: map<string, real>)
    returns (prices: map<string, real>)
    modifies cache
    ensures cache.entries == StoreFetched(old(cache.entries), misses, oracle)
    ensures prices == hits + OraclePrices(misses, oracle)
  {
    ghost var entries := cache.entries;
    prices := hits;
    for j := 0 to |misses|
      invariant cache.entries == StoreFetched(entries, misses[..j], oracle)
      invariant prices == hits + OraclePrices(misses[..j], oracle)
    {
      var address := misses[j];
      assert misses[..j + 1] == misses[..j] + [address];
      OraclePricesSnoc(misses[..j], oracle, address);
      StoreFetchedSnoc(entries, misses[..j], oracle, address);
      var price := oracle(address);
      if price.Some? {
        UnionUpdate(hits, OraclePrices(misses[..j], oracle), address, price.value);
        cache.SetCachedPrice(KeyOf(address), price.value);
        prices := prices[address := price.value];
      }
    }
    assert misses[..|misses|] == misses;
  }

  /** Updating a union updates its right-hand side. */
  lemma UnionUpdate(m1: map<string, real>, m2: map<string, real>, k: string, v: real)
    ensures (m1 + m2)[k := v] == m1 + m2[k := v]
  {
  }

  /**
   * `fetch_token_prices`: the cached prices, and, when some addresses missed, the oracle's
   * prices for them, which are stored as well. `queried` is the list of addresses the
   * oracle was asked for, in order. The misses' prices are stored in the order of that
   * list; the source iterates over a dictionary built from it, which holds the same
   * addresses with the same prices.
   */
  method FetchTokenPrices(cache: Cache, addresses: seq<string>, oracle: string -> Option<real>)
    returns (prices: map<string, real>, queried: seq<string>)
    modifies cache
    ensures queried == Misses(old(cache.entries), addresses)
    ensures prices == FetchedPrices(old(cache.entries), addresses, oracle)
    ensures cache.entries == StoreFetched(old(cache.entries), queried, oracle)
  {
    var hits;
    hits, queried := ReadCachedPrices(cache, addresses);
    if queried != [] {
      prices := StoreOraclePrices(cache, queried, oracle, hits);
    } else {
      prices := hits;
      assert OraclePrices(queried, oracle) == map[];
    }
  }

  /**
   * The addresses `process_prices` fetches: the pool's tokens and, when the ETH address is
   * known, ETH, each once, in order of first appearance.
   */
  function ToFetch(tokenAddresses: seq<string>, ethAddress: Option<string>): (r: seq<string>)
    ensures forall a :: a in r <==> a in tokenAddresses || (EthKnown(ethAddress) && a == ethAddress.value)
    ensures forall i, j :: 0 <= i < j < |r| ==> r[i] != r[j]
  {
    Dedup(if EthKnown(ethAddress) then tokenAddresses + [ethAddress.value] else tokenAddresses)
  }

  /** The ETH address is truthy: present and non-empty. */
  predicate EthKnown(ethAddress: Option<string>)
  {
    ethAddress.Some? && ethAddress.value != ""
  }

  /** The distinct elements of `xs` in order of first appearance. */
  function Dedup(xs: seq<string>): (r: seq<string>)
    ensures forall x :: x in r <==> x in xs
    ensures forall i, j :: 0 <= i < j < |r| ==> r[i] != r[j]
    decreases |xs|
  {
    if xs == [] then []
    else
      var last := xs[|xs| - 1];
      var earlier := Dedup(xs[..|xs| - 1]);
      assert xs == xs[..|xs| - 1] + [last];
      if last in earlier then earlier else earlier + [last]
  }

  /** The outcome of `process_prices`: the pool tokens' prices, the ETH price, and the new cache. */
  datatype PricesOutcome = PricesOutcome(prices: map<string, real>, ethPrice: real, entries: map<string, real>)

  /**
   * `process_prices` for a cache holding `entries`: the fetched prices restricted to the
   * pool's tokens, and the ETH price, 0 when ETH is unknown or has no price.
   */
  function PricesFor(entries: map<string, real>, tokenAddresses: seq<string>, ethAddress: Option<string>,
                     oracle: string -> Option<real>): (r: PricesOutcome)
    ensures forall a :: a in r.prices <==> a in tokenAddresses && a in FetchedPrices(entries, ToFetch(tokenAddresses, ethAddress), oracle)
    ensures forall a :: a in r.prices ==> r.prices[a] == FetchedPrices(entries, ToFetch(tokenAddresses, ethAddress), oracle)[a]
    ensures EthKnown(ethAddress) && ethAddress.value in FetchedPrices(entries, ToFetch(tokenAddresses, ethAddress), oracle) ==>
              r.ethPrice == FetchedPrices(entries, ToFetch(tokenAddresses, ethAddress), oracle)[ethAddress.value]
    ensures !EthKnown(ethAddress) || ethAddress.value !in FetchedPrices(entries, ToFetch(tokenAddresses, ethAddress), oracle) ==>
              r.ethPrice == 0.0
    ensures r.entries == StoreFetched(entries, Misses(entries, ToFetch(tokenAddresses, ethAddress)), oracle)
  {
    var fetched := ToFetch(tokenAddresses, ethAddress);
    var all := FetchedPrices(entries, fetched, oracle);
    var ethPrice := if EthKnown(ethAddress) && ethAddress.value in all then all[ethAddress.value] else 0.0;
    PricesOutcome(map a | a in tokenAddresses && a in all :: all[a], ethPrice,
                  StoreFetched(entries, Misses(entries, fetched), oracle))
  }

  /** `process_prices`: fetches the pool's tokens and ETH once and splits the ETH price off. */
  method ProcessPrices(cache: Cache, tokenAddresses: seq<string>, ethAddress: Option<string>,
                       oracle: string -> Option<real>) returns (prices: map<string, real>, ethPrice: real)
    modifies cache
    ensures var outcome := PricesFor(old(cache.entries), tokenAddresses, ethAddress, oracle);
            prices == outcome.prices && ethPrice == outcome.ethPrice && cache.entries == outcome.entries
  {
    var all, queried := FetchTokenPrices(cache, ToFetch(tokenAddresses, ethAddress), oracle);
    prices := map a | a in tokenAddresses && a in all :: all[a];
    // a stored price of 0 is falsy and reads as 0 as well
    if EthKnown(ethAddress) && ethAddress.value in all {
      ethPrice := all[ethAddress.value];
    } else {
      ethPrice := 0.0;
    }
  }

  // ---------------------------------------------------------------------------------
  // The walk over a DEX's pools
  // ---------------------------------------------------------------------------------

  /** `TransactionOption`: one priced route through one pool. */
  datatype TransactionOption = TransactionOption(
    dex: string, pool: string, price: real, slippage: real, liquidity: real, dexFee: real,
    gasCost: real, amountFrom: real, amountTo: real, valueFromUsd: real, valueToUsd: real)

  /**
   * The calls the pipeline makes on a DEX adapter, with the argument lists of
   * exchange_utils.py: `get_mid_price(pool, from, to, decimals, addresses)`,
   * `quote_exact_in(pool, from, to, amount, decimals, addresses, pool_fee, pair)`,
   * `get_liquidity(pool, addresses, decimals, prices)` and
   * `get_transaction_cost(pool, from_address, liquidity_usd, eth_price)`. A None stands
   * for the adapter's own None on failure.
   */
  datatype DexAdapter = DexAdapter(
    getMidPrice: (string, string, string, (nat, nat), seq<string>) -> Option<real>,
    quoteExactIn: (string, string, string, real, (nat, nat), seq<string>, Option<int>, string) -> Option<real>,
    getLiquidity: (string, seq<string>, (nat, nat), map<string, real>) -> Option<(real, real)>,
    getTransactionCost: (string, Option<string>, real, real) -> (Option<real>, Option<real>))

  /**
   * What a call of `process_dex_pools` works with besides the cache: the token registry,
   * the adapter, the price oracle, the pool-address lookup (the pool's [token0, token1],
   * or a list of another length when they cannot be worked out) and the fee-tier table
   * `get_pool_fee(dex, pair)`.
   */
  datatype Services = Services(
    tm: Tokens.TokenManager, adapter: DexAdapter, oracle: string -> Option<real>,
    poolAddresses: string -> seq<string>, poolFee: (string, string) -> Option<int>)

  /** The request the pools are walked for: the DEX's name, the two symbols and the amount in. */
  datatype Request = Request(dexName: string, tokenFrom: string, tokenTo: string, amount: real)

  /** One entry of the DEX's pool table: the pair ("USDC/ETH") and the pool's address. */
  datatype PoolEntry = PoolEntry(pair: string, address: string)

  /** A pool is walked only when the symbols of its pair are exactly the two requested. */
  function PairMatches(pair: string, tokenFrom: string, tokenTo: string): (b: bool)
    ensures b ==> tokenFrom in Split(pair, '/') && tokenTo in Split(pair, '/')
    ensures b ==> forall t :: t in Split(pair, '/') ==> t == tokenFrom || t == tokenTo
  {
    var parts := set t | t in Split(pair, '/');
    assert forall t :: t in Split(pair, '/') ==> t in parts;
    parts == {tokenFrom, tokenTo}
  }

  /** The cache key of a pool's mid-price: the lower-cased DEX name, "_", and the pair. */
  function PoolName(dexName: string, pair: string): (k: string)
    ensures k == Lower(dexName) + "_" + pair
    ensures |k| > |pair| && k[|k| - |pair|..] == pair
  {
    Lower(dexName) + "_" + pair
  }

  /**
   * The mid-price step: a cached value is used as it is; otherwise the adapter's
   * mid-price (`midRead`) is stored and used when positive, and the pool is given up (None)
   * when it is missing or not positive.
   */
  function MidLookup(entries: map<string, real>, key: string, midRead: Option<real>)
    : (r: (Option<real>, map<string, real>))
    ensures key in entries ==> r == (Some(entries[key]), entries)
    ensures key !in entries && midRead.Some? && midRead.value > 0.0 ==> r == (midRead, entries[key := midRead.value])
    ensures key !in entries && (midRead.None? || midRead.value <= 0.0) ==> r == (None, entries)
  {
    match Get(entries, key)
    case Some(cached) => (Some(cached), entries)
    case None =>
      if midRead.Some? && midRead.value > 0.0 then (midRead, entries[key := midRead.value])
      else (None, entries)
  }

  /**
   * The key carries no direction: once a pool's mid-price is cached, whatever the adapter
   * would give for this direction or the opposite one, the cached value is used.
   */
  lemma CachedMidIgnoresDirection(entries: map<string, real>, dexName: string, pair: string,
                                  read1: Option<real>, read2: Option<real>)
    requires PoolName(dexName, pair) in entries
    ensures MidLookup(entries, PoolName(dexName, pair), read1) == MidLookup(entries, PoolName(dexName, pair), read2)
    ensures MidLookup(entries, PoolName(dexName, pair), read1).0 == Some(entries[PoolName(dexName, pair)])
  {
  }

  /** `prices.get(address, fallback)` with an address that may itself be None. */
  function PriceOr(prices: map<string, real>, address: Option<string>, fallback: real): (r: real)
    ensures address.Some? && address.value in prices ==> r == prices[address.value]
    ensures address.None? || address.value !in prices ==> r == fallback
  {
    if address.Some? && address.value in prices then prices[address.value] else fallback
  }

  /**
   * Steps 2 to 7 for a pool whose mid-price `mid` is known to be positive: the quote
   * (given up when missing or 0), the slippage, the balances (given up when missing), the
   * USD liquidity (given up when either token's price is missing or 0), the costs (given
   * up when either is missing) and the USD values, an unknown price counting as 1.
   */
  function PoolOption(req: Request, svc: Services, pool: PoolEntry, tokenAddresses: seq<string>,
                      decimals: (nat, nat), prices: map<string, real>, ethPrice: real, mid: real)
    : (r: Option<TransactionOption>)
    requires |tokenAddresses| == 2
    ensures r.Some? <==>
              QuoteOf(req, svc, pool, tokenAddresses, decimals).Some? &&
              QuoteOf(req, svc, pool, tokenAddresses, decimals).value != 0.0 &&
              BalancesOf(svc, pool, tokenAddresses, decimals, prices).Some? &&
              tokenAddresses[0] in prices && prices[tokenAddresses[0]] != 0.0 &&
              tokenAddresses[1] in prices && prices[tokenAddresses[1]] != 0.0 &&
              CostsKnown(CostsOf(req, svc, pool, LiquidityUsd(BalancesOf(svc, pool, tokenAddresses, decimals, prices).value,
                                                              prices[tokenAddresses[0]], prices[tokenAddresses[1]]), ethPrice))
    ensures r.Some? ==>
              var amountOut := QuoteOf(req, svc, pool, tokenAddresses, decimals).value;
              var liquidityUsd := LiquidityUsd(BalancesOf(svc, pool, tokenAddresses, decimals, prices).value,
                                               prices[tokenAddresses[0]], prices[tokenAddresses[1]]);
              var costs := CostsOf(req, svc, pool, liquidityUsd, ethPrice);
              r.value == TransactionOption(
                req.dexName, pool.pair, mid, SlippageFromMidAndActual(req.amount, mid, amountOut),
                liquidityUsd, costs.0.value, costs.1.value, req.amount, amountOut,
                req.amount * PriceOr(prices, Tokens.GetAddressBySymbol(svc.tm, req.tokenFrom), 1.0),
                amountOut * PriceOr(prices, Tokens.GetAddressBySymbol(svc.tm, req.tokenTo), 1.0))
  {
    var quote := QuoteOf(req, svc, pool, tokenAddresses, decimals);
    var balances := BalancesOf(svc, pool, tokenAddresses, decimals, prices);
    var p0 := PriceOr(prices, Some(tokenAddresses[0]), 0.0);
    var p1 := PriceOr(prices, Some(tokenAddresses[1]), 0.0);
    if quote.None? || quote.value == 0.0 then None
    else if balances.None? then None
    else if p0 == 0.0 || p1 == 0.0 then None
    else
      var liquidityUsd := LiquidityUsd(balances.value, p0, p1);
      var costs := CostsOf(req, svc, pool, liquidityUsd, ethPrice);
      if !CostsKnown(costs) then None
      else
        Some(TransactionOption(
          req.dexName, pool.pair, mid, SlippageFromMidAndActual(req.amount, mid, quote.value),
          liquidityUsd, costs.0.value, costs.1.value, req.amount, quote.value,
          req.amount * PriceOr(prices, Tokens.GetAddressBySymbol(svc.tm, req.tokenFrom), 1.0),
          quote.value * PriceOr(prices, Tokens.GetAddressBySymbol(svc.tm, req.tokenTo), 1.0)))
  }

  /** The adapter's quote for the pool, with the fee tier of the pool table. */
  function QuoteOf(req: Request, svc: Services, pool: PoolEntry, tokenAddresses: seq<string>, decimals: (nat, nat))
    : Option<real>
  {
    svc.adapter.quoteExactIn(pool.address, req.tokenFrom, req.tokenTo, req.amount, decimals,
                             tokenAddresses, svc.poolFee(req.dexName, pool.pair), pool.pair)
  }

  /** The adapter's balances of the pool's two tokens, in whole tokens. */
  function BalancesOf(svc: Services, pool: PoolEntry, tokenAddresses: seq<string>, decimals: (nat, nat),
                      prices: map<string, real>): Option<(real, real)>
  {
    svc.adapter.getLiquidity(pool.address, tokenAddresses, decimals, prices)
  }

  /** The pool's USD liquidity: each balance at its token's price. */
  function LiquidityUsd(balances: (real, real), price0: real, price1: real): (r: real)
    ensures balances.0 >= 0.0 && balances.1 >= 0.0 && price0 > 0.0 && price1 > 0.0 ==> r >= 0.0
  {
    balances.0 * price0 + balances.1 * price1
  }

  /** The adapter's (fee, gas) for a swap out of the requested token. */
  function CostsOf(req: Request, svc: Services, pool: PoolEntry, liquidityUsd: real, ethPrice: real)
    : (Option<real>, Option<real>)
  {
    svc.adapter.getTransactionCost(pool.address, Tokens.GetAddressBySymbol(svc.tm, req.tokenFrom), liquidityUsd, ethPrice)
  }

  /** Both costs are known. */
  predicate CostsKnown(costs: (Option<real>, Option<real>))
  {
    costs.0.Some? && costs.1.Some?
  }

  /** The address of "ETH" in the registry, looked up once per call. */
  function EthAddress(tm: Tokens.TokenManager): Option<string>
  {
    Tokens.GetAddressBySymbol(tm, "ETH")
  }

  /**
   * One iteration of the loop of `process_dex_pools` for a cache holding `entries`: the
   * option the pool yields, if any, and the cache afterwards.
   */
  function PoolStep(entries: map<string, real>, req: Request, svc: Services, pool: PoolEntry)
    : (r: (Option<TransactionOption>, map<string, real>))
    ensures !PairMatches(pool.pair, req.tokenFrom, req.tokenTo) ==> r == (None, entries)
    ensures r.0.Some? ==> PairMatches(pool.pair, req.tokenFrom, req.tokenTo) && |svc.poolAddresses(pool.pair)| == 2
  {
    if !PairMatches(pool.pair, req.tokenFrom, req.tokenTo) then (None, entries)
    else
      var tokenAddresses := svc.poolAddresses(pool.pair);
      if |tokenAddresses| != 2 then (None, entries)
      else
        var decimals := Tokens.GetDecimalsForPool(svc.tm, tokenAddresses[0], tokenAddresses[1]);
        var fetched := PricesFor(entries, tokenAddresses, EthAddress(svc.tm), svc.oracle);
        var mid := MidLookup(fetched.entries, PoolName(req.dexName, pool.pair),
                             svc.adapter.getMidPrice(pool.address, req.tokenFrom, req.tokenTo, decimals, tokenAddresses));
        if mid.0.None? || mid.0.value <= 0.0 then (None, mid.1)
        else (PoolOption(req, svc, pool, tokenAddresses, decimals, fetched.prices, fetched.ethPrice, mid.0.value), mid.1)
  }

  /** An optional option as a list of zero or one. */
  function AsList(o: Option<TransactionOption>): (r: seq<TransactionOption>)
    ensures o.None? ==> r == []
    ensures o.Some? ==> r == [o.value]
  {
    if o.Some? then [o.value] else []
  }

  /** One iteration of a loop over pools: from the cache before it, the option and the cache after it. */
  type Step = (map<string, real>, PoolEntry) -> (Option<TransactionOption>, map<string, real>)

  /** A loop over pools: the options in pool order and the final cache. */
  function Walk(step: Step, entries: map<string, real>, pools: seq<PoolEntry>)
    : (r: (seq<TransactionOption>, map<string, real>))
    ensures |r.0| <= |pools|
    decreases |pools|
  {
    if pools == [] then ([], entries)
    else
      var earlier := Walk(step, entries, pools[..|pools| - 1]);
      var outcome := step(earlier.1, pools[|pools| - 1]);
      (earlier.0 + AsList(outcome.0), outcome.1)
  }

  /** The positions of the pools that yielded the options of `Walk`, in order. */
  function Origins(step: Step, entries: map<string, real>, pools: seq<PoolEntry>): seq<nat>
    decreases |pools|
  {
    if pools == [] then []
    else
      var earlier := Walk(step, entries, pools[..|pools| - 1]);
      var outcome := step(earlier.1, pools[|pools| - 1]);
      Origins(step, entries, pools[..|pools| - 1]) + (if outcome.0.Some? then [|pools| - 1] else [])
  }

  /** The walk over one more pool is the walk so far followed by that pool's step. */
  lemma WalkSnoc(step: Step, entries: map<string, real>, pools: seq<PoolEntry>, i: nat)
    requires i < |pools|
    ensures var earlier := Walk(step, entries, pools[..i]);
            var outcome := step(earlier.1, pools[i]);
            Walk(step, entries, pools[..i + 1]) == (earlier.0 + AsList(outcome.0), outcome.1)
  {
    assert pools[..i + 1][..i] == pools[..i];
  }

  /**
   * When every option a step yields is for the pool it was given, the walk's options
   * come from the pools in pool order, at most one per pool.
   */
  lemma {:induction false} WalkFollowsPoolOrder(step: Step, entries: map<string, real>, pools: seq<PoolEntry>)
    requires forall e, p :: step(e, p).0.Some? ==> step(e, p).0.value.pool == p.pair
    ensures var r := Walk(step, entries, pools).0;
            var origins := Origins(step, entries, pools);
            |origins| == |r| &&
            (forall k :: 0 <= k < |origins| ==> origins[k] < |pools| && r[k].pool == pools[origins[k]].pair) &&
            (forall a, b :: 0 <= a < b < |origins| ==> origins[a] < origins[b])
    decreases |pools|
  {
    if pools != [] {
      var n := |pools|;
      var front := pools[..n - 1];
      WalkFollowsPoolOrder(step, entries, front);
      var earlier := Walk(step, entries, front);
      var outcome := step(earlier.1, pools[n - 1]);
      var before := Origins(step, entries, front);
      var r := Walk(step, entries, pools).0;
      var origins := Origins(step, entries, pools);
      assert r == earlier.0 + AsList(outcome.0);
      assert origins == before + (if outcome.0.Some? then [n - 1] else []);
      forall k | 0 <= k < |before|
        ensures origins[k] < n && r[k].pool == pools[origins[k]].pair
      {
        assert origins[k] == before[k] && r[k] == earlier.0[k];
        assert pools[before[k]] == front[before[k]];
      }
      if outcome.0.Some? {
        assert r[|before|] == outcome.0.value && origins[|before|] == n - 1;
      }
    }
  }

  /** Every option of a walk is the option of one of its steps. */
  lemma {:induction false} WalkOptionsFromSteps(step: Step, entries: map<string, real>, pools: seq<PoolEntry>,
                                               o: TransactionOption)
    requires o in Walk(step, entries, pools).0
    ensures exists e, k :: 0 <= k < |pools| && step(e, pools[k]).0 == Some(o)
    decreases |pools|
  {
    var front := pools[..|pools| - 1];
    var earlier := Walk(step, entries, front);
    var outcome := step(earlier.1, pools[|pools| - 1]);
    if o in earlier.0 {
      WalkOptionsFromSteps(step, entries, front, o);
      var e, k :| 0 <= k < |front| && step(e, front[k]).0 == Some(o);
      assert pools[k] == front[k];
    } else {
      assert step(earlier.1, pools[|pools| - 1]).0 == Some(o);
    }
  }

  /** The step of `process_dex_pools` for one request. */
  function StepOf(req: Request, svc: Services): (step: Step)
    ensures forall entries: map<string, real>, pool: PoolEntry :: !PairMatches(pool.pair, req.tokenFrom, req.tokenTo) ==>
              step(entries, pool) == (None, entries)
  {
    (entries, pool) => PoolStep(entries, req, svc, pool)
  }

  /** `process_dex_pools` for a cache holding `entries`: the options in pool order and the final cache. */
  function Run(entries: map<string, real>, req: Request, svc: Services, pools: seq<PoolEntry>)
    : (r: (seq<TransactionOption>, map<string, real>))
    ensures |r.0| <= |pools|
  {
    Walk(StepOf(req, svc), entries, pools)
  }

  /** The option of one pool: a matching pair, a positive mid-price, a non-zero quote and the slippage of the two. */
  lemma StepOptionValid(entries: map<string, real>, req: Request, svc: Services, pool: PoolEntry)
    requires PoolStep(entries, req, svc, pool).0.Some?
    ensures var o := PoolStep(entries, req, svc, pool).0.value;
            PairMatches(pool.pair, req.tokenFrom, req.tokenTo) && o.pool == pool.pair &&
            o.dex == req.dexName && o.amountFrom == req.amount &&
            o.price > 0.0 && o.amountTo != 0.0 &&
            o.slippage == SlippageFromMidAndActual(o.amountFrom, o.price, o.amountTo)
  {
  }

  /**
   * The options of `process_dex_pools` come from the pools in pool order, at most one per
   * pool: `Origins` gives the pool of each option.
   */
  lemma RunFollowsPoolOrder(entries: map<string, real>, req: Request, svc: Services, pools: seq<PoolEntry>)
    ensures var r := Run(entries, req, svc, pools).0;
            var origins := Origins(StepOf(req, svc), entries, pools);
            |origins| == |r| &&
            (forall k :: 0 <= k < |origins| ==> origins[k] < |pools| && r[k].pool == pools[origins[k]].pair) &&
            (forall a, b :: 0 <= a < b < |origins| ==> origins[a] < origins[b])
  {
    var step := StepOf(req, svc);
    forall e, p | step(e, p).0.Some?
      ensures step(e, p).0.value.pool == p.pair
    {
      StepOptionValid(e, req, svc, p);
    }
    WalkFollowsPoolOrder(step, entries, pools);
  }

  /**
   * Every option of `process_dex_pools` is for a matching pool of the requested DEX and
   * amount, with a positive mid-price, a non-zero quote, and the slippage of the two.
   */
  lemma RunOptionsValid(entries: map<string, real>, req: Request, svc: Services, pools: seq<PoolEntry>)
    ensures forall o :: o in Run(entries, req, svc, pools).0 ==>
              PairMatches(o.pool, req.tokenFrom, req.tokenTo) &&
              o.dex == req.dexName && o.amountFrom == req.amount &&
              o.price > 0.0 && o.amountTo != 0.0 &&
              o.slippage == SlippageFromMidAndActual(o.amountFrom, o.price, o.amountTo)
  {
    var step := StepOf(req, svc);
    forall o | o in Run(entries, req, svc, pools).0
      ensures PairMatches(o.pool, req.tokenFrom, req.tokenTo) &&
              o.dex == req.dexName && o.amountFrom == req.amount &&
              o.price > 0.0 && o.amountTo != 0.0 &&
              o.slippage == SlippageFromMidAndActual(o.amountFrom, o.price, o.amountTo)
    {
      WalkOptionsFromSteps(step, entries, pools, o);
      var e, k :| 0 <= k < |pools| && step(e, pools[k]).0 == Some(o);
      StepOptionValid(e, req, svc, pools[k]);
    }
  }

  /**
   * A pool's mid-price key is written only with a positive value: if it was absent
   * before a pool's step, it is absent or positive after it. This needs the key to lie
   * outside the USD-price namespace, which holds for every DEX name not starting with
   * "coingecko".
   */
  lemma MidCachedOnlyWhenPositive(entries: map<string, real>, req: Request, svc: Services, pool: PoolEntry)
    requires !IsPriceKey(PoolName(req.dexName, pool.pair))
    requires PoolName(req.dexName, pool.pair) !in entries
    ensures var after := PoolStep(entries, req, svc, pool).1;
            PoolName(req.dexName, pool.pair) in after ==> after[PoolName(req.dexName, pool.pair)] > 0.0
  {
    var key := PoolName(req.dexName, pool.pair);
    if PairMatches(pool.pair, req.tokenFrom, req.tokenTo) {
      var tokenAddresses := svc.poolAddresses(pool.pair);
      if |tokenAddresses| == 2 {
        var fetched := ToFetch(tokenAddresses, EthAddress(svc.tm));
        StoreFetchedOnlyPriceKeys(entries, Misses(entries, fetched), svc.oracle, key);
      }
    }
  }

  /**
   * A pool that does not match the request, or whose token addresses cannot be worked out,
   * yields nothing and leaves the cache alone; in particular no price is fetched for it.
   */
  lemma SkippedPoolLeavesCache(entries: map<string, real>, req: Request, svc: Services, pool: PoolEntry)
    requires !PairMatches(pool.pair, req.tokenFrom, req.tokenTo) || |svc.poolAddresses(pool.pair)| != 2
    ensures PoolStep(entries, req, svc, pool) == (None, entries)
  {
  }

  /**
   * One iteration of `process_dex_pools`: the checks, the price fetch, the mid-price
   * through the cache and the rest; a `continue` of the source is a return of None here.
   */
  method ProcessPool(cache: Cache, req: Request, svc: Services, pool: PoolEntry) returns (option: Option<TransactionOption>)
    modifies cache
    ensures (option, cache.entries) == PoolStep(old(cache.entries), req, svc, pool)
  {
    if !PairMatches(pool.pair, req.tokenFrom, req.tokenTo) {
      return None;
    }
    var tokenAddresses := svc.poolAddresses(pool.pair);
    if |tokenAddresses| != 2 {
      return None;
    }
    var decimals := Tokens.GetDecimalsForPool(svc.tm, tokenAddresses[0], tokenAddresses[1]);
    var prices, ethPrice := ProcessPrices(cache, tokenAddresses, EthAddress(svc.tm), svc.oracle);
    var poolName := PoolName(req.dexName, pool.pair);
    ghost var lookup := MidLookup(cache.entries, poolName,
                                  svc.adapter.getMidPrice(pool.address, req.tokenFrom, req.tokenTo, decimals, tokenAddresses));
    var mid: real;
    var cachedMid := cache.GetCachedPrice(poolName);
    if cachedMid.None? {
      var midRead := svc.adapter.getMidPrice(pool.address, req.tokenFrom, req.tokenTo, decimals, tokenAddresses);
      if midRead.Some? && midRead.value > 0.0 {
        cache.SetCachedPrice(poolName, midRead.value);
        mid := midRead.value;
      } else {
        assert lookup == (None, cache.entries);
        return None;
      }
    } else {
      mid := cachedMid.value;
    }
    assert lookup == (Some(mid), cache.entries);
    if mid <= 0.0 {
      return None;
    }
    option := PoolOption(req, svc, pool, tokenAddresses, decimals, prices, ethPrice, mid);
  }

  /** `process_dex_pools`: every pool in table order, collecting the options. */
  method ProcessDexPools(cache: Cache, req: Request, svc: Services, pools: seq<PoolEntry>)
    returns (results: seq<TransactionOption>)
    modifies cache
    ensures (results, cache.entries) == Run(old(cache.entries), req, svc, pools)
  {
    ghost var step := StepOf(req, svc);
    ghost var entries := cache.entries;
    results := [];
    for i := 0 to |pools|
      invariant (results, cache.entries) == Walk(step, entries, pools[..i])
    {
      WalkSnoc(step, entries, pools, i);
      ghost var earlier := Walk(step, entries, pools[..i]);
      ghost var outcome := PoolStep(earlier.1, req, svc, pools[i]);
      assert step(earlier.1, pools[i]) == outcome;
      var option := ProcessPool(cache, req, svc, pools[i]);
      assert option == outcome.0 && cache.entries == outcome.1;
      results := results + AsList(option);
    }
    assert pools[..|pools|] == pools;
  }
}

=== FILE: history_storage.dfy ===
/**
 * The frontend's swap history (aggregator-frontend/src/utils/historyStorage.js): a list of
 * completed swaps kept as JSON under one browser-storage key, newest first and at most 100
 * long, with a reader that forgives a missing or unreadable entry and a filter on the
 * tokens and the DEX.
 *
 * The storage slot is a field of the `HistoryStorage` object; JSON encoding is left out, so
 * the slot holds either nothing, the list of items, or text that does not parse. The clock
 * (`Date.now()`, read twice when an item is built) and a failing storage write are
 * parameters.
 */
module HistoryStorage {
  import opened Wrappers
  import opened Text

  /** `MAX_HISTORY_ITEMS` */
  const MaxHistoryItems: nat := 100

  /** What the caller hands to `saveSwapToHistory`. */
  datatype SwapData = SwapData(txHash: string, tokenFrom: string, tokenTo: string, amountFrom: real,
                               amountTo: real, valueUsd: real, dex: string, fee: real, gasUsed: real,
                               percentageChange: real)

  /** A stored history item. */
  datatype HistoryItem = HistoryItem(id: string, timestamp: nat, txHash: string, tokenFrom: string,
                                     tokenTo: string, amountFrom: real, amountTo: real, valueUsd: real,
                                     dex: string, fee: real, gasUsed: real, percentageChange: real,
                                     status: string)

  /** The storage slot under `aggapp_swap_history`. */
  datatype Slot = Absent | Stored(items: seq<HistoryItem>) | Unparsable

  /** The id of an item: the transaction hash, "_", and the time in milliseconds. */
  function ItemId(txHash: string, now: nat): (id: string)
    ensures |id| > |txHash| && id[..|txHash|] == txHash && id[|txHash|] == '_'
  {
    txHash + "_" + NatToString(now)
  }

  /** An id splits back into the hash and the time it was made from, for a hash without "_". */
  lemma ItemIdRecoversHashAndTime(txHash: string, now: nat)
    requires '_' !in txHash
    ensures Split(ItemId(txHash, now), '_') == [txHash, NatToString(now)]
    ensures DigitsValue(Split(ItemId(txHash, now), '_')[1]) == now
  {
    var digits := NatToString(now);
    assert '_' !in digits;
    assert Join([txHash, digits], '_') == ItemId(txHash, now);
    SplitJoin([txHash, digits], '_');
    NatToStringRoundTrip(now);
  }

  /** The item `saveSwapToHistory` builds: the caller's data, the id and time, status "success". */
  function NewItem(data: SwapData, nowForId: nat, nowForTimestamp: nat): (item: HistoryItem)
    ensures item.id == ItemId(data.txHash, nowForId) && item.timestamp == nowForTimestamp
    ensures item.status == "success"
    ensures item.txHash == data.txHash && item.tokenFrom == data.tokenFrom && item.tokenTo == data.tokenTo
    ensures item.amountFrom == data.amountFrom && item.amountTo == data.amountTo && item.valueUsd == data.valueUsd
    ensures item.dex == data.dex && item.fee == data.fee && item.gasUsed == data.gasUsed
    ensures item.percentageChange == data.percentageChange
  {
    HistoryItem(ItemId(data.txHash, nowForId), nowForTimestamp, data.txHash, data.tokenFrom, data.tokenTo,
                data.amountFrom, data.amountTo, data.valueUsd, data.dex, data.fee, data.gasUsed,
                data.percentageChange, "success")
  }

  /** `history.slice(0, MAX_HISTORY_ITEMS)` */
  function Trim(history: seq<HistoryItem>): (r: seq<HistoryItem>)
    ensures |r| <= MaxHistoryItems && |r| <= |history|
    ensures r == history[..|r|]
    ensures |history| <= MaxHistoryItems ==> r == history
    ensures |history| > MaxHistoryItems ==> |r| == MaxHistoryItems
  {
    if |history| <= MaxHistoryItems then history else history[..MaxHistoryItems]
  }

  /**
   * The list a successful save stores: the new item first, then the earlier items in their
   * order, the oldest dropped beyond 100.
   */
  function Saved(history: seq<HistoryItem>, item: HistoryItem): (r: seq<HistoryItem>)
    ensures |r| >= 1 && r[0] == item
    ensures |r| == if |history| + 1 <= MaxHistoryItems then |history| + 1 else MaxHistoryItems
    ensures r[1..] == history[..|r| - 1]
  {
    Trim([item] + history)
  }

  /** The history after saving `items` one after the other. */
  function SaveAll(history: seq<HistoryItem>, items: seq<HistoryItem>): seq<HistoryItem>
  {
    if items == [] then history else Saved(SaveAll(history, items[..|items| - 1]), items[|items| - 1])
  }

  /** The items in the opposite order. */
  function Reverse(items: seq<HistoryItem>): (r: seq<HistoryItem>)
    ensures |r| == |items|
    ensures forall i :: 0 <= i < |items| ==> r[i] == items[|items| - 1 - i]
  {
    if items == [] then [] else [items[|items| - 1]] + Reverse(items[..|items| - 1])
  }

  /** Trimming a tail before putting an item in front changes nothing once the front is trimmed. */
  lemma TrimAfterCons(item: HistoryItem, xs: seq<HistoryItem>)
    ensures Trim([item] + Trim(xs)) == Trim([item] + xs)
  {
    if |xs| > MaxHistoryItems {
      assert ([item] + Trim(xs))[..MaxHistoryItems] == ([item] + xs)[..MaxHistoryItems];
    }
  }

  /**
   * Saving items one by one keeps the newest first: the result is the saved items newest
   * first, then the earlier history, cut to the 100 newest.
   */
  lemma {:induction false} SaveAllNewestFirst(history: seq<HistoryItem>, items: seq<HistoryItem>)
    requires |history| <= MaxHistoryItems
    ensures SaveAll(history, items) == Trim(Reverse(items) + history)
  {
    if items != [] {
      var init := items[..|items| - 1];
      var last := items[|items| - 1];
      SaveAllNewestFirst(history, init);
      TrimAfterCons(last, Reverse(init) + history);
      assert Reverse(items) == [last] + Reverse(init);
      assert [last] + (Reverse(init) + history) == Reverse(items) + history;
    } else {
      assert Reverse(items) + history == history;
    }
  }

  /** The three filters of `getFilteredHistory`; a missing or empty one is not applied. */
  datatype Filters = Filters(tokenFrom: Option<string>, tokenTo: Option<string>, dex: Option<string>)

  /** JavaScript truthiness of an optional string: present and not empty. */
  predicate Truthy(f: Option<string>)
  {
    f.Some? && f.value != ""
  }

  /** The fields a filter compares. */
  datatype Field = TokenFrom | TokenTo | Dex

  function FieldOf(item: HistoryItem, field: Field): string
  {
    match field
    case TokenFrom => item.tokenFrom
    case TokenTo => item.tokenTo
    case Dex => item.dex
  }

  /** `filter(item => item.<field> === value)` */
  function Keep(items: seq<HistoryItem>, field: Field, value: string): (r: seq<HistoryItem>)
    ensures |r| <= |items|
    ensures forall x :: x in r <==> x in items && FieldOf(x, field) == value
  {
    if items == [] then []
    else (if FieldOf(items[0], field) == value then [items[0]] else []) + Keep(items[1..], field, value)
  }

  /** An item satisfies every truthy filter. */
  function Passes(item: HistoryItem, filters: Filters): (b: bool)
    ensures !Truthy(filters.tokenFrom) && !Truthy(filters.tokenTo) && !Truthy(filters.dex) ==> b
    ensures b <==> StagePasses(item, filters.tokenFrom, TokenFrom) && StagePasses(item, filters.tokenTo, TokenTo) &&
                   StagePasses(item, filters.dex, Dex)
  {
    (Truthy(filters.tokenFrom) ==> item.tokenFrom == filters.tokenFrom.value) &&
    (Truthy(filters.tokenTo) ==> item.tokenTo == filters.tokenTo.value) &&
    (Truthy(filters.dex) ==> item.dex == filters.dex.value)
  }

  /** The items that pass every truthy filter, in their order, in one pass. */
  function Select(items: seq<HistoryItem>, filters: Filters): (r: seq<HistoryItem>)
    ensures |r| <= |items|
    ensures forall x :: x in r <==> x in items && Passes(x, filters)
  {
    if items == [] then []
    else (if Passes(items[0], filters) then [items[0]] else []) + Select(items[1..], filters)
  }

  /** One step of `getFilteredHistory`: the filter on `field` when it is truthy, else nothing. */
  function Stage(items: seq<HistoryItem>, filter: Option<string>, field: Field): (r: seq<HistoryItem>)
    ensures !Truthy(filter) ==> r == items
    ensures forall x :: x in r <==> x in items && StagePasses(x, filter, field)
  {
    if Truthy(filter) then Keep(items, field, filter.value) else items
  }

  /** Whether an item survives one step. */
  predicate StagePasses(item: HistoryItem, filter: Option<string>, field: Field)
  {
    Truthy(filter) ==> FieldOf(item, field) == filter.value
  }

  /** The chain of filters as `getFilteredHistory` applies them. */
  function ApplyFilters(history: seq<HistoryItem>, filters: Filters): (r: seq<HistoryItem>)
    ensures forall x :: x in r <==> x in history && Passes(x, filters)
  {
    Stage(Stage(Stage(history, filters.tokenFrom, TokenFrom), filters.tokenTo, TokenTo), filters.dex, Dex)
  }

  /** One step over an item put in front of a list. */
  lemma StageCons(x: HistoryItem, t: seq<HistoryItem>, filter: Option<string>, field: Field)
    ensures Stage([x] + t, filter, field) == (if StagePasses(x, filter, field) then [x] else []) + Stage(t, filter, field)
  {
    assert ([x] + t)[1..] == t;
  }

  /** The chain of filters over an item put in front of a list. */
  lemma ApplyFiltersCons(x: HistoryItem, t: seq<HistoryItem>, filters: Filters)
    ensures ApplyFilters([x] + t, filters) == (if Passes(x, filters) then [x] else []) + ApplyFilters(t, filters)
  {
    var afterFrom := Stage(t, filters.tokenFrom, TokenFrom);
    var afterTo := Stage(afterFrom, filters.tokenTo, TokenTo);
    assert Passes(x, filters) <==> (StagePasses(x, filters.tokenFrom, TokenFrom) &&
                                    StagePasses(x, filters.tokenTo, TokenTo) && StagePasses(x, filters.dex, Dex));
    StageCons(x, t, filters.tokenFrom, TokenFrom);
    if StagePasses(x, filters.tokenFrom, TokenFrom) {
      StageCons(x, afterFrom, filters.tokenTo, TokenTo);
      if StagePasses(x, filters.tokenTo, TokenTo) {
        StageCons(x, afterTo, filters.dex, Dex);
      } else {
        assert Stage(Stage([x] + t, filters.tokenFrom, TokenFrom), filters.tokenTo, TokenTo) == afterTo;
      }
    } else {
      assert Stage([x] + t, filters.tokenFrom, TokenFrom) == afterFrom;
    }
  }

  /** Filtering field by field is the one-pass conjunctive selection: same items, same order. */
  lemma {:induction false} FiltersAreConjunctive(history: seq<HistoryItem>, filters: Filters)
    ensures ApplyFilters(history, filters) == Select(history, filters)
  {
    if history != [] {
      assert history == [history[0]] + history[1..];
      ApplyFiltersCons(history[0], history[1..], filters);
      FiltersAreConjunctive(history[1..], filters);
    }
  }

  /** With no truthy filter the whole history is returned. */
  lemma NoFiltersKeepAll(history: seq<HistoryItem>, filters: Filters)
    requires !Truthy(filters.tokenFrom) && !Truthy(filters.tokenTo) && !Truthy(filters.dex)
    ensures ApplyFilters(history, filters) == history
  {
  }

  /**
   * Selection keeps the order: the items selected from an earlier part of the history come
   * before those selected from a later part.
   */
  lemma {:induction false} SelectAppend(earlier: seq<HistoryItem>, later: seq<HistoryItem>, filters: Filters)
    ensures Select(earlier + later, filters) == Select(earlier, filters) + Select(later, filters)
  {
    if earlier != [] {
      assert (earlier + later)[0] == earlier[0];
      assert (earlier + later)[1..] == earlier[1..] + later;
      var head := if Passes(earlier[0], filters) then [earlier[0]] else [];
      assert Select(earlier + later, filters) == head + Select(earlier[1..] + later, filters);
      assert Select(earlier, filters) == head + Select(earlier[1..], filters);
      SelectAppend(earlier[1..], later, filters);
    } else {
      assert earlier + later == later;
    }
  }

  class HistoryStorage {
    /** The value stored under `aggapp_swap_history`. */
    var slot: Slot

    /** Storage with nothing saved yet. */
    constructor ()
      ensures slot == Absent
    {
      slot := Absent;
    }

    /** `getSwapHistory`: the stored list, and [] when nothing is stored or it does not parse. */
    function GetSwapHistory(): (history: seq<HistoryItem>)
      reads this
      ensures slot.Stored? ==> history == slot.items
      ensures !slot.Stored? ==> history == []
    {
      if slot.Stored? then slot.items else []
    }

    /**
     * `saveSwapToHistory`: the new item in front of the history read back, cut to 100 and
     * written; true when the write succeeds, false (and nothing changed) when it throws.
     */
    method SaveSwapToHistory(data: SwapData, nowForId: nat, nowForTimestamp: nat, writeFails: bool)
      returns (ok: bool)
      modifies this
      ensures ok == !writeFails
      ensures ok ==> slot == Stored(Saved(old(GetSwapHistory()), NewItem(data, nowForId, nowForTimestamp)))
      ensures !ok ==> slot == old(slot)
    {
      var history := GetSwapHistory();
      var newItem := NewItem(data, nowForId, nowForTimestamp);
      history := [newItem] + history;
      var trimmed := Trim(history);
      if writeFails {
        return false;
      }
      slot := Stored(trimmed);
      return true;
    }

    /** `clearSwapHistory`: the key removed; true, or false (nothing changed) when removal throws. */
    method ClearSwapHistory(removeFails: bool) returns (ok: bool)
      modifies this
      ensures ok == !removeFails
      ensures ok ==> slot == Absent
      ensures !ok ==> slot == old(slot)
    {
      if removeFails {
        return false;
      }
      slot := Absent;
      return true;
    }

    /** `getFilteredHistory`: the history read back, through the truthy filters. */
    function GetFilteredHistory(filters: Filters): (r: seq<HistoryItem>)
      reads this
      ensures r == Select(GetSwapHistory(), filters)
      ensures forall x :: x in r <==> x in GetSwapHistory() && Passes(x, filters)
    {
      FiltersAreConjunctive(GetSwapHistory(), filters);
      ApplyFilters(GetSwapHistory(), filters)
    }
  }
}

=== FILE: legacy_exchange.dfy ===
/**
 * The first generation's exchange path: exchange_utils.py and the `/exchange` endpoint of
 * routes.py at the repository root. Every pool whose pair is the requested one has its
 * price read through the Redis cache (computed from the chain and cached on a miss), the
 * amount received computed from it and the USD values added; the endpoint sorts these
 * quotes by amount, largest first, and answers with the best one and the rest.
 *
 * The cache is the `PriceCache.Cache` object, which the methods update in place; each
 * method is proved against a specification function of the cache contents before the
 * call. A DEX's price computation (`get_uniswap_price`, `get_camelot_price` or an
 * adapter's `get_pair_price`) is a parameter whose failure is None, and so is the
 * CoinGecko price lookup.
 */
module LegacyExchange {
  import opened Wrappers
  import opened Text
  import opened Sorting
  import opened PriceCache
  import opened PriceFeeds
  import ExchangeUtils
  import LegacyPrice

  /** The Python exceptions the first-generation `calculate_exchange_amount` can raise. */
  datatype Fault = NameError | IndexError

  /**
   * `calculate_exchange_amount` of exchange_utils.py as written: the first branch reads
   * `price_token`, a name that does not exist (the parameter is `price_tokens`), so selling
   * the pair's first token raises NameError; an empty token list raises IndexError.
   */
  function CalculateExchangeAmountAsWritten(tokenFrom: string, tokens: seq<string>, amount: real,
                                            priceBase: real, priceTokens: real): (r: Result<real, Fault>)
    ensures tokens == [] ==> r == Err(IndexError)
    ensures tokens != [] && tokenFrom == tokens[0] ==> r == Err(NameError)
    ensures tokens != [] && tokenFrom != tokens[0] ==>
              r == Ok(ExchangeUtils.CalculateExchangeAmount(tokenFrom, tokens, amount, priceBase, priceTokens))
  {
    if tokens == [] then Err(IndexError)
    else if tokenFrom == tokens[0] then Err(NameError)
    else Ok(amount * priceBase)
  }

  /**
   * The discrepancy on a concrete input: selling 100 USDC in the pair "USDC/ETH" raises,
   * where the intended rule (the one routes.py inlines and the second generation keeps)
   * gives 100 times the token price.
   */
  lemma AsWrittenFailsSellingFirstToken()
    ensures CalculateExchangeAmountAsWritten("USDC", ["USDC", "ETH"], 100.0, 2000.0, 0.0005) == Err(NameError)
    ensures ExchangeUtils.CalculateExchangeAmount("USDC", ["USDC", "ETH"], 100.0, 2000.0, 0.0005) == 0.05
  {
  }

  // ---------------------------------------------------------------------------------
  // A pool's prices through the cache
  // ---------------------------------------------------------------------------------

  /** Python's `price_base and price_token`: both prices present and non-zero. */
  predicate Truthy(computed: Option<(real, real)>)
  {
    computed.Some? && computed.value.0 != 0.0 && computed.value.1 != 0.0
  }

  /**
   * The cache-or-compute step: (price base, price token, cache after). A cached base price
   * is used with its inverse (0 when the price is not positive); otherwise the computed pair
   * is used and its base price cached when both are truthy, and both prices are 0 if not.
   */
  function PoolPrices(entries: map<string, real>, key: string, computed: Option<(real, real)>)
    : (r: (real, real, map<string, real>))
    ensures key in entries ==> r.0 == entries[key] && r.2 == entries
    ensures key in entries && entries[key] > 0.0 ==> r.0 * r.1 == 1.0
    ensures key in entries && entries[key] <= 0.0 ==> r.1 == 0.0
    ensures key !in entries && Truthy(computed) ==>
              (r.0, r.1) == computed.value && r.2 == entries[key := computed.value.0]
    ensures key !in entries && !Truthy(computed) ==> r == (0.0, 0.0, entries)
  {
    if key in entries then
      var base := entries[key];
      (base, if base > 0.0 then 1.0 / base else 0.0, entries)
    else if Truthy(computed) then
      (computed.value.0, computed.value.1, entries[key := computed.value.0])
    else (0.0, 0.0, entries)
  }

  /**
   * A computed pair that is a positive price and its inverse survives the cache: the next
   * lookup of the same pool, whatever the chain would give then, finds the same two prices
   * and leaves the cache as it is.
   */
  lemma SecondLookupReproducesPrices(entries: map<string, real>, key: string,
                                     computed: Option<(real, real)>, later: Option<(real, real)>)
    requires key !in entries && Truthy(computed)
    requires computed.value.0 > 0.0 && computed.value.0 * computed.value.1 == 1.0
    ensures var first := PoolPrices(entries, key, computed);
            var second := PoolPrices(first.2, key, later);
            second == first
  {
    var base := computed.value.0;
    InverseIsUnique(base, computed.value.1);
  }

  /** The inverse of a positive number is the only number whose product with it is 1. */
  lemma InverseIsUnique(x: real, y: real)
    requires x > 0.0 && x * y == 1.0
    ensures 1.0 / x == y
  {
    assert (1.0 / x) * x == 1.0;
    assert (1.0 / x - y) * x == 0.0;
  }

  /**
   * Every truthy result of `get_uniswap_price` is such a pair, so a pool priced through it
   * gets the same prices from the cache as from the chain.
   */
  lemma UniswapPriceSurvivesCache(entries: map<string, real>, key: string, slot0Read: Option<nat>,
                                  decimals: (nat, nat), later: Option<(real, real)>)
    requires key !in entries && Truthy(LegacyPrice.GetUniswapPrice(slot0Read, decimals))
    ensures var first := PoolPrices(entries, key, LegacyPrice.GetUniswapPrice(slot0Read, decimals));
            PoolPrices(first.2, key, later) == first
  {
    var computed := LegacyPrice.GetUniswapPrice(slot0Read, decimals);
    assert computed.value == LegacyPrice.UniswapCalculation(decimals.0, decimals.1, slot0Read.value);
    SecondLookupReproducesPrices(entries, key, computed, later);
  }

  /** The cache-or-compute step on the cache object; the chain is read only on a miss. */
  method CacheOrCompute(cache: Cache, key: string, priceOf: (string, (nat, nat)) -> Option<(real, real)>,
                        pool: LegacyPool) returns (priceBase: real, priceToken: real)
    modifies cache
    ensures (priceBase, priceToken, cache.entries) == PoolPrices(old(cache.entries), key, priceOf(pool.address, pool.decimals))
  {
    var cached := cache.GetCachedPrice(key);
    if cached.None? {
      var computed := priceOf(pool.address, pool.decimals);
      if Truthy(computed) {
        cache.SetCachedPrice(key, computed.value.0);
        priceBase, priceToken := computed.value.0, computed.value.1;
      } else {
        priceBase, priceToken := 0.0, 0.0;
      }
    } else {
      priceBase := cached.value;
      priceToken := if priceBase > 0.0 then 1.0 / priceBase else 0.0;
    }
  }

  // ---------------------------------------------------------------------------------
  // Quotes over the pools
  // ---------------------------------------------------------------------------------

  /** A pool table entry: the pair ("USDC/ETH"), the pool's address and the tokens' decimals. */
  datatype LegacyPool = LegacyPool(pair: string, address: string, decimals: (nat, nat))

  /** A DEX: its name, its pool table and how a pool's (base, token) prices are computed. */
  datatype Dex = Dex(name: string, pools: seq<LegacyPool>, priceOf: (string, (nat, nat)) -> Option<(real, real)>)

  /** One pool as the loops visit it, with the DEX it belongs to. */
  datatype Candidate = Candidate(dex: string, pool: LegacyPool, priceOf: (string, (nat, nat)) -> Option<(real, real)>)

  /** The requested swap, with the USD prices of its two tokens. */
  datatype LegacyRequest = LegacyRequest(tokenFrom: string, tokenTo: string, amount: real, usdFrom: real, usdTo: real)

  /** What a matching pool yields: its prices, the amount received and the two USD values. */
  datatype Quote = Quote(dex: string, pair: string, priceBase: real, priceToken: real,
                         exchangeAmount: real, valueFromUsd: real, valueToUsd: real)

  /** The USD value of an amount of a token at its USD price. */
  function UsdValue(amount: real, usdPrice: real): real
  {
    amount * usdPrice
  }

  /** A pool is visited when its pair's symbols are exactly the two requested. */
  predicate Matches(req: LegacyRequest, c: Candidate)
  {
    ExchangeUtils.PairMatches(c.pool.pair, req.tokenFrom, req.tokenTo)
  }

  /** The pools of a DEX, in table order. */
  function Candidates(dex: Dex): (cs: seq<Candidate>)
    ensures |cs| == |dex.pools|
    ensures forall i :: 0 <= i < |cs| ==> cs[i] == Candidate(dex.name, dex.pools[i], dex.priceOf)
  {
    seq(|dex.pools|, i requires 0 <= i < |dex.pools| => Candidate(dex.name, dex.pools[i], dex.priceOf))
  }

  /** The pools of all DEXes, DEX by DEX. */
  function Flatten(dexes: seq<Dex>): (cs: seq<Candidate>)
  {
    if dexes == [] then [] else Flatten(dexes[..|dexes| - 1]) + Candidates(dexes[|dexes| - 1])
  }

  /**
   * One pool: nothing for a pool of another pair; otherwise its prices through the cache,
   * the amount received for `amount` (the intended `calculate_exchange_amount`) and the USD
   * values of what is paid and what is received.
   */
  function QuoteStep(entries: map<string, real>, req: LegacyRequest, c: Candidate)
    : (r: (Option<Quote>, map<string, real>))
    ensures r.0.Some? <==> Matches(req, c)
    ensures !Matches(req, c) ==> r.1 == entries
    ensures r.0.Some? ==> r.0.value.dex == c.dex && r.0.value.pair == c.pool.pair
  {
    if !Matches(req, c) then (None, entries)
    else
      var prices := PoolPrices(entries, ExchangeUtils.PoolName(c.dex, c.pool.pair), c.priceOf(c.pool.address, c.pool.decimals));
      var tokens := Split(c.pool.pair, '/');
      var received := ExchangeUtils.CalculateExchangeAmount(req.tokenFrom, tokens, req.amount, prices.0, prices.1);
      (Some(Quote(c.dex, c.pool.pair, prices.0, prices.1, received, UsdValue(req.amount, req.usdFrom), UsdValue(received, req.usdTo))),
       prices.2)
  }

  /** The pools in order: the quotes of the matching ones and the cache after the last. */
  function Scan(entries: map<string, real>, req: LegacyRequest, cs: seq<Candidate>)
    : (r: (seq<Quote>, map<string, real>))
    ensures |r.0| <= |cs|
  {
    if cs == [] then ([], entries)
    else
      var prev := Scan(entries, req, cs[..|cs| - 1]);
      var step := QuoteStep(prev.1, req, cs[|cs| - 1]);
      (prev.0 + (if step.0.Some? then [step.0.value] else []), step.1)
  }

  /** Scanning one more pool adds its quote, if any, and its cache update. */
  lemma ScanSnoc(entries: map<string, real>, req: LegacyRequest, cs: seq<Candidate>, i: nat)
    requires i < |cs|
    ensures var earlier := Scan(entries, req, cs[..i]);
            var step := QuoteStep(earlier.1, req, cs[i]);
            Scan(entries, req, cs[..i + 1]) == (earlier.0 + (if step.0.Some? then [step.0.value] else []), step.1)
  {
    assert cs[..i + 1][..i] == cs[..i];
  }

  /** Scanning two lists of pools one after the other is scanning them together. */
  lemma {:induction false} ScanAppend(entries: map<string, real>, req: LegacyRequest, xs: seq<Candidate>, ys: seq<Candidate>)
    ensures var first := Scan(entries, req, xs);
            var second := Scan(first.1, req, ys);
            Scan(entries, req, xs + ys) == (first.0 + second.0, second.1)
    decreases |ys|
  {
    if ys == [] {
      assert xs + ys == xs;
      var first := Scan(entries, req, xs);
      assert Scan(first.1, req, ys).0 == [] && Scan(first.1, req, ys).1 == first.1;
      assert first.0 + [] == first.0;
    } else {
      var init := ys[..|ys| - 1];
      var last := ys[|ys| - 1];
      assert (xs + ys)[..|xs + ys| - 1] == xs + init;
      assert (xs + ys)[|xs + ys| - 1] == last;
      ScanAppend(entries, req, xs, init);
      var first := Scan(entries, req, xs);
      var mid := Scan(first.1, req, init);
      var step := QuoteStep(mid.1, req, last);
      var added := if step.0.Some? then [step.0.value] else [];
      assert Scan(first.1, req, ys).0 == mid.0 + added && Scan(first.1, req, ys).1 == step.1;
      assert Scan(entries, req, xs + init).0 == first.0 + mid.0 && Scan(entries, req, xs + init).1 == mid.1;
      assert Scan(entries, req, xs + ys).0 == (first.0 + mid.0) + added;
      assert Scan(entries, req, xs + ys).1 == step.1;
      assert (first.0 + mid.0) + added == first.0 + (mid.0 + added);
    }
  }

  /** The number of pools whose pair is the requested one. */
  function MatchCount(req: LegacyRequest, cs: seq<Candidate>): (n: nat)
    ensures n <= |cs|
    ensures n == 0 <==> forall i :: 0 <= i < |cs| ==> !Matches(req, cs[i])
  {
    if cs == [] then 0
    else
      var init := cs[..|cs| - 1];
      assert forall i :: 0 <= i < |init| ==> init[i] == cs[i];
      MatchCount(req, init) + (if Matches(req, cs[|cs| - 1]) then 1 else 0)
  }

  /** Exactly one quote per matching pool. */
  lemma {:induction false} ScanCountsMatches(entries: map<string, real>, req: LegacyRequest, cs: seq<Candidate>)
    ensures |Scan(entries, req, cs).0| == MatchCount(req, cs)
  {
    if cs != [] {
      ScanCountsMatches(entries, req, cs[..|cs| - 1]);
    }
  }

  /** Each quote comes from a matching pool and carries its DEX and its pair. */
  predicate QuotedFrom(req: LegacyRequest, q: Quote, c: Candidate)
  {
    Matches(req, c) && q.dex == c.dex && q.pair == c.pool.pair
  }

  /** Every quote of `quotes` comes from one of the pools `cs`. */
  ghost predicate AllQuotedFrom(req: LegacyRequest, quotes: seq<Quote>, cs: seq<Candidate>)
  {
    forall k :: 0 <= k < |quotes| ==> exists i :: 0 <= i < |cs| && QuotedFrom(req, quotes[k], cs[i])
  }

  lemma {:induction false} ScanQuotesFromMatchingPools(entries: map<string, real>, req: LegacyRequest, cs: seq<Candidate>)
    ensures AllQuotedFrom(req, Scan(entries, req, cs).0, cs)
  {
    if cs != [] {
      var init := cs[..|cs| - 1];
      var last := cs[|cs| - 1];
      ScanQuotesFromMatchingPools(entries, req, init);
      var prev := Scan(entries, req, init);
      assert AllQuotedFrom(req, prev.0, init);
      var step := QuoteStep(prev.1, req, last);
      var quotes := Scan(entries, req, cs).0;
      assert quotes == prev.0 + (if step.0.Some? then [step.0.value] else []);
      forall k | 0 <= k < |quotes|
        ensures exists i :: 0 <= i < |cs| && QuotedFrom(req, quotes[k], cs[i])
      {
        if k < |prev.0| {
          assert quotes[k] == prev.0[k];
          var i :| 0 <= i < |init| && QuotedFrom(req, prev.0[k], init[i]);
          assert cs[i] == init[i];
        } else {
          assert QuotedFrom(req, quotes[k], cs[|cs| - 1]);
        }
      }
    }
  }

  /** One pool on the cache object. */
  method QuotePool(cache: Cache, req: LegacyRequest, c: Candidate) returns (quote: Option<Quote>)
    modifies cache
    ensures (quote, cache.entries) == QuoteStep(old(cache.entries), req, c)
  {
    if !Matches(req, c) {
      return None;
    }
    var priceBase, priceToken := CacheOrCompute(cache, ExchangeUtils.PoolName(c.dex, c.pool.pair), c.priceOf, c.pool);
    var tokens := Split(c.pool.pair, '/');
    var received := ExchangeUtils.CalculateExchangeAmount(req.tokenFrom, tokens, req.amount, priceBase, priceToken);
    quote := Some(Quote(c.dex, c.pool.pair, priceBase, priceToken, received, UsdValue(req.amount, req.usdFrom), UsdValue(received, req.usdTo)));
  }

  /** The loop over a list of pools, collecting the quotes. */
  method ScanPools(cache: Cache, req: LegacyRequest, cs: seq<Candidate>) returns (quotes: seq<Quote>)
    modifies cache
    ensures (quotes, cache.entries) == Scan(old(cache.entries), req, cs)
  {
    ghost var entries := cache.entries;
    quotes := [];
    for i := 0 to |cs|
      invariant (quotes, cache.entries) == Scan(entries, req, cs[..i])
    {
      ScanSnoc(entries, req, cs, i);
      ghost var earlier := Scan(entries, req, cs[..i]);
      assert quotes == earlier.0 && cache.entries == earlier.1;
      var quote := QuotePool(cache, req, cs[i]);
      ghost var step := QuoteStep(earlier.1, req, cs[i]);
      assert quote == step.0 && cache.entries == step.1;
      if quote.Some? {
        quotes := quotes + [quote.value];
      }
      assert quotes == earlier.0 + (if step.0.Some? then [step.0.value] else []);
    }
    assert cs[..|cs|] == cs;
  }

  // ---------------------------------------------------------------------------------
  // process_dex_pools and process_prices of exchange_utils.py
  // ---------------------------------------------------------------------------------

  /** The option the first-generation `process_dex_pools` builds (keywords of its constructor call). */
  datatype LegacyOption = LegacyOption(dex: string, pool: string, price: real, slippage: real, liquidity: real,
                                       txCost: real, amountFrom: real, amountTo: real,
                                       valueFromUsd: real, valueToUsd: real)

  /** A pair written as two symbols around one "/". */
  predicate TwoTokenPair(pair: string)
  {
    |Split(pair, '/')| == 2
  }

  /**
   * The option of a quote: the base price when selling the pair's second token and the
   * token price otherwise; slippage, liquidity and transaction cost fixed at 0.
   */
  function OptionOf(q: Quote, tokenFrom: string, amount: real): (o: LegacyOption)
    requires TwoTokenPair(q.pair)
    ensures o.dex == q.dex && o.pool == q.pair && o.amountFrom == amount && o.amountTo == q.exchangeAmount
    ensures o.price == (if tokenFrom == Split(q.pair, '/')[1] then q.priceBase else q.priceToken)
    ensures o.slippage == 0.0 && o.liquidity == 0.0 && o.txCost == 0.0
  {
    var tokens := Split(q.pair, '/');
    LegacyOption(q.dex, q.pair, if tokenFrom == tokens[1] then q.priceBase else q.priceToken,
                 0.0, 0.0, 0.0, amount, q.exchangeAmount, q.valueFromUsd, q.valueToUsd)
  }

  /**
   * For a swap between two different tokens, the option's price is the rate it was
   * quoted at: the amount received is the amount paid times the price.
   */
  lemma OptionPriceIsQuotedRate(entries: map<string, real>, req: LegacyRequest, c: Candidate)
    requires Matches(req, c) && TwoTokenPair(c.pool.pair) && req.tokenFrom != req.tokenTo
    ensures var q := QuoteStep(entries, req, c).0.value;
            OptionOf(q, req.tokenFrom, req.amount).amountTo == req.amount * OptionOf(q, req.tokenFrom, req.amount).price
  {
    var tokens := Split(c.pool.pair, '/');
    var prices := PoolPrices(entries, ExchangeUtils.PoolName(c.dex, c.pool.pair), c.priceOf(c.pool.address, c.pool.decimals));
    var q := QuoteStep(entries, req, c).0.value;
    assert q.priceBase == prices.0 && q.priceToken == prices.1;
    assert q.exchangeAmount == ExchangeUtils.CalculateExchangeAmount(req.tokenFrom, tokens, req.amount, prices.0, prices.1);
    assert tokens == [tokens[0], tokens[1]];
    assert (set t | t in tokens) == {tokens[0], tokens[1]};
    if req.tokenFrom == tokens[0] {
      assert tokens[1] != req.tokenFrom;
      assert q.exchangeAmount == req.amount * q.priceToken;
    } else {
      assert req.tokenFrom == tokens[1];
      assert q.exchangeAmount == req.amount * q.priceBase;
    }
  }

  /** `prices.get(token, 1)` */
  function PriceOrOne(prices: map<string, real>, token: string): (r: real)
    ensures token in prices ==> r == prices[token]
    ensures token !in prices ==> r == 1.0
  {
    if token in prices then prices[token] else 1.0
  }

  /** The options of quotes, in order. */
  function Options(quotes: seq<Quote>, tokenFrom: string, amount: real): (os: seq<LegacyOption>)
    requires forall k :: 0 <= k < |quotes| ==> TwoTokenPair(quotes[k].pair)
    ensures |os| == |quotes|
    ensures forall k :: 0 <= k < |quotes| ==> os[k] == OptionOf(quotes[k], tokenFrom, amount)
  {
    seq(|quotes|, k requires 0 <= k < |quotes| => OptionOf(quotes[k], tokenFrom, amount))
  }

  /**
   * `process_dex_pools` with the intended exchange amount: an option per pool of the
   * requested pair, in table order, the USD prices looked up by symbol with 1 for a
   * missing one; the pool prices go through the cache.
   */
  method ProcessDexPools(cache: Cache, dexName: string, pools: seq<LegacyPool>,
                         priceOf: (string, (nat, nat)) -> Option<(real, real)>,
                         tokenFrom: string, tokenTo: string, amount: real, prices: map<string, real>)
    returns (results: seq<LegacyOption>)
    requires forall i :: 0 <= i < |pools| ==> TwoTokenPair(pools[i].pair)
    modifies cache
    ensures var req := LegacyRequest(tokenFrom, tokenTo, amount, PriceOrOne(prices, tokenFrom), PriceOrOne(prices, tokenTo));
            var scanned := Scan(old(cache.entries), req, Candidates(Dex(dexName, pools, priceOf)));
            (forall k :: 0 <= k < |scanned.0| ==> TwoTokenPair(scanned.0[k].pair)) &&
            results == Options(scanned.0, tokenFrom, amount) && cache.entries == scanned.1
  {
    var req := LegacyRequest(tokenFrom, tokenTo, amount, PriceOrOne(prices, tokenFrom), PriceOrOne(prices, tokenTo));
    var cs := Candidates(Dex(dexName, pools, priceOf));
    ghost var entries := cache.entries;
    var quotes := ScanPools(cache, req, cs);
    ScanQuotesFromMatchingPools(entries, req, cs);
    forall k | 0 <= k < |quotes|
      ensures TwoTokenPair(quotes[k].pair)
    {
      var i :| 0 <= i < |cs| && QuotedFrom(req, quotes[k], cs[i]);
    }
    results := Options(quotes, tokenFrom, amount);
  }

  /** The cache key of a CoinGecko id's USD price. */
  function CoinGeckoKey(id: string): (k: string)
    ensures |k| > |id| && k[|k| - |id|..] == id
  {
    "coingecko_" + id
  }

  /** Distinct ids have distinct keys. */
  lemma CoinGeckoKeyInjective(a: string, b: string)
    requires CoinGeckoKey(a) == CoinGeckoKey(b)
    ensures a == b
  {
    assert a == CoinGeckoKey(a)[10..];
    assert b == CoinGeckoKey(b)[10..];
  }

  /** The ids without a cached price, in order. */
  function MissingIds(entries: map<string, real>, ids: seq<string>): (r: seq<string>)
    ensures forall id :: id in r <==> id in ids && CoinGeckoKey(id) !in entries
  {
    if ids == [] then []
    else
      var init := ids[..|ids| - 1];
      var id := ids[|ids| - 1];
      assert ids == init + [id];
      MissingIds(entries, init) + (if CoinGeckoKey(id) !in entries then [id] else [])
  }

  /** The cached prices of the ids that have one. */
  function CachedById(entries: map<string, real>, ids: seq<string>): (r: map<string, real>)
    ensures forall id :: id in r <==> id in ids && CoinGeckoKey(id) in entries
    ensures forall id :: id in r ==> r[id] == entries[CoinGeckoKey(id)]
  {
    map id | id in ids && CoinGeckoKey(id) in entries :: entries[CoinGeckoKey(id)]
  }

  /** The oracle's prices of the given ids, those it has no price for left out. */
  function FetchedById(missing: seq<string>, oracle: string -> Option<real>): (r: map<string, real>)
    ensures forall id :: id in r <==> id in missing && oracle(id).Some?
    ensures forall id :: id in r ==> Some(r[id]) == oracle(id)
  {
    map id | id in missing && oracle(id).Some? :: oracle(id).value
  }

  /** The cache after storing, in order, each fetched price under its key. */
  function StoreById(entries: map<string, real>, missing: seq<string>, oracle: string -> Option<real>)
    : (r: map<string, real>)
    ensures entries.Keys <= r.Keys
    ensures forall id :: id in missing && oracle(id).Some? ==> CoinGeckoKey(id) in r
  {
    if missing == [] then entries
    else
      var init := StoreById(entries, missing[..|missing| - 1], oracle);
      var id := missing[|missing| - 1];
      if oracle(id).Some? then init[CoinGeckoKey(id) := oracle(id).value] else init
  }

  /**
   * The cache after the fetch holds every earlier entry that was not refetched, and for
   * each fetched id with a price that price under its key; nothing else is added.
   */
  lemma {:induction false} StoreByIdContents(entries: map<string, real>, missing: seq<string>, oracle: string -> Option<real>)
    ensures var after := StoreById(entries, missing, oracle);
            (forall k :: k in after <==> k in entries || exists id :: id in missing && oracle(id).Some? && k == CoinGeckoKey(id)) &&
            (forall id :: id in missing && oracle(id).Some? ==> after[CoinGeckoKey(id)] == oracle(id).value) &&
            (forall k :: k in entries && (forall id :: id in missing && oracle(id).Some? ==> k != CoinGeckoKey(id)) ==> after[k] == entries[k])
  {
    if missing != [] {
      var init := missing[..|missing| - 1];
      var id := missing[|missing| - 1];
      assert missing == init + [id];
      StoreByIdContents(entries, init, oracle);
      forall other | other in init && oracle(other).Some? && CoinGeckoKey(other) == CoinGeckoKey(id)
        ensures other == id
      {
        CoinGeckoKeyInjective(other, id);
      }
    }
  }

  /** One more id read from the cache. */
  lemma ReadSnoc(entries: map<string, real>, ids: seq<string>, i: nat)
    requires i < |ids|
    ensures var key := CoinGeckoKey(ids[i]);
            MissingIds(entries, ids[..i + 1]) == MissingIds(entries, ids[..i]) + (if key !in entries then [ids[i]] else []) &&
            CachedById(entries, ids[..i + 1]) ==
              (if key in entries then CachedById(entries, ids[..i])[ids[i] := entries[key]] else CachedById(entries, ids[..i]))
  {
    var pre, post := ids[..i], ids[..i + 1];
    assert post[..i] == pre;
    assert post == pre + [ids[i]];
    CachedSnoc(entries, pre, ids[i]);
  }

  /** The cached prices of one more id. */
  lemma CachedSnoc(entries: map<string, real>, ids: seq<string>, id: string)
    ensures var key := CoinGeckoKey(id);
            CachedById(entries, ids + [id]) ==
              (if key in entries then CachedById(entries, ids)[id := entries[key]] else CachedById(entries, ids))
  {
    var before, after := CachedById(entries, ids), CachedById(entries, ids + [id]);
    assert forall x :: x in ids + [id] <==> x in ids || x == id;
    assert forall x :: x in after <==> x in before || (x == id && CoinGeckoKey(id) in entries);
  }

  /** One more missing id fetched. */
  lemma FetchSnoc(entries: map<string, real>, missing: seq<string>, oracle: string -> Option<real>, j: nat)
    requires j < |missing|
    ensures var id := missing[j];
            StoreById(entries, missing[..j + 1], oracle) ==
              (if oracle(id).Some? then StoreById(entries, missing[..j], oracle)[CoinGeckoKey(id) := oracle(id).value]
               else StoreById(entries, missing[..j], oracle)) &&
            FetchedById(missing[..j + 1], oracle) ==
              (if oracle(id).Some? then FetchedById(missing[..j], oracle)[id := oracle(id).value] else FetchedById(missing[..j], oracle))
  {
    assert missing[..j + 1][..j] == missing[..j];
    assert missing[..j + 1] == missing[..j] + [missing[j]];
  }

  /** Updating a merged map is updating its right-hand part. */
  lemma UpdateAfterMerge(left: map<string, real>, right: map<string, real>, k: string, v: real)
    ensures (left + right)[k := v] == left + right[k := v]
  {
  }

  /** The first loop of `process_prices`: the cached prices, and the ids without one. */
  method ReadCachedIds(cache: Cache, ids: seq<string>) returns (prices: map<string, real>, missing: seq<string>)
    ensures prices == CachedById(cache.entries, ids) && missing == MissingIds(cache.entries, ids)
  {
    prices := map[];
    missing := [];
    for i := 0 to |ids|
      invariant prices == CachedById(cache.entries, ids[..i])
      invariant missing == MissingIds(cache.entries, ids[..i])
    {
      ReadSnoc(cache.entries, ids, i);
      var cached := cache.GetCachedPrice(CoinGeckoKey(ids[i]));
      if cached.Some? {
        prices := prices[ids[i] := cached.value];
      } else {
        missing := missing + [ids[i]];
      }
    }
    assert ids[..|ids|] == ids;
  }

  /** The second loop of `process_prices`: each missing id's price fetched, and cached and added when there is one. */
  method StoreFetchedIds(cache: Cache, missing: seq<string>, oracle: string -> Option<real>, hits: map<string, real>)
    returns (prices: map<string, real>)
    modifies cache
    ensures prices == hits + FetchedById(missing, oracle)
    ensures cache.entries == StoreById(old(cache.entries), missing, oracle)
  {
    ghost var entries := cache.entries;
    prices := hits;
    for j := 0 to |missing|
      invariant cache.entries == StoreById(entries, missing[..j], oracle)
      invariant prices == hits + FetchedById(missing[..j], oracle)
    {
      FetchSnoc(entries, missing, oracle, j);
      var price := oracle(missing[j]);
      if price.Some? {
        cache.SetCachedPrice(CoinGeckoKey(missing[j]), price.value);
        UpdateAfterMerge(hits, FetchedById(missing[..j], oracle), missing[j], price.value);
        prices := prices[missing[j] := price.value];
      }
    }
    assert missing[..|missing|] == missing;
  }

  /**
   * `process_prices` of exchange_utils.py: the cached price of each id, and for the ids
   * without one the oracle's price, cached under "coingecko_" and the id when there is one.
   */
  method ProcessPrices(cache: Cache, ids: seq<string>, oracle: string -> Option<real>)
    returns (prices: map<string, real>)
    modifies cache
    ensures var missing := MissingIds(old(cache.entries), ids);
            prices == CachedById(old(cache.entries), ids) + FetchedById(missing, oracle) &&
            cache.entries == StoreById(old(cache.entries), missing, oracle)
  {
    var hits, missing := ReadCachedIds(cache, ids);
    prices := StoreFetchedIds(cache, missing, oracle, hits);
  }

  /**
   * What `process_prices` returns: exactly the ids that had a cached price or got one from
   * the oracle, a cached price taking precedence over asking the oracle.
   */
  lemma ProcessedPricesMeaning(entries: map<string, real>, ids: seq<string>, oracle: string -> Option<real>)
    ensures var prices := CachedById(entries, ids) + FetchedById(MissingIds(entries, ids), oracle);
            (forall id :: id in prices <==> id in ids && (CoinGeckoKey(id) in entries || oracle(id).Some?)) &&
            (forall id :: id in prices && CoinGeckoKey(id) in entries ==> prices[id] == entries[CoinGeckoKey(id)]) &&
            (forall id :: id in prices && CoinGeckoKey(id) !in entries ==> prices[id] == oracle(id).value)
  {
  }

  /**
   * After `process_prices`, asking again for the same ids reaches the oracle only for the
   * ids it had no price for.
   */
  lemma RepeatAsksOnlyUnpriced(entries: map<string, real>, ids: seq<string>, oracle: string -> Option<real>)
    ensures var after := StoreById(entries, MissingIds(entries, ids), oracle);
            forall id :: id in MissingIds(after, ids) ==> oracle(id).None?
  {
    var missing := MissingIds(entries, ids);
    var after := StoreById(entries, missing, oracle);
    StoreByIdContents(entries, missing, oracle);
    forall id | id in MissingIds(after, ids)
      ensures oracle(id).None?
    {
    }
  }

  // ---------------------------------------------------------------------------------
  // The /exchange endpoint of routes.py
  // ---------------------------------------------------------------------------------

  /** `token_ids`: the CoinGecko ids of the two symbols, in order, for those configured. */
  function TokenIdsFor(tokenFrom: string, tokenTo: string, tokenIds: map<string, string>): (ids: seq<string>)
    ensures |ids| <= 2
    ensures forall id :: id in ids <==>
              (tokenFrom in tokenIds && id == tokenIds[tokenFrom]) || (tokenTo in tokenIds && id == tokenIds[tokenTo])
  {
    (if tokenFrom in tokenIds then [tokenIds[tokenFrom]] else []) + (if tokenTo in tokenIds then [tokenIds[tokenTo]] else [])
  }

  /** `prices.get(TOKEN_IDS.get(token), {}).get("usd", 1)`: 1 for an unknown symbol or an unpriced id. */
  function UsdPrice(prices: map<string, real>, tokenIds: map<string, string>, token: string): (r: real)
    ensures token in tokenIds && tokenIds[token] in prices ==> r == prices[tokenIds[token]]
    ensures !(token in tokenIds && tokenIds[token] in prices) ==> r == 1.0
  {
    if token in tokenIds && tokenIds[token] in prices then prices[tokenIds[token]] else 1.0
  }

  /** The sort keys: the amounts received. */
  function AmountsOf(quotes: seq<Quote>): (keys: seq<real>)
    ensures |keys| == |quotes|
    ensures forall i :: 0 <= i < |quotes| ==> keys[i] == quotes[i].exchangeAmount
  {
    seq(|quotes|, i requires 0 <= i < |quotes| => quotes[i].exchangeAmount)
  }

  /**
   * `all_options.sort(key=lambda x: x[2], reverse=True)`: the quotes by non-increasing amount,
   * equal amounts in their earlier order.
   */
  function SortByAmount(quotes: seq<Quote>): (sorted: seq<Quote>)
    ensures multiset(sorted) == multiset(quotes)
    ensures forall a, b :: 0 <= a < b < |sorted| ==> sorted[a].exchangeAmount >= sorted[b].exchangeAmount
    ensures exists order :: IsPermutation(order, |quotes|) && Ordered(AmountsOf(quotes), order)
                         && sorted == Arrange(quotes, order)
  {
    var keys := AmountsOf(quotes);
    var order := StableOrder(keys);
    ArrangePermutes(quotes, order);
    var sorted := Arrange(quotes, order);
    assert forall a, b :: 0 <= a < b < |sorted| ==> Before(keys, order[a], order[b]);
    sorted
  }

  /** When every quote is for the same amount, the sort keeps the pool order. */
  lemma EqualAmountsKeepPoolOrder(quotes: seq<Quote>)
    requires forall i, j :: 0 <= i < |quotes| && 0 <= j < |quotes| ==> quotes[i].exchangeAmount == quotes[j].exchangeAmount
    ensures SortByAmount(quotes) == quotes
  {
    var keys := AmountsOf(quotes);
    TiedKeysKeepInputOrder(keys, StableOrder(keys));
  }

  /** An entry of the response. */
  datatype Entry = Entry(dex: string, pair: string, amountFrom: real, amountTo: real,
                         valueFromUsd: real, valueToUsd: real)

  /** The response: the best option and the others, or the 404 "No exchange options available." */
  datatype LegacyResponse = BestOption(best: Entry, options: seq<Entry>) | NotFound

  function EntryOf(q: Quote, amount: real): (e: Entry)
    ensures e.dex == q.dex && e.pair == q.pair && e.amountFrom == amount && e.amountTo == q.exchangeAmount
    ensures e.valueFromUsd == q.valueFromUsd && e.valueToUsd == q.valueToUsd
  {
    Entry(q.dex, q.pair, amount, q.exchangeAmount, q.valueFromUsd, q.valueToUsd)
  }

  /** The response for the sorted quotes: the first as the best option, the rest as options. */
  function Respond(sorted: seq<Quote>, amount: real): (r: LegacyResponse)
    ensures r.NotFound? <==> sorted == []
    ensures r.BestOption? ==> r.best == EntryOf(sorted[0], amount) && |r.options| == |sorted| - 1
    ensures r.BestOption? ==> forall i :: 0 <= i < |r.options| ==> r.options[i] == EntryOf(sorted[i + 1], amount)
  {
    if sorted == [] then NotFound
    else BestOption(EntryOf(sorted[0], amount), seq(|sorted| - 1, i requires 0 <= i < |sorted| - 1 => EntryOf(sorted[i + 1], amount)))
  }

  /**
   * The best option delivers at least as much as every quote, the other options follow in
   * non-increasing order, and together they report every quote once.
   */
  lemma BestOptionDeliversMost(quotes: seq<Quote>, amount: real)
    requires quotes != []
    ensures var r := Respond(SortByAmount(quotes), amount);
            r.BestOption? && |r.options| + 1 == |quotes| &&
            (forall q :: q in quotes ==> r.best.amountTo >= q.exchangeAmount) &&
            (forall i, j :: 0 <= i < j < |r.options| ==> r.options[i].amountTo >= r.options[j].amountTo)
  {
    var sorted := SortByAmount(quotes);
    assert |sorted| == |multiset(sorted)| == |quotes|;
    forall q | q in quotes
      ensures sorted[0].exchangeAmount >= q.exchangeAmount
    {
      assert q in multiset(sorted);
      var k :| 0 <= k < |sorted| && sorted[k] == q;
      if k != 0 {
        assert sorted[0].exchangeAmount >= sorted[k].exchangeAmount;
      }
    }
    var r := Respond(sorted, amount);
    forall i, j | 0 <= i < j < |r.options|
      ensures r.options[i].amountTo >= r.options[j].amountTo
    {
      assert r.options[i].amountTo == sorted[i + 1].exchangeAmount;
    }
  }

  /** The endpoint answers 404 exactly when no pool of any DEX has the requested pair. */
  lemma NotFoundIffNoPoolMatches(entries: map<string, real>, req: LegacyRequest, cs: seq<Candidate>, amount: real)
    ensures Respond(SortByAmount(Scan(entries, req, cs).0), amount).NotFound? <==>
            forall i :: 0 <= i < |cs| ==> !Matches(req, cs[i])
  {
    var quotes := Scan(entries, req, cs).0;
    ScanCountsMatches(entries, req, cs);
    assert |SortByAmount(quotes)| == |multiset(SortByAmount(quotes))| == |quotes|;
  }

  /**
   * `exchange` of routes.py: the symbols upper-cased, the USD prices of their CoinGecko
   * ids fetched, every DEX's pools quoted in turn, the quotes sorted by amount, and the
   * best one answered with the rest.
   */
  method Exchange(cache: Cache, tokenFrom: string, tokenTo: string, amount: real, dexes: seq<Dex>,
                  tokenIds: map<string, string>, respond: (string, nat) -> Option<map<string, real>>)
    returns (response: LegacyResponse)
    modifies cache
    ensures var from := Upper(tokenFrom);
            var to := Upper(tokenTo);
            var prices := CoinGeckoAnswer(Join(TokenIdsFor(from, to, tokenIds), ','), respond, 0).0;
            var req := LegacyRequest(from, to, amount, UsdPrice(prices, tokenIds, from), UsdPrice(prices, tokenIds, to));
            var scanned := Scan(old(cache.entries), req, Flatten(dexes));
            response == Respond(SortByAmount(scanned.0), amount) && cache.entries == scanned.1
  {
    var from := Upper(tokenFrom);
    var to := Upper(tokenTo);
    var ids := TokenIdsFor(from, to, tokenIds);
    var prices, attempts := GetPricesFromCoinGecko(ids, respond);
    var req := LegacyRequest(from, to, amount, UsdPrice(prices, tokenIds, from), UsdPrice(prices, tokenIds, to));
    ghost var entries := cache.entries;
    var all := [];
    for d := 0 to |dexes|
      invariant (all, cache.entries) == Scan(entries, req, Flatten(dexes[..d]))
    {
      assert dexes[..d + 1][..d] == dexes[..d];
      ScanAppend(entries, req, Flatten(dexes[..d]), Candidates(dexes[d]));
      var quotes := ScanPools(cache, req, Candidates(dexes[d]));
      all := all + quotes;
    }
    assert dexes[..|dexes|] == dexes;
    var order := SortDescending(AmountsOf(all));
    response := Respond(Arrange(all, order), amount);
  }
}

=== FILE: legacy_price.dfy ===
/**
 * The first generation's price helpers: `uniswap_calculation`, `camelot_calculation`,
 * `calculate_liquidity`, the `get_uniswap_price` / `get_camelot_price` helpers of utils.py
 * and the `get_pair_price` methods of the first-generation services, all of which decode
 * a Q64.96 square-root price and adjust it by a power of ten.
 */
module LegacyPrice {
  import opened Wrappers
  import opened PriceMath
  import opened Units

  /**
   * The decimals adjustment of both calculations: divide by 10^(dt-db) when the token has
   * more decimals than the base, multiply by 10^(db-dt) otherwise. Either way the result
   * is the raw price times 10^(db-dt).
   */
  function AdjustForDecimals(priceInBase: real, decimalsToken: nat, decimalsBase: nat): (r: real)
    ensures r == priceInBase * Pow10(decimalsBase as int - decimalsToken as int)
  {
    if decimalsToken > decimalsBase then
      var k: nat := decimalsToken - decimalsBase;
      assert Pow10(decimalsBase as int - decimalsToken as int) == 1.0 / Pow10Nat(k);
      priceInBase / Pow10Nat(k)
    else
      priceInBase * Pow10Nat(decimalsBase - decimalsToken)
  }

  /** A non-negative price stays non-negative, and a positive one positive, after the adjustment. */
  lemma AdjustKeepsSign(priceInBase: real, decimalsToken: nat, decimalsBase: nat)
    ensures priceInBase >= 0.0 ==> AdjustForDecimals(priceInBase, decimalsToken, decimalsBase) >= 0.0
    ensures priceInBase > 0.0 ==> AdjustForDecimals(priceInBase, decimalsToken, decimalsBase) > 0.0
    ensures priceInBase == 0.0 ==> AdjustForDecimals(priceInBase, decimalsToken, decimalsBase) == 0.0
  {
    var e := Pow10(decimalsBase as int - decimalsToken as int);
    if priceInBase > 0.0 {
      ScaledPositive(priceInBase, e);
    }
  }

  /**
   * `uniswap_calculation(decimals_token, decimals_base, slot0_data)`: the adjusted price and
   * its inverse, the inverse being 0 when the price is 0.
   */
  function UniswapCalculation(decimalsToken: nat, decimalsBase: nat, sqrtPriceX96: nat): (r: (real, real))
    ensures r.0 == ChainPrice(sqrtPriceX96) * Pow10(decimalsBase as int - decimalsToken as int)
    ensures r.0 >= 0.0
    ensures r.0 != 0.0 ==> r.0 * r.1 == 1.0
    ensures r.0 == 0.0 ==> r.1 == 0.0
    ensures sqrtPriceX96 == 0 <==> r == (0.0, 0.0)
  {
    var price := AdjustForDecimals(ChainPrice(sqrtPriceX96), decimalsToken, decimalsBase);
    AdjustKeepsSign(ChainPrice(sqrtPriceX96), decimalsToken, decimalsBase);
    var inverse := if price != 0.0 then 1.0 / price else 0.0;
    (price, inverse)
  }

  /**
   * `camelot_calculation`: the same adjustment, with the inverse guarded by `price > 0`
   * instead of `price != 0`.
   */
  function CamelotCalculation(decimalsToken: nat, decimalsBase: nat, sqrtPriceX96: nat): (r: (real, real))
    ensures r.0 == ChainPrice(sqrtPriceX96) * Pow10(decimalsBase as int - decimalsToken as int)
    ensures r.0 > 0.0 ==> r.0 * r.1 == 1.0
    ensures sqrtPriceX96 == 0 ==> r == (0.0, 0.0)
  {
    var price := AdjustForDecimals(ChainPrice(sqrtPriceX96), decimalsToken, decimalsBase);
    var inverse := if price > 0.0 then 1.0 / price else 0.0;
    (price, inverse)
  }

  /**
   * The two guards never disagree, because the price is never negative: the Camelot
   * calculation and the Uniswap one give the same pair for every input.
   */
  lemma CamelotMatchesUniswap(decimalsToken: nat, decimalsBase: nat, sqrtPriceX96: nat)
    ensures CamelotCalculation(decimalsToken, decimalsBase, sqrtPriceX96)
         == UniswapCalculation(decimalsToken, decimalsBase, sqrtPriceX96)
  {
    AdjustKeepsSign(ChainPrice(sqrtPriceX96), decimalsToken, decimalsBase);
  }

  /**
   * The legacy calculation called with the decimals swapped, as the first-generation
   * Uniswap and SushiSwap services do, is the second generation's token0-input mid-price,
   * and its inverse is the token1-input mid-price.
   */
  lemma SwappedCalculationIsMidPrice(dec0: nat, dec1: nat, sqrtPriceX96: nat)
    ensures UniswapCalculation(dec1, dec0, sqrtPriceX96).0 == MidPriceFromSqrt(sqrtPriceX96, dec0, dec1, true)
    ensures sqrtPriceX96 != 0 ==>
              UniswapCalculation(dec1, dec0, sqrtPriceX96).1 == MidPriceFromSqrt(sqrtPriceX96, dec0, dec1, false)
  {
    if sqrtPriceX96 != 0 {
      var p := UniswapCalculation(dec1, dec0, sqrtPriceX96);
      MidPriceReciprocal(sqrtPriceX96, dec0, dec1);
      assert p.0 * p.1 == 1.0;
      assert p.1 == 1.0 / p.0;
    }
  }

  /** 10^e and 10^-e agree only for e = 0. */
  lemma Pow10SymmetricOnlyAtZero(e: int)
    ensures Pow10(e) == Pow10(-e) <==> e == 0
  {
    if e > 0 {
      Pow10AboveOne(e);
    } else if e < 0 {
      Pow10AboveOne(-e);
    }
  }

  /** For a positive exponent, 10^e is above one and 10^-e below it. */
  lemma Pow10AboveOne(e: int)
    requires e > 0
    ensures Pow10(e) > 1.0 && Pow10(-e) < 1.0
  {
    var p := Pow10Nat(e);
    assert p > 1.0;
    assert Pow10(-e) == 1.0 / p;
  }

  /** Cancelling a positive common factor. */
  lemma CancelCommonFactor(c: real, x: real, y: real)
    requires c > 0.0 && c * x == c * y
    ensures x == y
  {
  }

  // ---------------------------------------------------------------------
  // Pool-level helpers: a failed chain read (None) becomes (None, None).

  /** `get_uniswap_price` of utils.py: the pair in the given decimals order, not swapped. */
  function GetUniswapPrice(slot0Read: Option<nat>, tokenDecimals: (nat, nat)): (r: Option<(real, real)>)
    ensures r.Some? <==> slot0Read.Some?
    ensures r.Some? ==> r.value == UniswapCalculation(tokenDecimals.0, tokenDecimals.1, slot0Read.value)
  {
    match slot0Read
    case None => None
    case Some(sqrt) => Some(UniswapCalculation(tokenDecimals.0, tokenDecimals.1, sqrt))
  }

  /** `get_camelot_price` of utils.py: globalState[0] as the square-root price, inverse guarded by > 0. */
  function GetCamelotPrice(globalStateRead: Option<nat>, tokenDecimals: (nat, nat)): (r: Option<(real, real)>)
    ensures r.Some? <==> globalStateRead.Some?
    ensures r.Some? ==> r.value == CamelotCalculation(tokenDecimals.0, tokenDecimals.1, globalStateRead.value)
  {
    match globalStateRead
    case None => None
    case Some(sqrt) => Some(CamelotCalculation(tokenDecimals.0, tokenDecimals.1, sqrt))
  }

  /**
   * `get_pair_price` of the first-generation Uniswap and SushiSwap services: the decimals
   * are unpacked as (base, token) and passed as (token, base), i.e. swapped.
   */
  function PairPriceSwapped(slot0Read: Option<nat>, tokenDecimals: (nat, nat)): (r: Option<(real, real)>)
    ensures r.Some? <==> slot0Read.Some?
    ensures r.Some? ==> r.value.0 == MidPriceFromSqrt(slot0Read.value, tokenDecimals.0, tokenDecimals.1, true)
    ensures r.Some? && slot0Read.value != 0 ==>
              r.value.1 == MidPriceFromSqrt(slot0Read.value, tokenDecimals.0, tokenDecimals.1, false)
  {
    match slot0Read
    case None => None
    case Some(sqrt) =>
      SwappedCalculationIsMidPrice(tokenDecimals.0, tokenDecimals.1, sqrt);
      Some(UniswapCalculation(tokenDecimals.1, tokenDecimals.0, sqrt))
  }

  /**
   * `get_pair_price` of the first-generation Camelot service: decimals unpacked as
   * (token, base), not swapped, and the inverse guarded by > 0.
   */
  function CamelotPairPrice(globalStateRead: Option<nat>, tokenDecimals: (nat, nat)): (r: Option<(real, real)>)
    ensures r.Some? <==> globalStateRead.Some?
    ensures r.Some? ==> r.value == GetCamelotPrice(globalStateRead, tokenDecimals).value
  {
    GetCamelotPrice(globalStateRead, tokenDecimals)
  }

  /**
   * The two first-generation orientations differ: for a non-zero square-root price the
   * Camelot service's price equals the Uniswap service's price on the same pool exactly
   * when both tokens have the same decimals.
   */
  lemma OrientationsAgreeIffSameDecimals(sqrtPriceX96: nat, dec0: nat, dec1: nat)
    requires sqrtPriceX96 != 0
    ensures CamelotPairPrice(Some(sqrtPriceX96), (dec0, dec1)).value.0
              == PairPriceSwapped(Some(sqrtPriceX96), (dec0, dec1)).value.0
            <==> dec0 == dec1
  {
    var c := ChainPrice(sqrtPriceX96);
    var e := dec0 as int - dec1 as int;
    assert CamelotPairPrice(Some(sqrtPriceX96), (dec0, dec1)).value.0 == c * Pow10(-e);
    assert PairPriceSwapped(Some(sqrtPriceX96), (dec0, dec1)).value.0 == c * Pow10(e);
    if c * Pow10(-e) == c * Pow10(e) {
      CancelCommonFactor(c, Pow10(-e), Pow10(e));
      Pow10SymmetricOnlyAtZero(e);
    }
  }

  // ---------------------------------------------------------------------
  // calculate_liquidity

  /** `calculate_liquidity`: the USD value of the two normalised balances at the given prices. */
  function CalculateLiquidity(balance0: nat, balance1: nat, decimals0: nat, decimals1: nat,
                              price0: real, price1: real): (r: real)
    ensures price0 >= 0.0 && price1 >= 0.0 ==> r >= 0.0
    ensures balance0 == 0 && balance1 == 0 ==> r == 0.0
  {
    var v0 := FromBaseUnits(balance0, decimals0) * price0;
    var v1 := FromBaseUnits(balance1, decimals1) * price1;
    assert price0 >= 0.0 ==> v0 >= 0.0;
    assert price1 >= 0.0 ==> v1 >= 0.0;
    v0 + v1
  }

  /** The value is linear in the prices: scaling both prices by k scales the value by k. */
  lemma CalculateLiquidityLinear(balance0: nat, balance1: nat, decimals0: nat, decimals1: nat,
                                 price0: real, price1: real, k: real)
    ensures CalculateLiquidity(balance0, balance1, decimals0, decimals1, k * price0, k * price1)
         == k * CalculateLiquidity(balance0, balance1, decimals0, decimals1, price0, price1)
  {
    var n0 := FromBaseUnits(balance0, decimals0);
    var n1 := FromBaseUnits(balance1, decimals1);
    assert n0 * (k * price0) == k * (n0 * price0);
    assert n1 * (k * price1) == k * (n1 * price1);
  }
}

=== FILE: legacy_ranking.dfy ===
/**
 * The first generation's ranking (decision_engine.py at the repository root): the routes
 * sorted by the amount received, largest first, with Python's stable `sorted`. The routes
 * have the shape of `TransactionOptionRaw`; only `amount_to` is read.
 */
module LegacyRanking {
  import opened Sorting
  import opened DecisionEngine

  /** The sort key of each route: the amount it delivers. */
  function AmountKeys(options: seq<RawOption>): (keys: seq<real>)
    ensures |keys| == |options|
    ensures forall i :: 0 <= i < |options| ==> keys[i] == options[i].amountTo
  {
    seq(|options|, i requires 0 <= i < |options| => options[i].amountTo)
  }

  /**
   * `rank_options`: [] for no routes; otherwise the routes in non-increasing order of
   * `amount_to`, routes with equal amounts in input order.
   */
  function RankOptions(options: seq<RawOption>): (ranked: seq<RawOption>)
    ensures options == [] ==> ranked == []
    ensures multiset(ranked) == multiset(options)
    ensures forall a, b :: 0 <= a < b < |ranked| ==> ranked[a].amountTo >= ranked[b].amountTo
    ensures exists order :: IsPermutation(order, |options|) && Ordered(AmountKeys(options), order)
                         && ranked == Arrange(options, order)
  {
    var keys := AmountKeys(options);
    var order := StableOrder(keys);
    ArrangePermutes(options, order);
    var ranked := Arrange(options, order);
    assert forall a, b :: 0 <= a < b < |ranked| ==> Before(keys, order[a], order[b]);
    ranked
  }

  /** The first route of the ranking delivers the most. */
  lemma FirstDeliversMost(options: seq<RawOption>, i: nat)
    requires i < |options|
    ensures RankOptions(options)[0].amountTo >= options[i].amountTo
  {
    var ranked := RankOptions(options);
    assert options[i] in multiset(ranked);
    var k :| 0 <= k < |ranked| && ranked[k] == options[i];
    if k != 0 {
      assert ranked[0].amountTo >= ranked[k].amountTo;
    }
  }

  /** When every route delivers the same amount, the ranking is the input order. */
  lemma EqualAmountsKeepInputOrder(options: seq<RawOption>)
    requires forall i, j :: 0 <= i < |options| && 0 <= j < |options| ==> options[i].amountTo == options[j].amountTo
    ensures RankOptions(options) == options
  {
    var keys := AmountKeys(options);
    var order := StableOrder(keys);
    TiedKeysKeepInputOrder(keys, order);
  }
}

=== FILE: legacy_services.dfy ===
/**
 * The first-generation pool services (services/uniswap_service.py and
 * services/sushiswap_service.py): an uncached gas cost, a transaction cost that is a bare
 * None when anything is missing, the quoter-based slippage estimate with its reserve
 * checks, and SushiSwap's price-weighted liquidity and constant fee. Their pair prices are
 * `LegacyPrice.PairPriceSwapped`; their fee read and balance reads are those of the
 * second generation (`Uniswap.GetDexFeePercent`, `CostModel.GetLiquidity`).
 */
module LegacyServices {
  import opened Wrappers
  import opened Text
  import opened PriceMath
  import opened Units
  import opened Quoting
  import opened CostModel
  import opened LegacyPrice
  import Tokens

  /**
   * `get_gas_cost_usd` of the first-generation Uniswap service: the gas-unit table of the
   * second generation at the chain's current gas price (`gasPriceRead`, read on every call,
   * None when the read fails).
   */
  function LegacyGasCostUsd(dexFee: Option<real>, liquidity: real, ethPrice: real, gasPriceRead: Option<nat>)
    : (r: Option<real>)
    ensures r.Some? <==> gasPriceRead.Some?
    ensures r.Some? && ethPrice >= 0.0 ==>
              GasCostUsd(gasPriceRead.value, 110_000, ethPrice) <= r.value <= GasCostUsd(gasPriceRead.value, 175_000, ethPrice)
    ensures r.Some? ==>
              r.value == GasCostUsd(gasPriceRead.value, GasUnits(dexFee, liquidity), ethPrice)
  {
    match gasPriceRead
    case None => None
    case Some(wei) =>
      var units := GasUnits(dexFee, liquidity);
      GasCostMonotoneInUnits(wei, 110_000, units, ethPrice);
      GasCostMonotoneInUnits(wei, units, 175_000, ethPrice);
      Some(GasCostUsd(wei, units, ethPrice))
  }

  /**
   * `get_transaction_cost` of the first-generation Uniswap service: the pair (fee, gas
   * cost), or a bare None (not a pair of Nones) when either is missing.
   */
  function LegacyTransactionCost(dexFee: Option<real>, gasCost: Option<real>): (r: Option<(real, real)>)
    ensures r.Some? <==> dexFee.Some? && gasCost.Some?
    ensures r.Some? ==> r.value == (dexFee.value, gasCost.value)
  {
    match (dexFee, gasCost)
    case (Some(fee), Some(gas)) => Some((fee, gas))
    case _ => None
  }

  /**
   * The bare None of the first generation carries the same information as the (None, None)
   * pair of the second: the two results are present together and hold the same values.
   */
  lemma LegacyTransactionCostMatchesCombined(dexFee: Option<real>, gasCost: Option<real>)
    ensures LegacyTransactionCost(dexFee, gasCost).Some? <==> CombineCosts(dexFee, gasCost).0.Some?
    ensures LegacyTransactionCost(dexFee, gasCost).Some? ==>
              CombineCosts(dexFee, gasCost)
                == (Some(LegacyTransactionCost(dexFee, gasCost).value.0), Some(LegacyTransactionCost(dexFee, gasCost).value.1))
  {
  }

  // ---------------------------------------------------------------------
  // get_slippage

  /** The chain reads `get_slippage` makes, each None when it raises. */
  datatype SlippageReads = SlippageReads(fee: Option<nat>, token0: Option<string>, token1: Option<string>,
                                         balance0: Option<nat>, balance1: Option<nat>, sqrtPriceX96: Option<nat>)

  /** The dictionary `get_slippage` returns. */
  datatype SlippageReport = SlippageReport(amountOut: real, slippage: real, priceBefore: real)

  /**
   * The slippage of `get_slippage`: (ideal - actual) / ideal when the ideal output
   * amount_in * price_before is positive, else 0, and never below 0.
   */
  function LegacySlippage(amountIn: real, priceBefore: real, actualOut: real): (r: real)
    ensures r >= 0.0
    ensures amountIn * priceBefore > 0.0 && actualOut < amountIn * priceBefore ==>
              (amountIn * priceBefore) * r == amountIn * priceBefore - actualOut
  {
    var idealOut := amountIn * priceBefore;
    var s := if idealOut > 0.0 then (idealOut - actualOut) / idealOut else 0.0;
    if s > 0.0 then s else 0.0
  }

  /**
   * For the non-negative prices `get_slippage` computes, its slippage formula is the
   * second generation's `slippage_from_mid_and_actual`.
   */
  lemma LegacySlippageIsMidSlippage(amountIn: real, priceBefore: real, actualOut: real)
    requires priceBefore >= 0.0
    ensures LegacySlippage(amountIn, priceBefore, actualOut) == SlippageFromMidAndActual(amountIn, priceBefore, actualOut)
  {
    if amountIn > 0.0 && priceBefore > 0.0 {
      ScaledPositive(amountIn, priceBefore);
    } else if amountIn <= 0.0 && priceBefore >= 0.0 {
      assert amountIn * priceBefore <= 0.0;
    }
  }

  /**
   * The rest of `get_slippage` once the quoter has been asked: an output above the output
   * reserve, a failed quote or `slot0` read, and a zero price with token1 input give None;
   * otherwise the report.
   */
  function AfterQuote(amountIn: real, decimals: (nat, nat), isToken0In: bool, reserveOut: nat,
                      quoted: Option<nat>, sqrtRead: Option<nat>): (r: Option<SlippageReport>)
    ensures r.Some? <==>
              quoted.Some? && quoted.value <= reserveOut && sqrtRead.Some? && (isToken0In || sqrtRead.value != 0)
    ensures r.Some? ==>
              r.value.amountOut >= 0.0 &&
              r.value.amountOut == FromBaseUnits(quoted.value, DecOut(isToken0In, decimals)) &&
              ToBaseUnits(r.value.amountOut, DecOut(isToken0In, decimals)) == quoted.value &&
              r.value.priceBefore == MidPriceFromSqrt(sqrtRead.value, decimals.0, decimals.1, isToken0In) &&
              r.value.slippage == SlippageFromMidAndActual(amountIn, r.value.priceBefore, r.value.amountOut)
  {
    match quoted
    case None => None
    case Some(amountOutWei) =>
      if amountOutWei > reserveOut then None
      else
        (match sqrtRead
         case None => None
         case Some(sqrt) =>
           if !isToken0In && sqrt == 0 then None
           else
             var actualOut := QuoteOutput(amountOutWei, isToken0In, decimals);
             var priceBefore := MidPriceFromSqrt(sqrt, decimals.0, decimals.1, isToken0In);
             LegacySlippageIsMidSlippage(amountIn, priceBefore, actualOut);
             Some(SlippageReport(actualOut, LegacySlippage(amountIn, priceBefore, actualOut), priceBefore)))
  }

  /** Whether the input token is the pool's token0, once the token0 read and the symbol lookup succeed. */
  function InputIsToken0(tm: Tokens.TokenManager, chain: SlippageReads, tokenFrom: string): (r: bool)
    requires chain.token0.Some? && Tokens.GetAddressBySymbol(tm, tokenFrom).Some?
    ensures r <==> Lower(Tokens.GetAddressBySymbol(tm, tokenFrom).value) == Lower(chain.token0.value)
  {
    IsToken0In(Tokens.GetAddressBySymbol(tm, tokenFrom).value, chain.token0.value)
  }

  /** The quoter request `get_slippage` sends: both addresses, the pool's fee tier, the truncated input and a zero limit. */
  function SlippageRequest(tm: Tokens.TokenManager, chain: SlippageReads, amountIn: real, tokenFrom: string,
                           tokenTo: string, decimals: (nat, nat)): (q: QuoteRequest)
    requires chain.fee.Some? && chain.token0.Some?
    requires Tokens.GetAddressBySymbol(tm, tokenFrom).Some? && Tokens.GetAddressBySymbol(tm, tokenTo).Some?
    ensures q.tokenIn == Tokens.GetAddressBySymbol(tm, tokenFrom).value
    ensures q.tokenOut == Tokens.GetAddressBySymbol(tm, tokenTo).value
    ensures q.feeTier == chain.fee && q.sqrtPriceLimit == 0
    ensures q.amountInWei == QuoteInputUnits(amountIn, InputIsToken0(tm, chain, tokenFrom), decimals)
  {
    QuoteRequest(Tokens.GetAddressBySymbol(tm, tokenFrom).value, Tokens.GetAddressBySymbol(tm, tokenTo).value,
                 Some(chain.fee.value), QuoteInputUnits(amountIn, InputIsToken0(tm, chain, tokenFrom), decimals), 0)
  }

  /**
   * `get_slippage`: reads the fee tier and both tokens, finds the direction, refuses an
   * input above the input reserve, asks the quoter, refuses an output above the output
   * reserve, and reports the output in whole tokens, the slippage against the pre-trade
   * price and that price. Any failed read or lookup, an unknown symbol, and a zero price
   * with token1 input (division by zero) give None.
   */
  function GetSlippage(tm: Tokens.TokenManager, chain: SlippageReads, amountIn: real, tokenFrom: string,
                       tokenTo: string, decimals: (nat, nat), quoter: QuoteRequest -> Option<nat>)
    : (r: Option<SlippageReport>)
    // a report exactly when every read and lookup succeeds and both reserve checks pass
    ensures r.Some? <==>
              chain.fee.Some? && chain.token0.Some? && chain.token1.Some? && chain.balance0.Some? &&
              chain.balance1.Some? && chain.sqrtPriceX96.Some? &&
              Tokens.GetAddressBySymbol(tm, tokenFrom).Some? && Tokens.GetAddressBySymbol(tm, tokenTo).Some? &&
              var isToken0In := InputIsToken0(tm, chain, tokenFrom);
              var request := SlippageRequest(tm, chain, amountIn, tokenFrom, tokenTo, decimals);
              request.amountInWei <= (if isToken0In then chain.balance0.value else chain.balance1.value) &&
              quoter(request).Some? &&
              quoter(request).value <= (if isToken0In then chain.balance1.value else chain.balance0.value) &&
              (isToken0In || chain.sqrtPriceX96.value != 0)
    // the report: the quoter's output over 10^dec_out, the pre-trade price and the slippage between them
    ensures r.Some? ==>
              var isToken0In := InputIsToken0(tm, chain, tokenFrom);
              var quoted := quoter(SlippageRequest(tm, chain, amountIn, tokenFrom, tokenTo, decimals)).value;
              r.value.amountOut >= 0.0 &&
              r.value.amountOut == FromBaseUnits(quoted, DecOut(isToken0In, decimals)) &&
              ToBaseUnits(r.value.amountOut, DecOut(isToken0In, decimals)) == quoted &&
              r.value.priceBefore == MidPriceFromSqrt(chain.sqrtPriceX96.value, decimals.0, decimals.1, isToken0In) &&
              r.value.slippage == SlippageFromMidAndActual(amountIn, r.value.priceBefore, r.value.amountOut)
    // an input larger than the input reserve is refused before the quoter is asked
    ensures chain.fee.Some? && chain.token0.Some? && chain.token1.Some? && chain.balance0.Some? &&
            chain.balance1.Some? && Tokens.GetAddressBySymbol(tm, tokenFrom).Some? ==>
              var isToken0In := InputIsToken0(tm, chain, tokenFrom);
              var reserveIn := if isToken0In then chain.balance0.value else chain.balance1.value;
              QuoteInputUnits(amountIn, isToken0In, decimals) > reserveIn ==> r.None?
  {
    if chain.fee.None? || chain.token0.None? || chain.token1.None? || Tokens.GetAddressBySymbol(tm, tokenFrom).None? ||
       chain.balance0.None? || chain.balance1.None? then None
    else
      var isToken0In := InputIsToken0(tm, chain, tokenFrom);
      var reserveIn := if isToken0In then chain.balance0.value else chain.balance1.value;
      var reserveOut := if isToken0In then chain.balance1.value else chain.balance0.value;
      if QuoteInputUnits(amountIn, isToken0In, decimals) > reserveIn then None
      else if Tokens.GetAddressBySymbol(tm, tokenTo).None? then None
      else
        AfterQuote(amountIn, decimals, isToken0In, reserveOut,
                   quoter(SlippageRequest(tm, chain, amountIn, tokenFrom, tokenTo, decimals)), chain.sqrtPriceX96)
  }

  // ---------------------------------------------------------------------
  // The first-generation SushiSwap service

  /**
   * `get_liquidity` of the first-generation SushiSwap service: the USD value of the pool's
   * balances at the prices in `prices`, keyed by the two addresses exactly as given. None
   * unless exactly two addresses are given, both balance reads succeed and both addresses
   * have a price.
   */
  function SushiLiquidity(tokenAddresses: seq<string>, decimals: (nat, nat), prices: map<string, real>,
                          balance0Read: Option<nat>, balance1Read: Option<nat>): (r: Option<real>)
    ensures r.Some? <==>
              |tokenAddresses| == 2 && balance0Read.Some? && balance1Read.Some? &&
              tokenAddresses[0] in prices && tokenAddresses[1] in prices
    ensures r.Some? && prices[tokenAddresses[0]] >= 0.0 && prices[tokenAddresses[1]] >= 0.0 ==> r.value >= 0.0
  {
    if |tokenAddresses| != 2 then None
    else
      match (balance0Read, balance1Read)
      case (Some(b0), Some(b1)) =>
        if tokenAddresses[0] !in prices || tokenAddresses[1] !in prices then None
        else Some(CalculateLiquidity(b0, b1, decimals.0, decimals.1, prices[tokenAddresses[0]], prices[tokenAddresses[1]]))
      case _ => None
  }

  /**
   * The SushiSwap liquidity is the normalised balances of the base `get_liquidity`, each
   * weighted by its token's price.
   */
  lemma SushiLiquidityIsPricedBalances(tokenAddresses: seq<string>, decimals: (nat, nat), prices: map<string, real>,
                                       balance0Read: Option<nat>, balance1Read: Option<nat>)
    requires SushiLiquidity(tokenAddresses, decimals, prices, balance0Read, balance1Read).Some?
    ensures var balances := GetLiquidity(balance0Read, balance1Read, decimals).value;
            SushiLiquidity(tokenAddresses, decimals, prices, balance0Read, balance1Read).value
              == balances.0 * prices[tokenAddresses[0]] + balances.1 * prices[tokenAddresses[1]]
  {
  }

  /**
   * `get_transaction_cost` of the first-generation SushiSwap service: the constant fee of the
   * 0.3% tier, whatever the pool.
   */
  function SushiTransactionCost(poolAddress: string, decimals: (nat, nat)): (r: Option<real>)
    ensures r == Some(FeeFraction(3000))
  {
    FeeFractionExamples();
    Some(0.003)
  }
}

=== FILE: price_feeds.dfy ===
/**
 * The USD price sources: DefiLlama's current-price endpoint
 * (aggregator-backend/services/defillama_service.py) and the first generation's CoinGecko
 * batch request (`get_prices_from_coingecko` of utils.py). The HTTP exchange is a
 * parameter `respond(request, attempt)`: the outcome of the attempt-th try (from 0) of the
 * given request. Only the retry bound and the shaping of the answer are modelled.
 */
module PriceFeeds {
  import opened Wrappers
  import opened Text

  /** Every request is tried at most three times (`for _ in range(3)`). */
  const MaxAttempts: nat := 3

  /** One DefiLlama attempt: a `RequestException`, or the parsed `coins` object as key to price. */
  datatype Response = RequestFailed | Coins(prices: map<string, real>)

  /** `_format_key`: the chain, a colon, and the lower-cased address. */
  function FormatKey(chain: string, address: string): (r: string)
    ensures |r| == |chain| + 1 + |address|
    ensures r[..|chain|] == chain && r[|chain|] == ':' && r[|chain| + 1..] == Lower(address)
  {
    chain + [':'] + Lower(address)
  }

  /** On one chain, two addresses share a key exactly when they are equal ignoring case. */
  lemma FormatKeyIdentifiesAddress(chain: string, a: string, b: string)
    ensures FormatKey(chain, a) == FormatKey(chain, b) <==> SameIgnoringCase(a, b)
  {
    if FormatKey(chain, a) == FormatKey(chain, b) {
      assert FormatKey(chain, a)[|chain| + 1..] == FormatKey(chain, b)[|chain| + 1..];
    }
  }

  /**
   * `get_price`: tries the single-key request until an attempt gets an answer, at most three
   * times. An answer without a price for the key is None at once, without a retry; three
   * failed attempts are None as well. `attempts` counts the tries made.
   */
  method GetPrice(chain: string, address: string, respond: (string, nat) -> Response)
    returns (price: Option<real>, attempts: nat)
    ensures 1 <= attempts <= MaxAttempts
    ensures forall i :: 0 <= i < attempts - 1 ==> respond(FormatKey(chain, address), i).RequestFailed?
    ensures respond(FormatKey(chain, address), attempts - 1).Coins? ==>
              price == Get(respond(FormatKey(chain, address), attempts - 1).prices, FormatKey(chain, address))
    ensures respond(FormatKey(chain, address), attempts - 1).RequestFailed? ==>
              attempts == MaxAttempts && price.None?
  {
    var key := FormatKey(chain, address);
    attempts := 0;
    while attempts < MaxAttempts
      invariant attempts <= MaxAttempts
      invariant forall i :: 0 <= i < attempts ==> respond(key, i).RequestFailed?
    {
      var response := respond(key, attempts);
      attempts := attempts + 1;
      if response.Coins? {
        return Get(response.prices, key), attempts;
      }
    }
    price := None;
  }

  /** The keys of a batch request, one per address, in order. */
  function BatchKeys(chain: string, addresses: seq<string>): (keys: seq<string>)
    ensures |keys| == |addresses|
    ensures forall i :: 0 <= i < |addresses| ==> keys[i] == FormatKey(chain, addresses[i])
  {
    if addresses == [] then []
    else [FormatKey(chain, addresses[0])] + BatchKeys(chain, addresses[1..])
  }

  /** The batch request: the keys joined with commas. */
  function BatchRequest(chain: string, addresses: seq<string>): (r: string)
    ensures |addresses| >= 1 && ',' !in chain && (forall a :: a in addresses ==> ',' !in a) ==>
              Split(r, ',') == BatchKeys(chain, addresses)
  {
    assert |addresses| >= 1 && ',' !in chain && (forall a :: a in addresses ==> ',' !in a) ==>
             Split(Join(BatchKeys(chain, addresses), ','), ',') == BatchKeys(chain, addresses) by {
      if |addresses| >= 1 && ',' !in chain && (forall a :: a in addresses ==> ',' !in a) {
        BatchRequestRecoversKeys(chain, addresses);
      }
    }
    Join(BatchKeys(chain, addresses), ',')
  }

  /**
   * When neither the chain nor any address holds a comma, the batch request can be split
   * back into exactly the keys it was built from, so the server sees every address once.
   */
  lemma BatchRequestRecoversKeys(chain: string, addresses: seq<string>)
    requires |addresses| >= 1
    requires ',' !in chain
    requires forall a :: a in addresses ==> ',' !in a
    ensures Split(Join(BatchKeys(chain, addresses), ','), ',') == BatchKeys(chain, addresses)
  {
    var keys := BatchKeys(chain, addresses);
    forall k | k in keys
      ensures ',' !in k
    {
      var i :| 0 <= i < |keys| && keys[i] == k;
      var a := addresses[i];
      assert a in addresses;
      var low := Lower(a);
      forall j | 0 <= j < |low|
        ensures low[j] != ','
      {
        assert a[j] != ',';
      }
      assert k == chain + [':'] + low;
    }
    SplitJoin(keys, ',');
  }

  /**
   * The loop that shapes a batch answer: every address gets the price under its key,
   * or None when the answer has none.
   */
  method ShapeBatch(chain: string, addresses: seq<string>, prices: map<string, real>)
    returns (out: map<string, Option<real>>)
    ensures out.Keys == set a | a in addresses
    ensures forall a :: a in addresses ==> out[a] == Get(prices, FormatKey(chain, a))
  {
    out := map[];
    for j := 0 to |addresses|
      invariant out.Keys == set a | a in addresses[..j]
      invariant forall a :: a in out ==> out[a] == Get(prices, FormatKey(chain, a))
    {
      out := out[addresses[j] := Get(prices, FormatKey(chain, addresses[j]))];
    }
    assert addresses[..|addresses|] == addresses;
  }

  /**
   * `get_prices_batch`: {} for no addresses, without a request. Otherwise the batch request is
   * tried up to three times; the first answer gives every address the price under its key,
   * or None, and three failures give every address None.
   */
  method GetPricesBatch(chain: string, addresses: seq<string>, respond: (string, nat) -> Response)
    returns (out: map<string, Option<real>>, attempts: nat)
    ensures addresses == [] ==> out == map[] && attempts == 0
    ensures addresses != [] ==> 1 <= attempts <= MaxAttempts
    ensures out.Keys == set a | a in addresses
    ensures forall i :: 0 <= i < attempts - 1 ==> respond(BatchRequest(chain, addresses), i).RequestFailed?
    ensures attempts >= 1 && respond(BatchRequest(chain, addresses), attempts - 1).Coins? ==>
              forall a :: a in addresses ==>
                out[a] == Get(respond(BatchRequest(chain, addresses), attempts - 1).prices, FormatKey(chain, a))
    ensures attempts >= 1 && respond(BatchRequest(chain, addresses), attempts - 1).RequestFailed? ==>
              attempts == MaxAttempts && forall a :: a in addresses ==> out[a].None?
  {
    if addresses == [] {
      return map[], 0;
    }
    var request := BatchRequest(chain, addresses);
    attempts := 0;
    while attempts < MaxAttempts
      invariant attempts <= MaxAttempts
      invariant forall i :: 0 <= i < attempts ==> respond(request, i).RequestFailed?
    {
      var response := respond(request, attempts);
      attempts := attempts + 1;
      if response.Coins? {
        out := ShapeBatch(chain, addresses, response.prices);
        return;
      }
    }
    out := map a | a in addresses :: None;
  }

  /**
   * The body the retry loop settles on from attempt `i` on: the first answer, with the
   * number of attempts made so far, or {} once the attempts are used up.
   */
  function CoinGeckoAnswer(request: string, respond: (string, nat) -> Option<map<string, real>>, i: nat)
    : (r: (map<string, real>, nat))
    requires i <= MaxAttempts
    ensures i <= r.1 <= MaxAttempts
    ensures r.1 == i ==> i == MaxAttempts && r.0 == map[]
    ensures r.1 > i && respond(request, r.1 - 1).Some? ==> r.0 == respond(request, r.1 - 1).value
    decreases MaxAttempts - i
  {
    if i == MaxAttempts then (map[], MaxAttempts)
    else
      match respond(request, i)
      case Some(body) => (body, i + 1)
      case None => CoinGeckoAnswer(request, respond, i + 1)
  }

  /**
   * `get_prices_from_coingecko` of utils.py: the request for the ids joined with commas,
   * tried up to three times; the first answer (the decoded JSON, here id to USD price) is
   * returned as it is, and three failures give {}.
   */
  method GetPricesFromCoinGecko(tokenIds: seq<string>, respond: (string, nat) -> Option<map<string, real>>)
    returns (body: map<string, real>, attempts: nat)
    ensures (body, attempts) == CoinGeckoAnswer(Join(tokenIds, ','), respond, 0)
    ensures 1 <= attempts <= MaxAttempts
    ensures forall i :: 0 <= i < attempts - 1 ==> respond(Join(tokenIds, ','), i).None?
    ensures respond(Join(tokenIds, ','), attempts - 1).Some? ==> body == respond(Join(tokenIds, ','), attempts - 1).value
    ensures respond(Join(tokenIds, ','), attempts - 1).None? ==> attempts == MaxAttempts && body == map[]
  {
    var request := Join(tokenIds, ',');
    attempts := 0;
    while attempts < MaxAttempts
      invariant attempts <= MaxAttempts
      invariant forall i :: 0 <= i < attempts ==> respond(request, i).None?
      invariant CoinGeckoAnswer(request, respond, 0) == CoinGeckoAnswer(request, respond, attempts)
    {
      var response := respond(request, attempts);
      attempts := attempts + 1;
      if response.Some? {
        return response.value, attempts;
      }
    }
    body := map[];
  }
}

=== FILE: price_math.dfy ===
/**
 * Decimal price math of the quote pipeline (aggregator-backend/services/calculation_service.py):
 * decoding Uniswap V3's Q64.96 square-root price into a decimal-adjusted mid-price,
 * and the clamped slippage of an actual fill against that mid-price.
 * Python's `Decimal` (precision 50) is modelled as exact `real` arithmetic.
 */
module PriceMath {

  /** 2^96, the fixed-point scale of `sqrtPriceX96`. */
  const Q96: nat := 0x1_0000_0000_0000_0000_0000_0000

  /** 10^n as an exact number (Python's `10 ** n` for n >= 0). */
  function Pow10Nat(n: nat): (r: real)
    ensures r >= 1.0
  {
    if n == 0 then 1.0 else 10.0 * Pow10Nat(n - 1)
  }

  lemma {:induction false} Pow10NatAdd(a: nat, b: nat)
    ensures Pow10Nat(a + b) == Pow10Nat(a) * Pow10Nat(b)
  {
    if a > 0 {
      Pow10NatAdd(a - 1, b);
      assert Pow10Nat(a + b) == 10.0 * Pow10Nat(a - 1 + b);
    }
  }

  /** `Decimal(10) ** e` for a possibly negative integer exponent. */
  function Pow10(e: int): (r: real)
    ensures r > 0.0
  {
    if e >= 0 then Pow10Nat(e) else 1.0 / Pow10Nat(-e)
  }

  /** 10^-k is the reciprocal of 10^k. */
  lemma Pow10Reciprocal(k: nat)
    ensures Pow10(-(k as int)) * Pow10Nat(k) == 1.0
  {
    if k > 0 {
      var pk := Pow10Nat(k);
      assert Pow10(-(k as int)) == 1.0 / pk;
    }
  }

  /** The exponent rule behind the decimals adjustment: 10^(a-b) * 10^b = 10^a. */
  lemma {:induction false} Pow10Diff(a: nat, b: nat)
    ensures Pow10(a as int - b as int) * Pow10Nat(b) == Pow10Nat(a)
  {
    if a >= b {
      Pow10NatAdd(a - b, b);
    } else {
      var k: nat := b - a;
      Pow10NatAdd(k, a);
      Pow10Reciprocal(k);
      ProductRule(Pow10(-(k as int)), Pow10Nat(k), Pow10Nat(a));
    }
  }

  /** Regrouping a product of three factors when the first two multiply to one. */
  lemma ProductRule(x: real, y: real, z: real)
    requires x * y == 1.0
    ensures x * (y * z) == z
  {
    calc {
      x * (y * z);
      (x * y) * z;
      z;
    }
  }

  lemma Pow10Negate(e: int)
    ensures Pow10(-e) == 1.0 / Pow10(e)
  {
  }

  /** (sqrt_price_x96 / 2^96)^2: the raw token1-per-token0 price held by the pool. */
  function ChainPrice(sqrtPriceX96: nat): (r: real)
    ensures r >= 0.0
    ensures r == 0.0 <==> sqrtPriceX96 == 0
  {
    var ratio := sqrtPriceX96 as real / Q96 as real;
    assert ratio != 0.0 ==> ratio * ratio > 0.0;
    ratio * ratio
  }

  /** A positive chain price scaled by a positive factor stays positive. */
  lemma ScaledPositive(x: real, s: real)
    requires x > 0.0 && s > 0.0
    ensures x * s > 0.0
  {
  }

  /**
   * `mid_price_from_univ3_sqrt`: the mid-price quoted as output tokens per input token.
   * For token1 input the source inverts without a zero guard, so callers must not pass a
   * zero square-root price with token1 input (the Decimal division would raise).
   */
  function MidPriceFromSqrt(sqrtPriceX96: nat, dec0: nat, dec1: nat, isToken0In: bool): (r: real)
    requires isToken0In || sqrtPriceX96 != 0
    ensures sqrtPriceX96 > 0 ==> r > 0.0
    ensures r >= 0.0
  {
    var p0To1 := ChainPrice(sqrtPriceX96) * Pow10(dec0 as int - dec1 as int);
    if isToken0In then
      p0To1
    else
      ScaledPositive(ChainPrice(sqrtPriceX96), Pow10(dec0 as int - dec1 as int));
      1.0 / p0To1
  }

  /**
   * Meaning of the token0-input mid-price: the pool's raw price converted from base units
   * to whole tokens, i.e. multiplied by 10^dec0 and divided by 10^dec1.
   */
  lemma {:induction false} MidPriceToken0Meaning(sqrtPriceX96: nat, dec0: nat, dec1: nat)
    ensures MidPriceFromSqrt(sqrtPriceX96, dec0, dec1, true) * Pow10Nat(dec1)
         == ChainPrice(sqrtPriceX96) * Pow10Nat(dec0)
  {
    Pow10Diff(dec0, dec1);
    var c := ChainPrice(sqrtPriceX96);
    var e := Pow10(dec0 as int - dec1 as int);
    var d1 := Pow10Nat(dec1);
    assert MidPriceFromSqrt(sqrtPriceX96, dec0, dec1, true) == c * e;
    assert (c * e) * d1 == c * (e * d1);
  }

  /** The token1-input mid-price is exactly the reciprocal of the token0-input one. */
  lemma MidPriceReciprocal(sqrtPriceX96: nat, dec0: nat, dec1: nat)
    requires sqrtPriceX96 != 0
    ensures MidPriceFromSqrt(sqrtPriceX96, dec0, dec1, false)
         == 1.0 / MidPriceFromSqrt(sqrtPriceX96, dec0, dec1, true)
    ensures MidPriceFromSqrt(sqrtPriceX96, dec0, dec1, false)
          * MidPriceFromSqrt(sqrtPriceX96, dec0, dec1, true) == 1.0
  {
    var p := MidPriceFromSqrt(sqrtPriceX96, dec0, dec1, true);
    assert p > 0.0;
    assert (1.0 / p) * p == 1.0;
  }

  /**
   * `slippage_from_mid_and_actual`: the fractional shortfall of the actual output against
   * the ideal output amount_in * mid_price, clamped at 0; 0 when the input or the
   * mid-price is not positive.
   */
  function SlippageFromMidAndActual(amountIn: real, midPrice: real, actualOut: real): (r: real)
    ensures r >= 0.0
    ensures actualOut >= 0.0 ==> r <= 1.0
    ensures amountIn <= 0.0 || midPrice <= 0.0 ==> r == 0.0
    ensures amountIn > 0.0 && midPrice > 0.0 && actualOut >= amountIn * midPrice ==> r == 0.0
    ensures amountIn > 0.0 && midPrice > 0.0 && actualOut < amountIn * midPrice ==> r > 0.0
    // the actual fill is the ideal output reduced by the slippage fraction
    ensures amountIn > 0.0 && midPrice > 0.0 && actualOut <= amountIn * midPrice ==>
              actualOut == amountIn * midPrice * (1.0 - r)
  {
    if amountIn <= 0.0 || midPrice <= 0.0 then 0.0
    else
      var idealOut := amountIn * midPrice;
      ScaledPositive(amountIn, midPrice);
      if idealOut <= 0.0 then 0.0
      else
        var s := (idealOut - actualOut) / idealOut;
        assert idealOut * s == idealOut - actualOut;
        if s > 0.0 then s else 0.0
  }

  /** The worked example: 100 in at mid-price 2 with 180 out is 10% slippage. */
  lemma SlippageExample()
    ensures SlippageFromMidAndActual(100.0, 2.0, 180.0) == 0.1
  {
  }
}

=== FILE: quoting.dfy ===
/**
 * What the three second-generation adapters share when they quote a swap: how token0 is
 * found, the request sent to a pool's quoter contract, and the conversion of the quoter's
 * integer answer back to whole tokens.
 */
module Quoting {
  import opened Wrappers
  import opened Text
  import opened Units
  import opened PriceMath

  /**
   * One `quoteExactInputSingle` call: input and output token, the fee tier (None for
   * Camelot's quoter, which takes none), the input in base units and the price limit,
   * which every adapter sets to 0.
   */
  datatype QuoteRequest = QuoteRequest(tokenIn: string, tokenOut: string, feeTier: Option<int>,
                                       amountInWei: int, sqrtPriceLimit: nat)

  /**
   * The pool's token0 as the SushiSwap and Camelot adapters find it: the first of the
   * supplied addresses when exactly two are supplied, otherwise the chain's `token0()`
   * (None when that read fails); lower-cased either way. No supplied addresses (Python's
   * None) is the empty sequence.
   */
  function Token0Of(tokenAddresses: seq<string>, token0Read: Option<string>): (r: Option<string>)
    ensures |tokenAddresses| == 2 ==> r == Some(Lower(tokenAddresses[0]))
    ensures |tokenAddresses| != 2 ==> r.Some? == token0Read.Some?
    ensures |tokenAddresses| != 2 && r.Some? ==> r.value == Lower(token0Read.value)
  {
    if |tokenAddresses| == 2 then Some(Lower(tokenAddresses[0]))
    else match token0Read
      case None => None
      case Some(t) => Some(Lower(t))
  }

  /** With two supplied addresses the chain's token0 is never consulted. */
  lemma Token0OfIgnoresChainWhenSupplied(tokenAddresses: seq<string>, read1: Option<string>, read2: Option<string>)
    requires |tokenAddresses| == 2
    ensures Token0Of(tokenAddresses, read1) == Token0Of(tokenAddresses, read2)
  {
  }

  /**
   * Direction and decimals of a quote: dec_in is dec0 when token0 is the input and dec1
   * otherwise; the input is converted to base units truncating toward zero.
   */
  function QuoteInputUnits(amountIn: real, isToken0In: bool, decimals: (nat, nat)): (r: int)
    ensures amountIn >= 0.0 ==> r >= 0
    ensures isToken0In ==> r == ToBaseUnits(amountIn, decimals.0)
    ensures !isToken0In ==> r == ToBaseUnits(amountIn, decimals.1)
  {
    ToBaseUnits(amountIn, DecIn(isToken0In, decimals))
  }

  /** The quoter's integer output in whole output tokens (dec_out is the other decimals). */
  function QuoteOutput(amountOutWei: nat, isToken0In: bool, decimals: (nat, nat)): (r: real)
    ensures r >= 0.0
    ensures r == 0.0 <==> amountOutWei == 0
    ensures r * Pow10Nat(DecOut(isToken0In, decimals)) == amountOutWei as real
    ensures ToBaseUnits(r, DecOut(isToken0In, decimals)) == amountOutWei
  {
    BaseUnitsRoundTrip(amountOutWei, DecOut(isToken0In, decimals));
    FromBaseUnits(amountOutWei, DecOut(isToken0In, decimals))
  }
}

=== FILE: routes.dfy ===
/**
 * The second generation's `/exchange` and `/config` endpoints
 * (aggregator-backend/routes.py): the symbols are upper-cased, the three DEX pipelines are
 * run, the failures dropped and the other results concatenated in DEX order, the routes
 * ranked by TOPSIS, and each ranked route turned into a response entry with its
 * percentage change; no route at all is a 404.
 *
 * A DEX pipeline is the parameter `runDex(dex, from, to, amount)`, whose outcome is either
 * an exception or the route list of `process_dex_pools`; the three run one after the other
 * here, where the source awaits them together.
 */
module Routes {
  import opened Wrappers
  import opened Text
  import opened Sorting
  import opened Tokens
  import opened DecisionEngine
  import opened ExchangeUtils

  /** One DEX pipeline's outcome under `asyncio.gather(..., return_exceptions=True)`. */
  datatype DexResult = Raised | Returned(options: seq<TransactionOption>)

  /** The DEXes in the order their results are merged. */
  const DexNames: seq<string> := ["Uniswap", "SushiSwap", "Camelot"]

  /** A response entry (`FrontendTransactionOption` with the fields the endpoint passes). */
  datatype FrontendOption = FrontendOption(
    dex: string, pair: string, amountFrom: real, amountTo: real, valueFromUsd: real,
    valueToUsd: real, liquidity: real, dexFee: real, gasCost: real, percentageChange: real)

  /** The endpoint's answer: the ranked entries, or the 404 "No exchange options available." */
  datatype Response = Options(options: seq<FrontendOption>) | NotFound

  /** The three pipelines' outcomes for the upper-cased request, in DEX order. */
  function Results(tokenFrom: string, tokenTo: string, amount: real,
                   runDex: (string, string, string, real) -> DexResult): (r: seq<DexResult>)
    ensures |r| == |DexNames|
    ensures forall i :: 0 <= i < |DexNames| ==> r[i] == runDex(DexNames[i], Upper(tokenFrom), Upper(tokenTo), amount)
  {
    seq(|DexNames|, i requires 0 <= i < |DexNames| => runDex(DexNames[i], Upper(tokenFrom), Upper(tokenTo), amount))
  }

  /** The routes of the pipelines that returned, concatenated in order; exceptions are dropped. */
  function Merge(results: seq<DexResult>): (all: seq<TransactionOption>)
    ensures forall o :: o in all <==> exists i :: 0 <= i < |results| && results[i].Returned? && o in results[i].options
  {
    if results == [] then []
    else
      var init := Merge(results[..|results| - 1]);
      var last := results[|results| - 1];
      assert forall i :: 0 <= i < |results| - 1 ==> results[..|results| - 1][i] == results[i];
      if last.Returned? then init + last.options else init
  }

  /** The merged list is exactly as long as the returned lists together. */
  lemma {:induction false} MergeLength(results: seq<DexResult>)
    ensures |Merge(results)| == ReturnedCount(results)
  {
    if results != [] {
      MergeLength(results[..|results| - 1]);
    }
  }

  /** The number of routes the returned pipelines produced. */
  function ReturnedCount(results: seq<DexResult>): nat
  {
    if results == [] then 0
    else
      var last := results[|results| - 1];
      ReturnedCount(results[..|results| - 1]) + (if last.Returned? then |last.options| else 0)
  }

  /** A pipeline that raised adds nothing: the merge is that of the others. */
  lemma {:induction false} MergeSkipsRaised(results: seq<DexResult>, i: nat)
    requires i < |results| && results[i].Raised?
    ensures Merge(results) == Merge(results[..i] + results[i + 1..])
    decreases |results|
  {
    var n := |results|;
    if i < n - 1 {
      var rest := results[..i] + results[i + 1..];
      assert rest[..|rest| - 1] == results[..n - 1][..i] + results[..n - 1][i + 1..];
      assert rest[|rest| - 1] == results[n - 1];
      MergeSkipsRaised(results[..n - 1], i);
    } else {
      assert results[..i] + results[i + 1..] == results[..n - 1];
    }
  }

  /** The raw route the ranking sees. */
  function ToRaw(o: TransactionOption): (r: RawOption)
    ensures r.dex == o.dex && r.pool == o.pool && r.amountTo == o.amountTo
    ensures r.liquidity == o.liquidity && r.dexFee == o.dexFee && r.gasCost == o.gasCost
  {
    RawOption(o.dex, o.pool, o.amountTo, o.liquidity, o.dexFee, o.gasCost)
  }

  /** `raw_options`: one raw route per route, in order. */
  function RawOptions(all: seq<TransactionOption>): (raw: seq<RawOption>)
    ensures |raw| == |all|
    ensures forall i :: 0 <= i < |all| ==> raw[i] == ToRaw(all[i])
  {
    seq(|all|, i requires 0 <= i < |all| => ToRaw(all[i]))
  }

  /** The key of a route in the full-option map. */
  function OptionKey(o: TransactionOption): (string, string)
  {
    (o.dex, o.pool)
  }

  /** `full_option_map`: routes by (dex, pool); a later route replaces an earlier one with the same key. */
  function FullOptionMap(all: seq<TransactionOption>): (m: map<(string, string), TransactionOption>)
    ensures forall k :: k in m <==> exists i :: 0 <= i < |all| && OptionKey(all[i]) == k
    ensures forall k :: k in m ==> OptionKey(m[k]) == k
  {
    if all == [] then map[]
    else
      var init := all[..|all| - 1];
      var last := all[|all| - 1];
      assert forall i :: 0 <= i < |init| ==> init[i] == all[i];
      FullOptionMap(init)[OptionKey(last) := last]
  }

  /** The map holds, for each key, the LAST route with that key. */
  lemma {:induction false} FullOptionMapLastWins(all: seq<TransactionOption>, j: nat)
    requires j < |all|
    requires forall i :: j < i < |all| ==> OptionKey(all[i]) != OptionKey(all[j])
    ensures OptionKey(all[j]) in FullOptionMap(all)
    ensures FullOptionMap(all)[OptionKey(all[j])] == all[j]
  {
    if j < |all| - 1 {
      var init := all[..|all| - 1];
      assert forall i :: j < i < |init| ==> init[i] == all[i];
      FullOptionMapLastWins(init, j);
    }
  }

  /**
   * The percentage change from the USD value paid to the USD value received, when both are
   * positive, and 0 otherwise.
   */
  function PercentageChange(valueFromUsd: real, valueToUsd: real): (r: real)
    ensures !(valueFromUsd > 0.0 && valueToUsd > 0.0) ==> r == 0.0
    ensures valueFromUsd > 0.0 && valueToUsd > 0.0 ==>
              (r > 0.0 <==> valueToUsd > valueFromUsd) && (r == 0.0 <==> valueToUsd == valueFromUsd) && r > -100.0
  {
    if valueFromUsd > 0.0 && valueToUsd > 0.0 then
      var r := (valueToUsd - valueFromUsd) / valueFromUsd * 100.0;
      RatioFacts(valueToUsd - valueFromUsd, valueFromUsd);
      r
    else 0.0
  }

  /** Sign and lower bound of d / v * 100 for a positive v. */
  lemma RatioFacts(d: real, v: real)
    requires v > 0.0
    ensures d / v * 100.0 > 0.0 <==> d > 0.0
    ensures d / v * 100.0 == 0.0 <==> d == 0.0
    ensures d > -v ==> d / v * 100.0 > -100.0
  {
    var q := d / v;
    assert q * v == d;
    if d > -v && q <= -1.0 {
      ScaleKeepsOrder(q, -1.0, v);
      assert false;
    }
  }

  /** Multiplying by a positive number keeps the order. */
  lemma ScaleKeepsOrder(a: real, b: real, v: real)
    requires a <= b && v > 0.0
    ensures a * v <= b * v
  {
    assert (b - a) * v >= 0.0;
  }

  /** Applying the percentage change to the value paid gives back the value received. */
  lemma PercentageChangeRecoversValue(valueFromUsd: real, valueToUsd: real)
    requires valueFromUsd > 0.0 && valueToUsd > 0.0
    ensures valueFromUsd + valueFromUsd * (PercentageChange(valueFromUsd, valueToUsd) / 100.0) == valueToUsd
  {
    var d := valueToUsd - valueFromUsd;
    var q := d / valueFromUsd;
    assert q * valueFromUsd == d;
    var p := PercentageChange(valueFromUsd, valueToUsd);
    assert p == q * 100.0;
    assert p / 100.0 == q;
    assert valueFromUsd * q == d;
  }

  /** The response entry for a full route. */
  function Entry(full: TransactionOption): (e: FrontendOption)
    ensures e.dex == full.dex && e.pair == full.pool
    ensures e.amountFrom == full.amountFrom && e.amountTo == full.amountTo
    ensures e.valueFromUsd == full.valueFromUsd && e.valueToUsd == full.valueToUsd
    ensures e.liquidity == full.liquidity && e.dexFee == full.dexFee && e.gasCost == full.gasCost
    ensures e.percentageChange == PercentageChange(full.valueFromUsd, full.valueToUsd)
  {
    FrontendOption(full.dex, full.pool, full.amountFrom, full.amountTo, full.valueFromUsd,
      full.valueToUsd, full.liquidity, full.dexFee, full.gasCost,
      PercentageChange(full.valueFromUsd, full.valueToUsd))
  }

  /** The entries for the ranked raw routes: each looked up by (dex, pool), skipped when absent. */
  function Remap(ranked: seq<RawOption>, full: map<(string, string), TransactionOption>): (r: seq<FrontendOption>)
    ensures |r| <= |ranked|
    ensures (forall i :: 0 <= i < |ranked| ==> (ranked[i].dex, ranked[i].pool) in full) ==>
              |r| == |ranked| &&
              forall i :: 0 <= i < |ranked| ==> r[i] == Entry(full[(ranked[i].dex, ranked[i].pool)])
  {
    if ranked == [] then []
    else
      var init := ranked[..|ranked| - 1];
      var last := ranked[|ranked| - 1];
      assert forall i :: 0 <= i < |init| ==> init[i] == ranked[i];
      var key := (last.dex, last.pool);
      Remap(init, full) + (if key in full then [Entry(full[key])] else [])
  }

  /** Every raw route of the merged list finds its full route in the map. */
  lemma RankedKeysInMap(all: seq<TransactionOption>, num: Numerics)
    requires ValidNumerics(num)
    ensures var ranked := RankOptions(RawOptions(all), num);
            forall i :: 0 <= i < |ranked| ==> (ranked[i].dex, ranked[i].pool) in FullOptionMap(all)
  {
    var raw := RawOptions(all);
    var ranked := RankOptions(raw, num);
    forall i | 0 <= i < |ranked|
      ensures (ranked[i].dex, ranked[i].pool) in FullOptionMap(all)
    {
      assert ranked[i] in multiset(raw);
      var j :| 0 <= j < |raw| && raw[j] == ranked[i];
      assert OptionKey(all[j]) == (ranked[i].dex, ranked[i].pool);
    }
  }

  /** The loop over the gathered outcomes: the routes of the pipelines that returned, in order. */
  method MergeResults(results: seq<DexResult>) returns (all: seq<TransactionOption>)
    ensures all == Merge(results)
  {
    all := [];
    var i := 0;
    while i < |results|
      invariant i <= |results|
      invariant all == Merge(results[..i])
    {
      assert results[..i + 1][..i] == results[..i];
      if results[i].Returned? {
        all := all + results[i].options;
      }
      i := i + 1;
    }
    assert results[..|results|] == results;
  }

  /** The loop over the ranked raw routes: an entry for each one found in the full-option map. */
  method RemapRanked(ranked: seq<RawOption>, full: map<(string, string), TransactionOption>)
    returns (entries: seq<FrontendOption>)
    ensures entries == Remap(ranked, full)
  {
    entries := [];
    var k := 0;
    while k < |ranked|
      invariant k <= |ranked|
      invariant entries == Remap(ranked[..k], full)
    {
      var key := (ranked[k].dex, ranked[k].pool);
      assert ranked[..k + 1][..k] == ranked[..k];
      if key in full {
        entries := entries + [Entry(full[key])];
      }
      k := k + 1;
    }
    assert ranked[..|ranked|] == ranked;
  }

  /** `exchange`: the upper-cased request through the three pipelines, the merge, the ranking and the remap. */
  method Exchange(tokenFrom: string, tokenTo: string, amount: real,
                  runDex: (string, string, string, real) -> DexResult, num: Numerics)
    returns (response: Response)
    requires ValidNumerics(num)
    ensures var all := Merge(Results(tokenFrom, tokenTo, amount, runDex));
            (response.NotFound? <==> all == []) &&
            (response.Options? ==> response.options == Remap(RankOptions(RawOptions(all), num), FullOptionMap(all)))
  {
    var from := Upper(tokenFrom);
    var to := Upper(tokenTo);
    var results := [runDex(DexNames[0], from, to, amount), runDex(DexNames[1], from, to, amount),
                    runDex(DexNames[2], from, to, amount)];
    assert results == Results(tokenFrom, tokenTo, amount, runDex);
    var all := MergeResults(results);
    var ranked := RankOptions(RawOptions(all), num);
    var entries := RemapRanked(ranked, FullOptionMap(all));
    RankedKeysInMap(all, num);
    if entries != [] {
      response := Options(entries);
    } else {
      response := NotFound;
    }
  }

  /**
   * What the response holds when some route survives: one entry per merged route, in the
   * ranking's order, each carrying the data of the last merged route with its (dex, pool).
   */
  lemma ExchangeEntries(all: seq<TransactionOption>, num: Numerics)
    requires ValidNumerics(num) && all != []
    ensures var ranked := RankOptions(RawOptions(all), num);
            var entries := Remap(ranked, FullOptionMap(all));
            |entries| == |all| &&
            forall i :: 0 <= i < |entries| ==>
              entries[i].dex == ranked[i].dex && entries[i].pair == ranked[i].pool &&
              entries[i] == Entry(FullOptionMap(all)[(ranked[i].dex, ranked[i].pool)])
  {
    RankedKeysInMap(all, num);
  }

  /** `get_config`: every configured symbol with its address and its decimals. */
  datatype Config = Config(tokens: map<string, string>, decimals: map<string, nat>)

  function GetConfig(entries: seq<(string, TokenData)>): (c: Config)
    ensures c.tokens.Keys == c.decimals.Keys == SymbolTable(entries).Keys
    ensures forall s :: s in c.tokens ==> c.tokens[s] == SymbolTable(entries)[s].address
    ensures forall s :: s in c.decimals ==> c.decimals[s] == SymbolTable(entries)[s].decimals
  {
    var table := SymbolTable(entries);
    Config(map s | s in table :: table[s].address, map s | s in table :: table[s].decimals)
  }

  /**
   * The configuration agrees with the registry built from the same tokens: an upper-case
   * symbol's configured address is, up to case, the one `get_address_by_symbol` returns.
   */
  lemma ConfigAgreesWithRegistry(entries: seq<(string, TokenData)>, symbol: string)
    requires symbol in GetConfig(entries).tokens && Upper(symbol) == symbol
    ensures GetAddressBySymbol(NewTokenManager(entries), symbol).Some?
    ensures GetAddressBySymbol(NewTokenManager(entries), symbol).value == Lower(GetConfig(entries).tokens[symbol])
  {
  }
}

=== FILE: sorting.dfy ===
/**
 * Python's stable `sort(key=..., reverse=True)` as both rankings use it: the order of the
 * items by non-increasing key, items with equal keys keeping their input order. The sort
 * is computed as a sequence of input positions, from which the sorted items are read.
 */
module Sorting {

  /**
   * Position `i` comes before position `j` in the output: a larger key first, and for equal
   * keys the earlier input position first.
   */
  predicate Before(keys: seq<real>, i: nat, j: nat)
    requires i < |keys| && j < |keys|
  {
    keys[i] > keys[j] || (keys[i] == keys[j] && i < j)
  }

  /** `order` lists positions of `keys` in strictly `Before` order. */
  predicate Ordered(keys: seq<real>, order: seq<nat>)
  {
    (forall k :: 0 <= k < |order| ==> order[k] < |keys|) &&
    (forall a, b :: 0 <= a < b < |order| ==> Before(keys, order[a], order[b]))
  }

  /** `order` holds each of the positions 0 .. n-1 exactly once. */
  predicate IsPermutation(order: seq<nat>, n: nat)
  {
    |order| == n &&
    (forall k :: 0 <= k < |order| ==> order[k] < n) &&
    (forall x :: 0 <= x < n ==> x in order) &&
    (forall a, b :: 0 <= a < b < |order| ==> order[a] != order[b])
  }

  /** An ordered sequence of positions never repeats a position. */
  lemma OrderedIsDistinct(keys: seq<real>, order: seq<nat>)
    requires Ordered(keys, order)
    ensures forall a, b :: 0 <= a < b < |order| ==> order[a] != order[b]
  {
  }

  /**
   * The stable descending sort: the positions of `keys` from the largest key to the
   * smallest, equal keys in input order. Built by inserting each position after every
   * earlier position whose key is at least as large.
   */
  method SortDescending(keys: seq<real>) returns (order: seq<nat>)
    ensures IsPermutation(order, |keys|)
    ensures Ordered(keys, order)
    ensures order == StableOrder(keys)
  {
    order := [];
    var i := 0;
    while i < |keys|
      invariant i <= |keys|
      invariant |order| == i
      invariant forall k :: 0 <= k < |order| ==> order[k] < i
      invariant forall x :: 0 <= x < i ==> x in order
      invariant Ordered(keys, order)
    {
      var k := 0;
      while k < |order| && keys[order[k]] >= keys[i]
        invariant k <= |order|
        invariant forall m :: 0 <= m < k ==> keys[order[m]] >= keys[i]
      {
        k := k + 1;
      }
      InsertKeepsOrder(keys, order, i, k);
      InsertKeepsPositions(order, i, k);
      order := order[..k] + [i] + order[k..];
      i := i + 1;
    }
    OrderedIsDistinct(keys, order);
    SameOrderAsStableOrder(keys, order);
  }

  /**
   * The stable descending sort as a value: the same insertion of each position after every
   * earlier position whose key is at least as large, written by recursion on the prefix.
   */
  function StableOrder(keys: seq<real>): (order: seq<nat>)
    ensures IsPermutation(order, |keys|)
    ensures Ordered(keys, order)
  {
    var order := SortPrefix(keys, |keys|);
    OrderedIsDistinct(keys, order);
    order
  }

  /** The positions 0 .. n-1 sorted by `Before`. */
  function SortPrefix(keys: seq<real>, n: nat): (order: seq<nat>)
    requires n <= |keys|
    ensures |order| == n
    ensures forall k :: 0 <= k < |order| ==> order[k] < n
    ensures forall x :: 0 <= x < n ==> x in order
    ensures Ordered(keys, order)
  {
    if n == 0 then []
    else
      var previous := SortPrefix(keys, n - 1);
      var k := InsertionPoint(keys, previous, n - 1);
      InsertKeepsOrder(keys, previous, n - 1, k);
      InsertKeepsPositions(previous, n - 1, k);
      previous[..k] + [n - 1] + previous[k..]
  }

  /** Inserting position `i` into an arrangement of 0 .. i-1 gives an arrangement of 0 .. i. */
  lemma InsertKeepsPositions(order: seq<nat>, i: nat, k: nat)
    requires k <= |order| == i
    requires forall m :: 0 <= m < |order| ==> order[m] < i
    requires forall x :: 0 <= x < i ==> x in order
    ensures forall m :: 0 <= m < i + 1 ==> (order[..k] + [i] + order[k..])[m] < i + 1
    ensures forall x :: 0 <= x < i + 1 ==> x in order[..k] + [i] + order[k..]
  {
    var r := order[..k] + [i] + order[k..];
    forall x | 0 <= x < i + 1
      ensures x in r
    {
      if x < i {
        assert x in order;
        var j :| 0 <= j < |order| && order[j] == x;
        if j < k {
          assert r[j] == x;
        } else {
          assert r[j + 1] == x;
        }
      } else {
        assert r[k] == i;
      }
    }
  }

  /** Where position `i` is inserted: after every position whose key is at least as large. */
  function InsertionPoint(keys: seq<real>, order: seq<nat>, i: nat): (k: nat)
    requires i < |keys|
    requires forall m :: 0 <= m < |order| ==> order[m] < |keys|
    ensures k <= |order|
    ensures forall m :: 0 <= m < k ==> keys[order[m]] >= keys[i]
    ensures k < |order| ==> keys[order[k]] < keys[i]
  {
    if order == [] || keys[order[0]] < keys[i] then 0
    else 1 + InsertionPoint(keys, order[1..], i)
  }

  /** Any ordering of all positions by `Before` is the one `StableOrder` computes. */
  lemma SameOrderAsStableOrder(keys: seq<real>, order: seq<nat>)
    requires IsPermutation(order, |keys|) && Ordered(keys, order)
    ensures order == StableOrder(keys)
  {
    var stable := StableOrder(keys);
    forall x
      ensures x in order <==> x in stable
    {
      if x in order {
        var k :| 0 <= k < |order| && order[k] == x;
        assert x < |keys|;
      }
      if x in stable {
        var k :| 0 <= k < |stable| && stable[k] == x;
        assert x < |keys|;
      }
    }
    OrderedUnique(keys, order, stable);
  }

  /** Inserting a new, largest position after every position with a key at least as large keeps the order. */
  lemma InsertKeepsOrder(keys: seq<real>, order: seq<nat>, i: nat, k: nat)
    requires i < |keys| && k <= |order|
    requires Ordered(keys, order)
    requires forall k :: 0 <= k < |order| ==> order[k] < i
    requires forall m :: 0 <= m < k ==> keys[order[m]] >= keys[i]
    requires k < |order| ==> keys[order[k]] < keys[i]
    ensures Ordered(keys, order[..k] + [i] + order[k..])
  {
    var r := order[..k] + [i] + order[k..];
    forall a, b | 0 <= a < b < |r|
      ensures Before(keys, r[a], r[b])
    {
      if a < k && b == k {
        assert order[a] < i;
      } else if a == k {
        assert r[b] == order[b - 1];
        assert keys[order[k]] < keys[i];
        if b - 1 > k {
          assert Before(keys, order[k], order[b - 1]);
        }
      } else if a < k && b > k {
        assert r[a] == order[a] && r[b] == order[b - 1];
      } else if a > k {
        assert r[a] == order[a - 1] && r[b] == order[b - 1];
      }
    }
  }

  /** The items read in the order `order`. */
  function Arrange<T>(items: seq<T>, order: seq<nat>): (r: seq<T>)
    requires forall k :: 0 <= k < |order| ==> order[k] < |items|
    ensures |r| == |order|
    ensures forall k :: 0 <= k < |order| ==> r[k] == items[order[k]]
  {
    seq(|order|, k requires 0 <= k < |order| => items[order[k]])
  }

  /** Arranging by a permutation keeps every item, with the same multiplicity. */
  lemma {:induction false} ArrangePermutes<T>(items: seq<T>, order: seq<nat>)
    requires IsPermutation(order, |items|)
    ensures multiset(Arrange(items, order)) == multiset(items)
    decreases |items|
  {
    var n := |items|;
    if n == 0 {
      return;
    }
    var p := PositionOf(order, n - 1);
    RemoveLargest(order, n, p);
    ArrangePermutes(items[..n - 1], order[..p] + order[p + 1..]);
    ArrangeAroundLast(items, order, p);
  }

  /**
   * When the positions other than the last one's, read from the prefix without the last
   * item, give that prefix's items, the whole order gives all the items.
   */
  lemma ArrangeAroundLast<T>(items: seq<T>, order: seq<nat>, p: nat)
    requires |items| >= 1 && p < |order| && order[p] == |items| - 1
    requires forall k :: 0 <= k < |order| && k != p ==> order[k] < |items| - 1
    requires multiset(Arrange(items[..|items| - 1], order[..p] + order[p + 1..])) == multiset(items[..|items| - 1])
    ensures multiset(Arrange(items, order)) == multiset(items)
  {
    var front, before, after := items[..|items| - 1], order[..p], order[p + 1..];
    ArrangeAroundLargest(items, order, p);
    ArrangeConcat(front, before, after);
    MultisetAroundLast(items, Arrange(front, before), Arrange(front, after), Arrange(items, order));
  }

  /** Putting the last item between two parts that together hold the others gives all the items. */
  lemma MultisetAroundLast<T>(items: seq<T>, left: seq<T>, right: seq<T>, arranged: seq<T>)
    requires |items| >= 1
    requires arranged == left + [items[|items| - 1]] + right
    requires multiset(left) + multiset(right) == multiset(items[..|items| - 1])
    ensures multiset(arranged) == multiset(items)
  {
    assert items == items[..|items| - 1] + [items[|items| - 1]];
  }

  /**
   * Splitting the arrangement at the position of the last item: the rest reads the same
   * items from the prefix without it.
   */
  lemma ArrangeAroundLargest<T>(items: seq<T>, order: seq<nat>, p: nat)
    requires |items| >= 1 && p < |order| && order[p] == |items| - 1
    requires forall k :: 0 <= k < |order| && k != p ==> order[k] < |items| - 1
    ensures Arrange(items, order)
         == Arrange(items[..|items| - 1], order[..p]) + [items[|items| - 1]]
            + Arrange(items[..|items| - 1], order[p + 1..])
  {
  }

  /** Arranging by a concatenation is the concatenation of the arrangements. */
  lemma ArrangeConcat<T>(items: seq<T>, o1: seq<nat>, o2: seq<nat>)
    requires forall k :: 0 <= k < |o1| ==> o1[k] < |items|
    requires forall k :: 0 <= k < |o2| ==> o2[k] < |items|
    ensures Arrange(items, o1 + o2) == Arrange(items, o1) + Arrange(items, o2)
  {
  }

  /** Positions inside a prefix read the same items from the prefix as from the whole. */
  lemma ArrangePrefix<T>(items: seq<T>, front: seq<T>, o: seq<nat>)
    requires |front| <= |items| && front == items[..|front|]
    requires forall k :: 0 <= k < |o| ==> o[k] < |front|
    ensures Arrange(items, o) == Arrange(front, o)
  {
  }

  /** Removing the largest position n-1 from a permutation of 0 .. n-1 leaves one of 0 .. n-2. */
  lemma RemoveLargest(order: seq<nat>, n: nat, p: nat)
    requires n >= 1 && IsPermutation(order, n)
    requires p < |order| && order[p] == n - 1
    ensures IsPermutation(order[..p] + order[p + 1..], n - 1)
    ensures forall k :: 0 <= k < |order| && k != p ==> order[k] < n - 1
  {
    var rest := order[..p] + order[p + 1..];
    forall k | 0 <= k < |rest|
      ensures rest[k] < n - 1
    {
      var j := if k < p then k else k + 1;
      assert order[j] == rest[k] && j != p;
    }
    forall x | 0 <= x < n - 1
      ensures x in rest
    {
      {
        assert x in order;
        var j :| 0 <= j < |order| && order[j] == x;
        assert j != p;
        if j < p {
          assert rest[j] == x;
        } else {
          assert rest[j - 1] == x;
        }
      }
    }
    forall a, b | 0 <= a < b < |rest|
      ensures rest[a] != rest[b]
    {
      var ja := if a < p then a else a + 1;
      var jb := if b < p then b else b + 1;
      assert rest[a] == order[ja] && rest[b] == order[jb] && ja < jb;
    }
  }

  /** Where position `x` sits in `order`. */
  function PositionOf(order: seq<nat>, x: nat): (k: nat)
    requires x in order
    ensures k < |order| && order[k] == x
  {
    if order[0] == x then 0 else 1 + PositionOf(order[1..], x)
  }

  /** Two orderings of the same positions by `Before` are the same: the sort's result is determined. */
  lemma {:induction false} OrderedUnique(keys: seq<real>, p: seq<nat>, q: seq<nat>)
    requires Ordered(keys, p) && Ordered(keys, q)
    requires |p| == |q|
    requires forall x :: x in p <==> x in q
    ensures p == q
    decreases |p|
  {
    if |p| > 0 {
      HeadsAgree(keys, p, q);
      OrderedIsDistinct(keys, p);
      OrderedIsDistinct(keys, q);
      forall x
        ensures x in p[1..] <==> x in q[1..]
      {
        if x in p[1..] {
          var k :| 0 <= k < |p| - 1 && p[1..][k] == x;
          assert p[k + 1] == x && x != q[0];
          assert x in q;
          var m :| 0 <= m < |q| && q[m] == x;
          assert q[1..][m - 1] == x;
        }
        if x in q[1..] {
          var k :| 0 <= k < |q| - 1 && q[1..][k] == x;
          assert q[k + 1] == x && x != p[0];
          assert x in p;
          var m :| 0 <= m < |p| && p[m] == x;
          assert p[1..][m - 1] == x;
        }
      }
      OrderedUnique(keys, p[1..], q[1..]);
      assert p == [p[0]] + p[1..] && q == [q[0]] + q[1..];
    }
  }

  /** Two orderings of the same positions start with the same position: the one before all others. */
  lemma HeadsAgree(keys: seq<real>, p: seq<nat>, q: seq<nat>)
    requires Ordered(keys, p) && Ordered(keys, q)
    requires |p| == |q| > 0
    requires forall x :: x in p <==> x in q
    ensures p[0] == q[0]
  {
    var x, y := p[0], q[0];
    assert x in q && y in p;
    var b :| 0 <= b < |q| && q[b] == x;
    var a :| 0 <= a < |p| && p[a] == y;
    if a != 0 && b != 0 {
      assert false;
    }
  }

  /** The positions 0 .. n-1 in input order. */
  function Range(n: nat): (r: seq<nat>)
    ensures IsPermutation(r, n)
    ensures forall k :: 0 <= k < n ==> r[k] == k
  {
    var r := seq(n, k requires 0 <= k < n => k);
    assert forall x :: 0 <= x < n ==> r[x] == x && x in r;
    r
  }

  /** Reading the items in input order gives the items. */
  lemma ArrangeRange<T>(items: seq<T>)
    ensures Arrange(items, Range(|items|)) == items
  {
    assert forall k :: 0 <= k < |items| ==> Arrange(items, Range(|items|))[k] == items[k];
  }

  /** When every key is the same, the stable sort keeps the input order. */
  lemma TiedKeysKeepInputOrder(keys: seq<real>, order: seq<nat>)
    requires forall i, j :: 0 <= i < |keys| && 0 <= j < |keys| ==> keys[i] == keys[j]
    requires IsPermutation(order, |keys|) && Ordered(keys, order)
    ensures order == Range(|keys|)
  {
    var identity := Range(|keys|);
    forall x
      ensures x in order <==> x in identity
    {
      if x in identity {
        assert identity[x] == x;
      }
    }
    OrderedUnique(keys, order, identity);
  }
}

=== FILE: sushiswap.dfy ===
/**
 * The second-generation SushiSwap V3 adapter (aggregator-backend/services/sushiswap_service.py).
 * It differs from the Uniswap adapter in taking token0 from the caller's addresses when
 * two are supplied and in letting a caller-supplied fee tier override the pool's.
 */
module SushiSwap {
  import opened Wrappers
  import opened Text
  import opened PriceMath
  import opened Units
  import opened Quoting
  import Tokens

  /** `get_dex_fee_percent`: the pool's `fee()` as a fraction, or None. */
  function GetDexFeePercent(feeRead: Option<nat>): (r: Option<real>)
    ensures r.Some? <==> feeRead.Some?
    ensures r.Some? ==> r.value * 1_000_000.0 == feeRead.value as real
  {
    match feeRead
    case None => None
    case Some(fee) => Some(FeeFraction(fee))
  }

  /**
   * `get_mid_price`: as for Uniswap, with token0 found by `Token0Of`. The input symbol's
   * address is lower-cased and compared with the lower-cased token0.
   */
  function GetMidPrice(tm: Tokens.TokenManager, tokenFrom: string, tokenAddresses: seq<string>,
                       token0Read: Option<string>, sqrtPriceRead: Option<nat>, decimals: (nat, nat))
    : (r: Option<real>)
    ensures r.Some? <==>
              Token0Of(tokenAddresses, token0Read).Some? &&
              Tokens.GetAddressBySymbol(tm, tokenFrom).Some? && sqrtPriceRead.Some? &&
              (Lower(Tokens.GetAddressBySymbol(tm, tokenFrom).value) == Token0Of(tokenAddresses, token0Read).value
               || sqrtPriceRead.value != 0)
    ensures r.Some? ==>
              r.value == MidPriceFromSqrt(sqrtPriceRead.value, decimals.0, decimals.1,
                           Lower(Tokens.GetAddressBySymbol(tm, tokenFrom).value) == Token0Of(tokenAddresses, token0Read).value)
    ensures r.Some? && sqrtPriceRead.value > 0 ==> r.value > 0.0
  {
    match (Token0Of(tokenAddresses, token0Read), Tokens.GetAddressBySymbol(tm, tokenFrom), sqrtPriceRead)
    case (Some(token0), Some(fromAddress), Some(sqrt)) =>
      var isToken0In := Lower(fromAddress) == token0;
      if !isToken0In && sqrt == 0 then None
      else Some(MidPriceFromSqrt(sqrt, decimals.0, decimals.1, isToken0In))
    case _ => None
  }

  /** With two supplied addresses, token0 is the first one, whatever the chain says. */
  lemma MidPriceUsesSuppliedToken0(tm: Tokens.TokenManager, tokenFrom: string, tokenAddresses: seq<string>,
                                   read1: Option<string>, read2: Option<string>, sqrtPriceRead: Option<nat>,
                                   decimals: (nat, nat))
    requires |tokenAddresses| == 2
    ensures GetMidPrice(tm, tokenFrom, tokenAddresses, read1, sqrtPriceRead, decimals)
         == GetMidPrice(tm, tokenFrom, tokenAddresses, read2, sqrtPriceRead, decimals)
  {
    Token0OfIgnoresChainWhenSupplied(tokenAddresses, read1, read2);
  }

  /**
   * The fee tier of a quote: a truthy caller-supplied `pool_fee` wins; None or 0 falls back
   * to the pool's `fee()` read (None when that read fails).
   */
  function FeeTier(poolFee: Option<int>, feeRead: Option<nat>): (r: Option<int>)
    ensures poolFee.Some? && poolFee.value != 0 ==> r == poolFee
    ensures poolFee.None? || poolFee.value == 0 ==> r.Some? == feeRead.Some?
    ensures (poolFee.None? || poolFee.value == 0) && r.Some? ==> r.value == feeRead.value
  {
    if poolFee.Some? && poolFee.value != 0 then poolFee
    else match feeRead
      case None => None
      case Some(fee) => Some(fee as int)
  }

  /** `quote_exact_in`: the request to the QuoterV2 contract, with its direction. */
  function QuoteRequestFor(tm: Tokens.TokenManager, tokenFrom: string, tokenTo: string, amountIn: real,
                           decimals: (nat, nat), tokenAddresses: seq<string>, poolFee: Option<int>,
                           feeRead: Option<nat>, token0Read: Option<string>)
    : (r: Option<(QuoteRequest, bool)>)
    ensures r.Some? <==>
              FeeTier(poolFee, feeRead).Some? && Token0Of(tokenAddresses, token0Read).Some? &&
              Tokens.GetAddressBySymbol(tm, tokenFrom).Some? && Tokens.GetAddressBySymbol(tm, tokenTo).Some?
    ensures r.Some? ==>
              var isToken0In := Lower(Tokens.GetAddressBySymbol(tm, tokenFrom).value) == Token0Of(tokenAddresses, token0Read).value;
              r.value.1 == isToken0In &&
              r.value.0 == QuoteRequest(Tokens.GetAddressBySymbol(tm, tokenFrom).value,
                                        Tokens.GetAddressBySymbol(tm, tokenTo).value,
                                        FeeTier(poolFee, feeRead),
                                        QuoteInputUnits(amountIn, isToken0In, decimals), 0)
  {
    match (FeeTier(poolFee, feeRead), Tokens.GetAddressBySymbol(tm, tokenFrom),
           Tokens.GetAddressBySymbol(tm, tokenTo), Token0Of(tokenAddresses, token0Read))
    case (Some(fee), Some(inAddress), Some(outAddress), Some(token0)) =>
      var isToken0In := Lower(inAddress) == token0;
      Some((QuoteRequest(inAddress, outAddress, Some(fee), QuoteInputUnits(amountIn, isToken0In, decimals), 0),
            isToken0In))
    case _ => None
  }

  /** `quote_exact_in`: the quoter's output in whole output tokens, or None. */
  function QuoteExactIn(tm: Tokens.TokenManager, tokenFrom: string, tokenTo: string, amountIn: real,
                        decimals: (nat, nat), tokenAddresses: seq<string>, poolFee: Option<int>,
                        feeRead: Option<nat>, token0Read: Option<string>,
                        quoter: QuoteRequest -> Option<nat>): (r: Option<real>)
    ensures var request := QuoteRequestFor(tm, tokenFrom, tokenTo, amountIn, decimals, tokenAddresses,
                                           poolFee, feeRead, token0Read);
            (r.Some? <==> request.Some? && quoter(request.value.0).Some?) &&
            (r.Some? ==>
               r.value >= 0.0 &&
               (r.value == 0.0 <==> quoter(request.value.0).value == 0) &&
               r.value * Pow10Nat(DecOut(request.value.1, decimals)) == quoter(request.value.0).value as real &&
               ToBaseUnits(r.value, DecOut(request.value.1, decimals)) == quoter(request.value.0).value)
  {
    match QuoteRequestFor(tm, tokenFrom, tokenTo, amountIn, decimals, tokenAddresses, poolFee, feeRead, token0Read)
    case None => None
    case Some((request, isToken0In)) =>
      match quoter(request)
      case None => None
      case Some(amountOutWei) => Some(QuoteOutput(amountOutWei, isToken0In, decimals))
  }

  /** A truthy `pool_fee` makes the quote independent of the pool's own fee read. */
  lemma PoolFeeOverridesRead(tm: Tokens.TokenManager, tokenFrom: string, tokenTo: string, amountIn: real,
                             decimals: (nat, nat), tokenAddresses: seq<string>, poolFee: Option<int>,
                             read1: Option<nat>, read2: Option<nat>, token0Read: Option<string>,
                             quoter: QuoteRequest -> Option<nat>)
    requires poolFee.Some? && poolFee.value != 0
    ensures QuoteExactIn(tm, tokenFrom, tokenTo, amountIn, decimals, tokenAddresses, poolFee, read1, token0Read, quoter)
         == QuoteExactIn(tm, tokenFrom, tokenTo, amountIn, decimals, tokenAddresses, poolFee, read2, token0Read, quoter)
  {
    assert FeeTier(poolFee, read1) == FeeTier(poolFee, read2);
  }
}

=== FILE: text.dfy ===
/**
 * String helpers shared by the backend and the frontend: ASCII case folding
 * (Python's `str.lower` / `str.upper` on the ASCII letters), splitting on a
 * separator (`str.split`) and decimal rendering of a natural number.
 */
module Text {

  predicate IsUpperChar(c: char) { 'A' <= c <= 'Z' }
  predicate IsLowerChar(c: char) { 'a' <= c <= 'z' }

  function LowerChar(c: char): (r: char)
    ensures !IsUpperChar(r)
    ensures IsUpperChar(c) ==> r as int == c as int + 32
    ensures !IsUpperChar(c) ==> r == c
  {
    if IsUpperChar(c) then (c as int + 32) as char else c
  }

  function UpperChar(c: char): (r: char)
    ensures !IsLowerChar(r)
    ensures IsLowerChar(c) ==> r as int == c as int - 32
    ensures !IsLowerChar(c) ==> r == c
  {
    if IsLowerChar(c) then (c as int - 32) as char else c
  }

  /** `s.lower()` */
  function Lower(s: string): (r: string)
    ensures |r| == |s|
    ensures forall i :: 0 <= i < |r| ==> !IsUpperChar(r[i])
    ensures forall i :: 0 <= i < |s| && !IsUpperChar(s[i]) ==> r[i] == s[i]
  {
    seq(|s|, i requires 0 <= i < |s| => LowerChar(s[i]))
  }

  /** `s.upper()` */
  function Upper(s: string): (r: string)
    ensures |r| == |s|
    ensures forall i :: 0 <= i < |r| ==> !IsLowerChar(r[i])
    ensures forall i :: 0 <= i < |s| && !IsLowerChar(s[i]) ==> r[i] == s[i]
  {
    seq(|s|, i requires 0 <= i < |s| => UpperChar(s[i]))
  }

  /** Lower-casing is idempotent: a lower-cased address is its own canonical form. */
  lemma LowerIdempotent(s: string)
    ensures Lower(Lower(s)) == Lower(s)
  {
  }

  /** Upper-casing is idempotent: a symbol looked up once upper-cased stays the same key. */
  lemma UpperIdempotent(s: string)
    ensures Upper(Upper(s)) == Upper(s)
  {
  }

  /** Two strings are equal ignoring case exactly when their lower-cased forms agree. */
  predicate SameIgnoringCase(a: string, b: string) {
    Lower(a) == Lower(b)
  }

  lemma SameIgnoringCaseLower(a: string)
    ensures SameIgnoringCase(a, Lower(a))
  {
    LowerIdempotent(a);
  }

  // ---------------------------------------------------------------------
  // str.split(sep) and its inverse, sep.join(parts)

  /** Index of the first `sep` in `s`, or |s| when there is none. */
  function FirstIndexOf(s: string, sep: char): (k: nat)
    ensures k <= |s|
    ensures k < |s| ==> s[k] == sep
    ensures forall i :: 0 <= i < k ==> s[i] != sep
  {
    if s == [] then 0
    else if s[0] == sep then 0
    else 1 + FirstIndexOf(s[1..], sep)
  }

  /** `s.split(sep)` for a one-character separator: never empty, no part holds `sep`. */
  function Split(s: string, sep: char): (parts: seq<string>)
    ensures |parts| >= 1
    ensures forall p :: p in parts ==> sep !in p
    decreases |s|
  {
    var k := FirstIndexOf(s, sep);
    if k == |s| then [s]
    else [s[..k]] + Split(s[k + 1..], sep)
  }

  /** `sep.join(parts)` */
  function Join(parts: seq<string>, sep: char): string {
    if parts == [] then ""
    else if |parts| == 1 then parts[0]
    else parts[0] + [sep] + Join(parts[1..], sep)
  }

  /** Splitting and re-joining gives the original string back. */
  lemma {:induction false} JoinSplit(s: string, sep: char)
    ensures Join(Split(s, sep), sep) == s
    decreases |s|
  {
    var k := FirstIndexOf(s, sep);
    if k < |s| {
      var rest := s[k + 1..];
      JoinSplit(rest, sep);
      assert s == s[..k] + [sep] + rest;
    }
  }

  /** Splitting a joined sequence of separator-free parts recovers the parts. */
  lemma {:induction false} SplitJoin(parts: seq<string>, sep: char)
    requires |parts| >= 1
    requires forall p :: p in parts ==> sep !in p
    ensures Split(Join(parts, sep), sep) == parts
    decreases |parts|
  {
    if |parts| > 1 {
      var s := Join(parts, sep);
      var rest := Join(parts[1..], sep);
      assert s == parts[0] + [sep] + rest;
      FirstIndexOfPrefix(parts[0], rest, sep);
      assert s[..|parts[0]|] == parts[0];
      assert s[|parts[0]| + 1..] == rest;
      SplitJoin(parts[1..], sep);
    } else {
      FirstIndexOfAbsent(parts[0], sep);
    }
  }

  lemma {:induction false} FirstIndexOfAbsent(s: string, sep: char)
    requires sep !in s
    ensures FirstIndexOf(s, sep) == |s|
  {
    if s != [] {
      assert s[0] != sep;
      assert sep !in s[1..];
      FirstIndexOfAbsent(s[1..], sep);
    }
  }

  lemma {:induction false} FirstIndexOfPrefix(a: string, b: string, sep: char)
    requires sep !in a
    ensures FirstIndexOf(a + [sep] + b, sep) == |a|
  {
    if a != [] {
      assert (a + [sep] + b)[1..] == a[1..] + [sep] + b;
      assert sep !in a[1..];
      FirstIndexOfPrefix(a[1..], b, sep);
    }
  }

  // ---------------------------------------------------------------------
  // Decimal rendering of a natural number (JavaScript's `${n}` for n >= 0)

  predicate IsDigit(c: char) { '0' <= c <= '9' }

  function DigitChar(d: nat): (c: char)
    requires d < 10
    ensures IsDigit(c)
  {
    ('0' as int + d) as char
  }

  function NatToString(n: nat): (r: string)
    ensures |r| >= 1
    ensures forall i :: 0 <= i < |r| ==> IsDigit(r[i])
  {
    if n < 10 then [DigitChar(n)]
    else NatToString(n / 10) + [DigitChar(n % 10)]
  }

  function DigitsValue(s: string): nat
    requires forall i :: 0 <= i < |s| ==> IsDigit(s[i])
  {
    if s == [] then 0
    else
      var last := s[|s| - 1];
      assert IsDigit(last);
      10 * DigitsValue(s[..|s| - 1]) + (last as int - '0' as int)
  }

  /** The rendered digits read back as the same number. */
  lemma {:induction false} NatToStringRoundTrip(n: nat)
    ensures DigitsValue(NatToString(n)) == n
  {
    if n >= 10 {
      var s := NatToString(n);
      assert s[..|s| - 1] == NatToString(n / 10);
      NatToStringRoundTrip(n / 10);
    }
  }
}

=== FILE: token_manager.dfy ===
/**
 * The token registry (aggregator-backend/token_manager.py): the configured tokens by
 * symbol, an index of the same tokens by lower-cased address, and the lookups the
 * adapters and the pipeline use. The registry is built once and never updated.
 */
module Tokens {
  import opened Wrappers
  import opened Text

  /** One configured token: its contract address, decimals and price-oracle id. */
  datatype TokenData = TokenData(address: string, decimals: nat, coingeckoId: string)

  /** The registry: `tokens` by symbol and `tokens_by_address` by lower-cased address. */
  datatype TokenManager = TokenManager(tokens: map<string, TokenData>, byAddress: map<string, TokenData>)

  /** The symbol table of a configuration listed in order; a later entry overrides an earlier one. */
  function SymbolTable(entries: seq<(string, TokenData)>): (m: map<string, TokenData>)
    ensures forall k :: k in m <==> exists i :: 0 <= i < |entries| && entries[i].0 == k
  {
    if entries == [] then map[]
    else
      var init := entries[..|entries| - 1];
      var last := entries[|entries| - 1];
      assert forall i :: 0 <= i < |init| ==> init[i] == entries[i];
      SymbolTable(init)[last.0 := last.1]
  }

  /** The address index, `{v["address"].lower(): v for v in tokens.values()}`; a later entry wins. */
  function AddressIndex(entries: seq<(string, TokenData)>): (m: map<string, TokenData>)
    ensures forall k :: k in m <==> exists i :: 0 <= i < |entries| && Lower(entries[i].1.address) == k
  {
    if entries == [] then map[]
    else
      var init := entries[..|entries| - 1];
      var last := entries[|entries| - 1];
      assert forall i :: 0 <= i < |init| ==> init[i] == entries[i];
      AddressIndex(init)[Lower(last.1.address) := last.1]
  }

  /** `TokenManager(tokens_data)`: both tables from the configuration, in its order. */
  function NewTokenManager(entries: seq<(string, TokenData)>): (tm: TokenManager)
    ensures tm.tokens.Keys == set i | 0 <= i < |entries| :: entries[i].0
    ensures tm.byAddress.Keys == set i | 0 <= i < |entries| :: Lower(entries[i].1.address)
  {
    var tm := TokenManager(SymbolTable(entries), AddressIndex(entries));
    assert tm.tokens.Keys == set i | 0 <= i < |entries| :: entries[i].0 by {
      forall k | k in tm.tokens ensures k in set i | 0 <= i < |entries| :: entries[i].0 {
        var i :| 0 <= i < |entries| && entries[i].0 == k;
      }
    }
    assert tm.byAddress.Keys == set i | 0 <= i < |entries| :: Lower(entries[i].1.address) by {
      forall k | k in tm.byAddress ensures k in set i | 0 <= i < |entries| :: Lower(entries[i].1.address) {
        var i :| 0 <= i < |entries| && Lower(entries[i].1.address) == k;
      }
    }
    tm
  }

  /** The index maps an address to the LAST configured token with that address. */
  lemma {:induction false} AddressIndexLastWins(entries: seq<(string, TokenData)>, j: nat)
    requires j < |entries|
    requires forall i :: j < i < |entries| ==> Lower(entries[i].1.address) != Lower(entries[j].1.address)
    ensures Lower(entries[j].1.address) in AddressIndex(entries)
    ensures AddressIndex(entries)[Lower(entries[j].1.address)] == entries[j].1
  {
    if j < |entries| - 1 {
      var init := entries[..|entries| - 1];
      assert forall i :: j < i < |init| ==> init[i] == entries[i];
      AddressIndexLastWins(init, j);
    }
  }

  /**
   * `get_address_by_symbol`: the symbol is upper-cased, and the configured address is
   * returned lower-cased; None for an unknown symbol.
   */
  function GetAddressBySymbol(tm: TokenManager, symbol: string): (r: Option<string>)
    ensures r.Some? <==> Upper(symbol) in tm.tokens
    ensures r.Some? ==> SameIgnoringCase(r.value, tm.tokens[Upper(symbol)].address)
    ensures r.Some? ==> forall i :: 0 <= i < |r.value| ==> !IsUpperChar(r.value[i])
  {
    if Upper(symbol) in tm.tokens then
      var a := tm.tokens[Upper(symbol)].address;
      LowerIdempotent(a);
      Some(Lower(a))
    else None
  }

  /** The symbol lookup does not depend on the case the symbol is written in. */
  lemma GetAddressBySymbolCaseInsensitive(tm: TokenManager, symbol: string)
    ensures GetAddressBySymbol(tm, symbol) == GetAddressBySymbol(tm, Upper(symbol))
  {
    UpperIdempotent(symbol);
  }

  /** `get_token_by_address`: a lookup in the index under the lower-cased address. */
  function GetTokenByAddress(tm: TokenManager, address: string): (r: Option<TokenData>)
    ensures r.Some? <==> Lower(address) in tm.byAddress
    ensures r.Some? ==> r.value == tm.byAddress[Lower(address)]
    ensures r.Some? ==> r.value in tm.byAddress.Values
  {
    Get(tm.byAddress, Lower(address))
  }

  /** The address lookup is case-insensitive: addresses equal ignoring case find the same token. */
  lemma GetTokenByAddressCaseInsensitive(tm: TokenManager, a: string, b: string)
    requires SameIgnoringCase(a, b)
    ensures GetTokenByAddress(tm, a) == GetTokenByAddress(tm, b)
  {
  }

  /** The last configuration entry, from position j on, whose address lower-cases to key. */
  lemma {:induction false} LastMatching(entries: seq<(string, TokenData)>, j: nat, key: string) returns (k: nat)
    requires j < |entries| && Lower(entries[j].1.address) == key
    ensures j <= k < |entries| && Lower(entries[k].1.address) == key
    ensures forall i :: k < i < |entries| ==> Lower(entries[i].1.address) != key
    decreases |entries| - j
  {
    if exists i :: j < i < |entries| && Lower(entries[i].1.address) == key {
      var i :| j < i < |entries| && Lower(entries[i].1.address) == key;
      k := LastMatching(entries, i, key);
    } else {
      k := j;
    }
  }

  /**
   * Every configured address, in any case, is found by the registry built from it, and
   * what is found is the last configured token with that address.
   */
  lemma ConfiguredAddressFound(entries: seq<(string, TokenData)>, j: nat, address: string)
    requires j < |entries| && SameIgnoringCase(address, entries[j].1.address)
    ensures GetTokenByAddress(NewTokenManager(entries), address).Some?
    ensures exists k :: j <= k < |entries| &&
              GetTokenByAddress(NewTokenManager(entries), address) == Some(entries[k].1) &&
              forall i :: k < i < |entries| ==> Lower(entries[i].1.address) != Lower(address)
  {
    var k := LastMatching(entries, j, Lower(address));
    AddressIndexLastWins(entries, k);
  }

  /**
   * `get_decimals_for_pool`: both tokens' decimals in order, or (0, 0) when either
   * address is unknown.
   */
  function GetDecimalsForPool(tm: TokenManager, token0: string, token1: string): (r: (nat, nat))
    ensures Lower(token0) in tm.byAddress && Lower(token1) in tm.byAddress ==>
              r == (tm.byAddress[Lower(token0)].decimals, tm.byAddress[Lower(token1)].decimals)
    ensures Lower(token0) !in tm.byAddress || Lower(token1) !in tm.byAddress ==> r == (0, 0)
  {
    match (GetTokenByAddress(tm, token0), GetTokenByAddress(tm, token1))
    case (Some(t0), Some(t1)) => (t0.decimals, t1.decimals)
    case _ => (0, 0)
  }

  /**
   * `get_pool_addresses`: the pool's token0 and token1 read from the chain and
   * lower-cased, when both are configured tokens, and the empty list otherwise. A failed
   * read (None) raises out of the method, which is the outer None here.
   */
  function GetPoolAddresses(tm: TokenManager, token0Read: Option<string>, token1Read: Option<string>)
    : (r: Option<seq<string>>)
    ensures r.Some? <==> token0Read.Some? && token1Read.Some?
    ensures r.Some? && r.value != [] ==>
              r.value == [Lower(token0Read.value), Lower(token1Read.value)]
    ensures r.Some? ==> (r.value != [] <==>
              Lower(token0Read.value) in tm.byAddress && Lower(token1Read.value) in tm.byAddress)
  {
    match (token0Read, token1Read)
    case (Some(a0), Some(a1)) =>
      var t0 := Lower(a0);
      var t1 := Lower(a1);
      LowerIdempotent(a0);
      LowerIdempotent(a1);
      if GetTokenByAddress(tm, t0).Some? && GetTokenByAddress(tm, t1).Some? then Some([t0, t1])
      else Some([])
    case _ => None
  }

  /** The addresses `get_pool_addresses` returns always resolve to decimals from the registry. */
  lemma PoolAddressesHaveDecimals(tm: TokenManager, token0Read: Option<string>, token1Read: Option<string>)
    requires GetPoolAddresses(tm, token0Read, token1Read).Some?
    requires GetPoolAddresses(tm, token0Read, token1Read).value != []
    ensures var addrs := GetPoolAddresses(tm, token0Read, token1Read).value;
            GetDecimalsForPool(tm, addrs[0], addrs[1])
              == (tm.byAddress[Lower(token0Read.value)].decimals, tm.byAddress[Lower(token1Read.value)].decimals)
  {
    LowerIdempotent(token0Read.value);
    LowerIdempotent(token1Read.value);
  }
}

=== FILE: uniswap.dfy ===
/**
 * The second-generation Uniswap V3 adapter (aggregator-backend/services/uniswap_service.py).
 * Every chain read is a parameter; None stands for a read that raised, which the adapter
 * catches and turns into a None result.
 */
module Uniswap {
  import opened Wrappers
  import opened Text
  import opened PriceMath
  import opened Units
  import opened Quoting
  import Tokens

  /** `get_dex_fee_percent`: the pool's `fee()` in millionths as a fraction, or None. */
  function GetDexFeePercent(feeRead: Option<nat>): (r: Option<real>)
    ensures r.Some? <==> feeRead.Some?
    ensures r.Some? ==> r.value * 1_000_000.0 == feeRead.value as real
  {
    match feeRead
    case None => None
    case Some(fee) => Some(FeeFraction(fee))
  }

  /**
   * `get_mid_price`: token0 is the input iff the input symbol's configured address equals
   * the pool's `token0()` ignoring case; the mid-price is `mid_price_from_univ3_sqrt` of
   * `slot0()[0]`. An unknown symbol, a failed read, or a zero price with token1 input
   * (Decimal division by zero) all give None.
   */
  function GetMidPrice(tm: Tokens.TokenManager, tokenFrom: string, token0Read: Option<string>,
                       sqrtPriceRead: Option<nat>, decimals: (nat, nat)): (r: Option<real>)
    ensures r.Some? <==>
              Tokens.GetAddressBySymbol(tm, tokenFrom).Some? && token0Read.Some? && sqrtPriceRead.Some? &&
              (IsToken0In(Tokens.GetAddressBySymbol(tm, tokenFrom).value, token0Read.value) || sqrtPriceRead.value != 0)
    ensures r.Some? ==>
              r.value == MidPriceFromSqrt(sqrtPriceRead.value, decimals.0, decimals.1,
                                          IsToken0In(Tokens.GetAddressBySymbol(tm, tokenFrom).value, token0Read.value))
    ensures r.Some? ==> r.value >= 0.0
    ensures r.Some? && sqrtPriceRead.value > 0 ==> r.value > 0.0
  {
    match (Tokens.GetAddressBySymbol(tm, tokenFrom), token0Read, sqrtPriceRead)
    case (Some(fromAddress), Some(token0), Some(sqrt)) =>
      var isToken0In := IsToken0In(fromAddress, token0);
      if !isToken0In && sqrt == 0 then None
      else Some(MidPriceFromSqrt(sqrt, decimals.0, decimals.1, isToken0In))
    case _ => None
  }

  /** The two directions of one pool give reciprocal mid-prices. */
  lemma MidPriceDirectionsReciprocal(tm: Tokens.TokenManager, fromSymbol: string, toSymbol: string,
                                     token0: string, sqrt: nat, decimals: (nat, nat))
    requires sqrt != 0
    requires Tokens.GetAddressBySymbol(tm, fromSymbol).Some? && Tokens.GetAddressBySymbol(tm, toSymbol).Some?
    requires IsToken0In(Tokens.GetAddressBySymbol(tm, fromSymbol).value, token0)
    requires !IsToken0In(Tokens.GetAddressBySymbol(tm, toSymbol).value, token0)
    ensures GetMidPrice(tm, fromSymbol, Some(token0), Some(sqrt), decimals).Some?
    ensures GetMidPrice(tm, toSymbol, Some(token0), Some(sqrt), decimals).Some?
    ensures GetMidPrice(tm, fromSymbol, Some(token0), Some(sqrt), decimals).value
          * GetMidPrice(tm, toSymbol, Some(token0), Some(sqrt), decimals).value == 1.0
  {
    MidPriceReciprocal(sqrt, decimals.0, decimals.1);
  }

  /**
   * `quote_exact_in`: the request sent to the Quoter V3 contract (`quoter`, None when the
   * call raises), or None when a read or a symbol lookup fails first. The fee tier is
   * always the pool's own `fee()`.
   */
  function QuoteRequestFor(tm: Tokens.TokenManager, tokenFrom: string, tokenTo: string, amountIn: real,
                           decimals: (nat, nat), feeRead: Option<nat>, token0Read: Option<string>)
    : (r: Option<(QuoteRequest, bool)>)
    ensures r.Some? <==>
              feeRead.Some? && token0Read.Some? &&
              Tokens.GetAddressBySymbol(tm, tokenFrom).Some? && Tokens.GetAddressBySymbol(tm, tokenTo).Some?
    ensures r.Some? ==>
              var isToken0In := IsToken0In(Tokens.GetAddressBySymbol(tm, tokenFrom).value, token0Read.value);
              r.value.1 == isToken0In &&
              r.value.0.tokenIn == Tokens.GetAddressBySymbol(tm, tokenFrom).value &&
              r.value.0.tokenOut == Tokens.GetAddressBySymbol(tm, tokenTo).value &&
              r.value.0.feeTier == Some(feeRead.value) &&
              r.value.0.amountInWei == QuoteInputUnits(amountIn, isToken0In, decimals) &&
              r.value.0.sqrtPriceLimit == 0
  {
    match (feeRead, Tokens.GetAddressBySymbol(tm, tokenFrom), Tokens.GetAddressBySymbol(tm, tokenTo), token0Read)
    case (Some(fee), Some(inAddress), Some(outAddress), Some(token0)) =>
      var isToken0In := IsToken0In(inAddress, token0);
      Some((QuoteRequest(inAddress, outAddress, Some(fee), QuoteInputUnits(amountIn, isToken0In, decimals), 0),
            isToken0In))
    case _ => None
  }

  /** `quote_exact_in`: the quoter's output in whole output tokens, or None. */
  function QuoteExactIn(tm: Tokens.TokenManager, tokenFrom: string, tokenTo: string, amountIn: real,
                        decimals: (nat, nat), feeRead: Option<nat>, token0Read: Option<string>,
                        quoter: QuoteRequest -> Option<nat>): (r: Option<real>)
    ensures r.Some? <==>
              QuoteRequestFor(tm, tokenFrom, tokenTo, amountIn, decimals, feeRead, token0Read).Some? &&
              quoter(QuoteRequestFor(tm, tokenFrom, tokenTo, amountIn, decimals, feeRead, token0Read).value.0).Some?
    ensures r.Some? ==>
              var (request, isToken0In) := QuoteRequestFor(tm, tokenFrom, tokenTo, amountIn, decimals, feeRead, token0Read).value;
              r.value >= 0.0 &&
              (r.value == 0.0 <==> quoter(request).value == 0) &&
              r.value * Pow10Nat(DecOut(isToken0In, decimals)) == quoter(request).value as real &&
              ToBaseUnits(r.value, DecOut(isToken0In, decimals)) == quoter(request).value
  {
    match QuoteRequestFor(tm, tokenFrom, tokenTo, amountIn, decimals, feeRead, token0Read)
    case None => None
    case Some((request, isToken0In)) =>
      match quoter(request)
      case None => None
      case Some(amountOutWei) => Some(QuoteOutput(amountOutWei, isToken0In, decimals))
  }

  /** A quoter answer of zero is a quote of 0, not a missing quote. */
  lemma ZeroQuoteIsZero(tm: Tokens.TokenManager, tokenFrom: string, tokenTo: string, amountIn: real,
                        decimals: (nat, nat), feeRead: Option<nat>, token0Read: Option<string>,
                        quoter: QuoteRequest -> Option<nat>)
    requires QuoteRequestFor(tm, tokenFrom, tokenTo, amountIn, decimals, feeRead, token0Read).Some?
    requires quoter(QuoteRequestFor(tm, tokenFrom, tokenTo, amountIn, decimals, feeRead, token0Read).value.0) == Some(0)
    ensures QuoteExactIn(tm, tokenFrom, tokenTo, amountIn, decimals, feeRead, token0Read, quoter) == Some(0.0)
  {
  }
}

=== FILE: units.dfy ===
/**
 * Unit conversions shared by the pool adapters: fee tiers in millionths, Python's
 * truncating `int(...)` of a Decimal, and the conversion between whole-token amounts
 * and integer base units (`amount * 10**decimals`).
 */
module Units {
  import opened Text
  import opened PriceMath

  /** `Decimal(fee) / Decimal(1_000_000)`: an on-chain fee tier in millionths as a fraction. */
  function FeeFraction(feeMicro: nat): (r: real)
    ensures r >= 0.0
    ensures r * 1_000_000.0 == feeMicro as real
  {
    feeMicro as real / 1_000_000.0
  }

  /** The 0.05% tier decodes to 0.0005, the 0.3% tier to 0.003. */
  lemma FeeFractionExamples()
    ensures FeeFraction(500) == 0.0005
    ensures FeeFraction(3000) == 0.003
  {
  }

  /** Distinct fee tiers decode to distinct fractions. */
  lemma FeeFractionInjective(a: nat, b: nat)
    requires FeeFraction(a) == FeeFraction(b)
    ensures a == b
  {
    assert a as real == FeeFraction(a) * 1_000_000.0;
  }

  /** Python's `int(x)` on a Decimal: truncation toward zero. */
  function TruncToZero(x: real): (r: int)
    ensures x >= 0.0 ==> r as real <= x < r as real + 1.0
    ensures x < 0.0 ==> r as real - 1.0 < x <= r as real
    ensures x >= 0.0 ==> r >= 0
  {
    if x >= 0.0 then x.Floor else -((-x).Floor)
  }

  /** `int(amount * 10**decimals)`: an amount of whole tokens in integer base units. */
  function ToBaseUnits(amount: real, decimals: nat): (r: int)
    ensures amount >= 0.0 ==> r >= 0
  {
    var scaled := amount * Pow10Nat(decimals);
    assert amount >= 0.0 ==> scaled >= 0.0;
    TruncToZero(scaled)
  }

  /** `Decimal(units) / 10**decimals`: integer base units as whole tokens. */
  function FromBaseUnits(units: int, decimals: nat): (r: real)
    ensures units >= 0 ==> r >= 0.0
    ensures units == 0 <==> r == 0.0
    ensures r * Pow10Nat(decimals) == units as real
  {
    DivMulCancel(units as real, Pow10Nat(decimals));
    units as real / Pow10Nat(decimals)
  }

  /** Scaling back and forth by a positive factor is the identity. */
  lemma DivMulCancel(u: real, p: real)
    requires p > 0.0
    ensures (u / p) * p == u
  {
  }

  /** Whole base units survive the round trip through a decimal amount exactly. */
  lemma BaseUnitsRoundTrip(units: int, decimals: nat)
    ensures ToBaseUnits(FromBaseUnits(units, decimals), decimals) == units
  {
    DivMulCancel(units as real, Pow10Nat(decimals));
  }

  /**
   * A non-negative amount loses less than one base unit when it is truncated: converting
   * back gives at most the amount, and less than one base unit below it.
   */
  lemma ToBaseUnitsLosesLessThanOneUnit(amount: real, decimals: nat)
    requires amount >= 0.0
    ensures FromBaseUnits(ToBaseUnits(amount, decimals), decimals) <= amount
    ensures amount < FromBaseUnits(ToBaseUnits(amount, decimals), decimals) + 1.0 / Pow10Nat(decimals)
  {
    var p := Pow10Nat(decimals);
    var t := ToBaseUnits(amount, decimals) as real;
    assert t <= amount * p < t + 1.0;
    DivBounds(t, amount, p);
  }

  /** Dividing `t <= a*p < t + 1` by a positive p. */
  lemma DivBounds(t: real, a: real, p: real)
    requires p > 0.0 && t <= a * p < t + 1.0
    ensures t / p <= a < t / p + 1.0 / p
  {
    assert t / p <= (a * p) / p;
    assert (a * p) / p < (t + 1.0) / p;
    assert (a * p) / p == a;
  }

  /**
   * Direction detection of the adapters: token0 is the input token iff the input token's
   * address equals the pool's token0 address, compared lower-cased.
   */
  predicate IsToken0In(tokenInAddress: string, token0Address: string)
  {
    Lower(tokenInAddress) == Lower(token0Address)
  }

  /** `dec_in = dec0 if is0_in else dec1`. */
  function DecIn(isToken0In: bool, decimals: (nat, nat)): (r: nat)
    ensures r == decimals.0 || r == decimals.1
  {
    if isToken0In then decimals.0 else decimals.1
  }

  /** `dec_out = dec1 if is0_in else dec0`. */
  function DecOut(isToken0In: bool, decimals: (nat, nat)): (r: nat)
    ensures r == decimals.0 || r == decimals.1
  {
    if isToken0In then decimals.1 else decimals.0
  }

  /** The input and output decimals are always the pool's two decimals, one each. */
  lemma DecInOutPartition(isToken0In: bool, decimals: (nat, nat))
    ensures {DecIn(isToken0In, decimals), DecOut(isToken0In, decimals)} == {decimals.0, decimals.1}
    ensures DecIn(isToken0In, decimals) == DecOut(!isToken0In, decimals)
  {
  }
}

=== FILE: wrappers.dfy ===
/** Optional values: Python's `None` / value results and JavaScript's missing values. */
module Wrappers {

  datatype Option<+T> = None | Some(value: T) {

    /** The value, or `default` when there is none (Python's `d.get(k, default)` shape). */
    function GetOr(default: T): T {
      match this
      case Some(v) => v
      case None => default
    }
  }

  /** Outcome of a Python call that may raise instead of returning. */
  datatype Result<+T, +E> = Ok(value: T) | Err(error: E)

  /** Python's `d.get(k)` on a dictionary. */
  function Get<K, V>(m: map<K, V>, k: K): (r: Option<V>)
    ensures r.Some? <==> k in m
    ensures r.Some? ==> r.value == m[k]
  {
    if k in m then Some(m[k]) else None
  }
}
